=== FILE: README.md ===
# Stachbit site core, modelled in Dafny

A model of the logic behind the Stachbit marketing site, a React single-page
application backed by Supabase. It covers:

- the blog post renderer: the home-grown Markdown subset of
  `renderContent`/`renderInlineFormatting`;
- the project cost calculator;
- the contact form;
- the blog search and loading;
- the portfolio filter;
- the settings queries of the data layer;
- the footer's social and contact columns;
- the testimonial carousel;
- the SEO head manager.

Modules follow the source files:

| module | file | models |
|---|---|---|
| `Common` | `common.dfy` | `Option`/`Result` and `Array.prototype.filter` |
| `JsText` | `js_text.dfy` | the JavaScript string operations the site leans on: `trim` over the ECMAScript whitespace set, `split`/`join`, `indexOf`, `includes`, `replace(/\s/g, '')`, ASCII `toLowerCase` |
| `Settings` | `settings.dfy` | `src/lib/supabase.ts`: the key/value settings fold (last row wins), contact settings with defaults, social links, site settings, distinct blog categories, and the paging of the blog query |
| `Inline` | `inline.dfy` | `renderInlineFormatting`: the four regular expressions (bold, italic, code, link) stated as predicates, the leftmost match across them, and the tokenizer loop |
| `Blocks` | `blocks.dfy` | `renderContent`: line-ending normalization, the split on fenced code blocks, line classification, the paragraph/list accumulator and the rendered block list |
| `BlockLaws` | `block_laws.dfy` | laws of the block reader: runs of one line kind, blank lines as separators, whole fenced blocks, a heading followed by a paragraph |
| `Calculator` | `calculator.dfy` | `CostCalculator.tsx`: the catalog, the memoised estimate, the add-on toggle, the page stepper and the service reset |
| `Contact` | `contact.dfy` | `Contact.tsx`: the form, validation (with the email regular expression as a predicate), the insert payload, the notification POST, and the displayed contact details |
| `Footer` | `footer.dfy` | `Footer.tsx`: active social links with fallback icons, the contact column |
| `Blog` | `blog.dfy` | `Blog.tsx`: the case-insensitive search, the featured strip, the three list loads |
| `Portfolio` | `portfolio.dfy` | `Portfolio.tsx`: the service filter, the demo-project fallback, technology badges |
| `Carousel` | `carousel.dfy` | `TestimonialCarousel.tsx`: next/prev/dot navigation under the animation lock, and the auto-advance timer both as intended and as written |
| `Seo` | `seo.dfy` | `SEOHead.tsx`: the document head as a sequence of elements, the meta/link upserts of one effect run, the unmount, and the article structured-data script |

Network calls are parameters. A query's `{ data, error }` becomes a
`Response` value, and the success of the inquiry insert is a boolean.
The React state of each page is a datatype. Event handlers are pure
functions from the old state to the new one, and one completed run of an
asynchronous loader is one such step (see `Blog.Load` under "Left out").

Two behaviours of the code are easy to misread; the model follows the
code:

- `SEOHead` restores only the document title on unmount. The meta tags it
  wrote stay in the head (`Seo.Unmount`).
- `content.replace(/\r\n/g, '\n')` replaces only CR LF pairs. A lone CR is
  kept, and `"\r\r\n"` becomes `"\r\n"` (`Blocks.LoneCarriageReturn`).
- The settings records are plain `{}` objects. Writing a string under
  `__proto__` goes to the prototype setter, which ignores it, so a row
  keyed `__proto__` leaves no entry (`Settings.Collect`,
  `Settings.ProtoRowIgnored`).

## Model

| member | source | states |
|---|---|---|
| Common.Filter | src/pages/Portfolio.tsx:132 | the kept elements are exactly the input's elements that pass, each passing |
| Common.FilterConcat | src/pages/Blog.tsx:49-53 | filtering distributes over concatenation, so the original order is kept |
| Common.FilterOne | src/components/layout/Footer.tsx:51 | a single element survives exactly when it passes |
| Common.FilterKeepsAll | src/pages/Blog.tsx:49-53 | when every element passes, filtering returns the input unchanged |
| Common.FilterAgree | src/pages/Blog.tsx:49-53 | two predicates that agree on the input filter it the same way |
| JsText.TrimStart | src/pages/BlogPost.tsx:160 | the result is a suffix of the input; everything dropped is whitespace and the result does not start with whitespace |
| JsText.TrimEnd | src/pages/BlogPost.tsx:160 | the result is a prefix; everything dropped is whitespace and the result does not end with whitespace |
| JsText.Trim | src/pages/BlogPost.tsx:160 | the result has no whitespace at either end; already-trimmed text is returned as is |
| JsText.TrimStrips | src/pages/BlogPost.tsx:160 | trimming removes only whitespace, and only from the two ends: the result is a slice of the input framed by whitespace |
| JsText.TrimEmptyIffBlank | src/pages/BlogPost.tsx:160-163 | a line trims to '' exactly when every character is whitespace, which is when it counts as blank |
| JsText.TrimPadded | src/pages/BlogPost.tsx:160 | trimming whitespace-padded text gives back the text |
| JsText.TrimStartPadded | src/pages/BlogPost.tsx:160 | `trimStart` removes exactly a whitespace prefix in front of text that does not start with whitespace |
| JsText.TrimEndPadded | src/pages/BlogPost.tsx:160 | `trimEnd` removes exactly a whitespace suffix after text that does not end with whitespace |
| JsText.Split | src/pages/BlogPost.tsx:121 | splitting gives at least one piece and no piece contains the separator |
| JsText.SplitNoSep | src/pages/BlogPost.tsx:121 | text without the separator splits into itself alone |
| JsText.SplitAtSep | src/pages/BlogPost.tsx:121 | a separator-free first piece is split off at the first separator |
| JsText.JoinSplit | src/pages/BlogPost.tsx:109 | joining the pieces of a split with the separator gives the input back |
| JsText.SplitJoin | src/pages/BlogPost.tsx:109 | splitting a join of separator-free pieces gives the pieces back |
| JsText.IndexOf | src/pages/BlogPost.tsx:301 | the first occurrence of the character at or after the start, or the length when there is none |
| JsText.Includes | src/pages/Blog.tsx:51-52 | true exactly when the query occurs somewhere in the text |
| JsText.RemoveWhitespace | src/pages/Contact.tsx:65 | the result has no whitespace, and input without whitespace comes back unchanged |
| JsText.RemoveWhitespaceConcat | src/pages/Contact.tsx:65 | removing whitespace distributes over concatenation |
| JsText.Lower | src/pages/Blog.tsx:51-52 | same length, each character mapped through the ASCII case fold |
| Settings.Collect | src/lib/supabase.ts:270-273 | the folded record has a key exactly when some row carries it and it is not `__proto__` |
| Settings.ProtoRowIgnored | src/lib/supabase.ts:270-273 | a `__proto__` row, wherever it stands, changes nothing in the folded record |
| Settings.CollectLast | src/lib/supabase.ts:270-273 | each key other than `__proto__` maps to the value of the last row carrying it; a null value reads as '' |
| Settings.ContactFrom | src/lib/supabase.ts:275-284 | each contact field is the folded value when non-empty, else its default |
| Settings.GetContactSettings | src/lib/supabase.ts:250-285 | a failed query or missing data yields exactly the defaults |
| Settings.FieldsDetermine | src/lib/supabase.ts:275-284 | a contact record is fixed by its eight fields |
| Settings.IrrelevantRowsGiveDefaults | src/lib/supabase.ts:250-285 | rows with no contact key give exactly the error-path defaults |
| Settings.ContactFieldFromLastRow | src/lib/supabase.ts:250-285 | a field is the last row's value for its key when non-empty, else the default |
| Settings.ContactFieldWithoutRow | src/lib/supabase.ts:250-285 | a field with no row keeps its default |
| Settings.UnknownKeyIgnored | src/lib/supabase.ts:250-285 | appending a row whose key is not a contact key changes nothing |
| Settings.GetSocialLinks | src/lib/supabase.ts:296-326 | on error, all six links are ''; otherwise each platform's link is the folded value for its key, or '' when no row has it |
| Settings.LinksFrom | src/lib/supabase.ts:318-325 | each of the six links reads its own platform's key |
| Settings.SocialFromLastRow | src/lib/supabase.ts:296-326 | a platform's link is the url of the last row for it |
| Settings.SocialWithoutRow | src/lib/supabase.ts:296-326 | a platform with no row has an empty link |
| Settings.GetSiteSettings | src/lib/supabase.ts:124-140 | none exactly on error; otherwise a record whose keys are exactly the rows' keys other than `__proto__`, each holding the value of the last row with that key ('' for a null value) |
| Settings.CollectAllLast | src/lib/supabase.ts:132-136 | for every key other than `__proto__`, the folded record holds the value of the last row carrying it |
| Settings.Present | src/lib/supabase.ts:229-234 | the kept categories are exactly the non-null, non-empty ones |
| Settings.PresentConcat | src/lib/supabase.ts:234 | the filter keeps the rows' order: filtering a concatenation concatenates the filtered parts |
| Settings.PresentFirstOrder | src/lib/supabase.ts:234 | a category first kept before another also first appears before it among the raw rows |
| Settings.Unique | src/lib/supabase.ts:234 | no duplicates, and the same set of values as the input |
| Settings.UniqueFirstOrder | src/lib/supabase.ts:234 | distinct categories keep the order of their first appearance |
| Settings.GetBlogCategories | src/lib/supabase.ts:224-236 | none exactly on error; otherwise duplicate-free and exactly the non-empty categories present |
| Settings.CategoriesFirstOrder | src/lib/supabase.ts:224-236 | of two listed categories, the earlier one first occurs earlier in the rows |
| Settings.RowWindow | src/lib/supabase.ts:191-193 | a range only when the offset is truthy: it starts at the offset and spans the limit, or 10 rows without one |
| Settings.WindowsAdjoin | src/lib/supabase.ts:191-193 | the next page's range starts right after the previous one ends |
| Settings.PagingOf | src/lib/supabase.ts:187-193 | `.limit` is applied exactly when the limit is truthy, whatever the offset, and the range as above |
| Settings.Page | src/lib/supabase.ts:187-195 | the returned rows are consecutive matches from the requested offset, no more than the requested count, and all remaining rows when nothing caps them |
| Settings.LimitCaps | src/lib/supabase.ts:187-193 | a truthy limit caps the rows returned, with or without an offset |
| Settings.UnpagedIsAll | src/lib/supabase.ts:187-193 | without a limit and an offset every matching row is returned |
| Settings.PageFull | src/lib/supabase.ts:187-193 | a page that ends inside the matches holds exactly `limit` rows from the offset |
| Settings.PagesAdjoin | src/lib/supabase.ts:191-193 | two consecutive pages together read the matches without gap or overlap |
| Inline.SourceConcat | src/pages/BlogPost.tsx:286-371 | the source text of spans distributes over concatenation |
| Inline.BoldClose | src/pages/BlogPost.tsx:295 | the lazy `(.+?)\*\*` closes at the first `**` after non-empty content without line terminators, and fails exactly when none exists |
| Inline.BoldAt | src/pages/BlogPost.tsx:295 | `\*\*(.+?)\*\*` matches at a position exactly when a bold span starts there, consuming exactly its source |
| Inline.StarItalicAt | src/pages/BlogPost.tsx:297 | `(?<!\*)\*([^*]+?)\*(?!\*)` matches exactly when a starred italic span starts there |
| Inline.UnderscoreItalicAt | src/pages/BlogPost.tsx:297 | `_([^_]+?)_` matches exactly when an underscore italic span starts there |
| Inline.ItalicAt | src/pages/BlogPost.tsx:297 | the italic pattern matches exactly when either alternative does, the starred one first |
| Inline.CodeAt | src/pages/BlogPost.tsx:299 | `` `([^`]+)` `` matches exactly when a code span starts there |
| Inline.LinkAt | src/pages/BlogPost.tsx:301 | the link pattern matches exactly when a link span starts there, with text and target split at the first `]` and `)` |
| Inline.LinkEnds | src/pages/BlogPost.tsx:301 | a link's text and target ends are unique |
| Inline.LinkHit | src/pages/BlogPost.tsx:301 | the link match consumes `[text](url)` exactly |
| Inline.MatchAt | src/pages/BlogPost.tsx:294-301 | a match of any pattern consumes exactly its span's source |
| Inline.NoTies | src/pages/BlogPost.tsx:294-301 | no two patterns match at the same position |
| Inline.FirstMatch | src/pages/BlogPost.tsx:294-301 | `String.match` without the global flag: the leftmost match of one pattern |
| Inline.FirstMatchLeftmost | src/pages/BlogPost.tsx:294-301 | the first match is leftmost among that pattern's matches |
| Inline.EarlierLeftmost | src/pages/BlogPost.tsx:303-318 | choosing the earlier of two leftmost matches is leftmost for both pattern sets |
| Inline.CombinedLeftmost | src/pages/BlogPost.tsx:303-318 | the match the loop picks starts no later than any match of any pattern |
| Inline.LeftmostFacts | src/pages/BlogPost.tsx:303-324 | no pick exactly when nothing matches anywhere; a pick consumes its source |
| Inline.NextHit | src/pages/BlogPost.tsx:303-324 | the match handled next is the leftmost over all four patterns |
| Inline.Before | src/pages/BlogPost.tsx:322-325 | the text before the match becomes at most one non-empty literal |
| Inline.Assemble | src/pages/BlogPost.tsx:320-366 | one loop step keeps the source tiled and the literals separated |
| Inline.StepTiles | src/pages/BlogPost.tsx:320-366 | literal, match and rest together are the input again, with literals separated |
| Inline.StepSource | src/pages/BlogPost.tsx:320-366 | the pieces of one step concatenate to the input |
| Inline.StepSeparated | src/pages/BlogPost.tsx:320-366 | a step never puts two literals side by side |
| Inline.Tokens | src/pages/BlogPost.tsx:287-371 | the rendered spans concatenate back to the input, with no empty or adjacent literal pieces |
| Inline.NoMatchIsLiteral | src/pages/BlogPost.tsx:312-316 | text with no match renders as one literal |
| Inline.NextHitAt | src/pages/BlogPost.tsx:303-318 | a match with nothing matching before it is the one picked |
| Inline.PlainNoMatch | src/pages/BlogPost.tsx:294-301 | no pattern matches on a run of characters that no pattern can start with |
| Inline.PlainIsLiteral | src/pages/BlogPost.tsx:312-316 | non-empty text free of `*`, `_`, `` ` `` and `[` renders as itself |
| Inline.BoldCloseFinds | src/pages/BlogPost.tsx:295 | the lazy close is found where the predicate says |
| Inline.BoldOf | src/pages/BlogPost.tsx:295 | `**t**` with `t` free of `*` is bold `t` |
| Inline.BoldAndItalicBold | src/pages/BlogPost.tsx:295 | the bold pattern matches `**bold**` inside "Some **bold** and *italic* text." |
| Inline.BoldAndItalicFirstStep | src/pages/BlogPost.tsx:303-324 | the first step of that sentence picks the bold span |
| Inline.BoldAndItalicItalic | src/pages/BlogPost.tsx:297 | the italic pattern matches `*italic*` in the rest of that sentence |
| Inline.BoldAndItalicSecondStep | src/pages/BlogPost.tsx:303-324 | the second step picks the italic span |
| Inline.TokensStep | src/pages/BlogPost.tsx:303-344 | one step of the loop: the text before the leftmost match, the match, then the tokens of the rest |
| Inline.StepAfterLiteral | src/pages/BlogPost.tsx:303-344 | a match after some text yields one literal piece, the match, then the rest's tokens |
| Inline.BoldAndItalicRest | src/pages/BlogPost.tsx:303-344 | " and *italic* text." renders as a literal, an italic span and a literal |
| Inline.BoldAndItalicTokens | src/pages/BlogPost.tsx:303-344 | "Some **bold** and *italic* text." renders as "Some ", bold "bold", " and ", italic "italic", " text." |
| Inline.TripleStarFirstStep | src/pages/BlogPost.tsx:295 | on `***x***`, bold takes the first `**` and closes lazily, leaving `*x` in bold |
| Blocks.Normalize | src/pages/BlogPost.tsx:98 | never longer than the input, and text with no CR comes back unchanged |
| Blocks.NormalizeIdentity | src/pages/BlogPost.tsx:98 | normalizing changes the text exactly when it contains a CR LF pair |
| Blocks.NormalizeExpand | src/pages/BlogPost.tsx:98 | writing every LF as CR LF and normalizing gives the CR-free text back |
| Blocks.LoneCarriageReturn | src/pages/BlogPost.tsx:98 | a lone CR is kept, and CR CR LF keeps its first CR |
| Blocks.NextTicks | src/pages/BlogPost.tsx:101 | the first triple backtick at or after a position |
| Blocks.FenceAt | src/pages/BlogPost.tsx:101 | `` ```[\s\S]*?``` `` matches at a position exactly when a fence opens there; the lazy close is the first triple backtick after the opening one |
| Blocks.FirstFence | src/pages/BlogPost.tsx:101-102 | the leftmost fence, with none before it |
| Blocks.Parts | src/pages/BlogPost.tsx:101-102 | `split` with a capturing group yields an odd number of parts: text, fence, text, and so on |
| Blocks.PartsTile | src/pages/BlogPost.tsx:101-102 | the parts concatenate back to the normalized content |
| Blocks.PartsShape | src/pages/BlogPost.tsx:101-102 | even parts contain no fence; odd parts are whole fences |
| Blocks.FirstPieces | src/pages/BlogPost.tsx:101-102 | the first part is fence-free text; the second is the first fence |
| Blocks.LaterPieces | src/pages/BlogPost.tsx:101-102 | later parts are the parts of the text after the first fence |
| Blocks.RemoveFirstTicks | src/pages/BlogPost.tsx:108 | `replace('```', '')` drops a leading triple backtick, and leaves text without one unchanged |
| Blocks.CodeVerbatim | src/pages/BlogPost.tsx:106-109 | a fence yields its trimmed language and its body lines exactly |
| Blocks.CodeOneLine | src/pages/BlogPost.tsx:107-109 | a one-line fence has empty code |
| Blocks.SplitAppend | src/pages/BlogPost.tsx:107-109 | a last line without newline is the last piece of the split, after the pieces of what precedes it |
| Blocks.DigitsEnd | src/pages/BlogPost.tsx:228 | the end of the run of digits from a position |
| Blocks.NumberedItem | src/pages/BlogPost.tsx:228-232 | `^\d+\. ` (with a literal space, so a tab does not qualify) recognises exactly digit runs followed by `. `, and the item is what follows |
| Blocks.Kind | src/pages/BlogPost.tsx:163-275 | a trimmed line is blank exactly when empty, numbered exactly when the item pattern matches, and text keeps the line |
| Blocks.KindShape | src/pages/BlogPost.tsx:169-275 | each kind's marker and payload: headings up to level 4, bullets `- `/`* `, numbered items, quotes `> `, rules, and text as the fallback |
| Blocks.FiveHashesIsText | src/pages/BlogPost.tsx:169-215 | `##### x` is no heading and renders as text |
| Blocks.SpacedDashesAreBullet | src/pages/BlogPost.tsx:217-226 | `- - -` is a bullet, tested before rules |
| Blocks.DashesAreRule | src/pages/BlogPost.tsx:263-271 | `---` is a horizontal rule |
| Blocks.MixedRunIsRule | src/pages/BlogPost.tsx:263-271 | `-*_` is a rule too: the pattern allows a mixed run |
| Blocks.NumberedExample | src/pages/BlogPost.tsx:227-247 | `12. x` is the numbered item `x` |
| Blocks.TrimmedBeforeClassifying | src/pages/BlogPost.tsx:160 | a line is trimmed before it is classified |
| Blocks.TrimExample | src/pages/BlogPost.tsx:160 | trimming ` 12. x ` gives `12. x` |
| Blocks.FlushList | src/pages/BlogPost.tsx:141-156 | flushing the list closes it and keeps the paragraph |
| Blocks.CloseList | src/pages/BlogPost.tsx:164 | `if (inList) flushList()` |
| Blocks.FlushParagraph | src/pages/BlogPost.tsx:127-139 | flushing the paragraph empties it and leaves the list alone |
| Blocks.Flush | src/pages/BlogPost.tsx:278-280 | the final flush leaves nothing pending |
| Blocks.Step | src/pages/BlogPost.tsx:158-276 | one non-numbered line keeps the accumulator well formed |
| Blocks.ClassifyAll | src/pages/BlogPost.tsx:158-160 | one classified line per input line, in order |
| BlockLaws.ClassifyAllAppend | src/pages/BlogPost.tsx:158-160 | lines are classified independently: classification distributes over concatenation |
| Blocks.NumberedEnd | src/pages/BlogPost.tsx:233-236 | the end of a run of numbered lines |
| Blocks.Payloads | src/pages/BlogPost.tsx:232-236 | the payload of each line of a range, in order |
| Blocks.Walk | src/pages/BlogPost.tsx:158-280 | the line loop keeps the accumulator well formed |
| Blocks.WalkNumbered | src/pages/BlogPost.tsx:227-247 | a numbered line flushes and emits the whole run as one ordered list |
| Blocks.WalkOther | src/pages/BlogPost.tsx:158-276 | any other line is one step |
| Blocks.GatherNumbered | src/pages/BlogPost.tsx:232-236 | the inner loop stops at the last numbered line and collects exactly the run's items |
| Blocks.ReadOne | src/pages/BlogPost.tsx:158-276 | one iteration of the outer loop moves forward and agrees with the reference walk |
| Blocks.ReadLines | src/pages/BlogPost.tsx:121-282 | the loop's blocks are those of the reference walk |
| Blocks.Render | src/pages/BlogPost.tsx:96-284 | one rendered block per outline block |
| Blocks.EraseRenderBlock | src/pages/BlogPost.tsx:133 | rendering a block's inline text and erasing it gives the block back |
| Blocks.RenderTiles | src/pages/BlogPost.tsx:96-284 | every rendered block erases to its outline block |
| BlockLaws.JoinTrimmed | src/pages/BlogPost.tsx:129-130 | joining trimmed non-empty lines with spaces is non-empty and trimmed, so the paragraph's own trim and emptiness test never drop anything |
| BlockLaws.ParagraphFlush | src/pages/BlogPost.tsx:127-139 | a pending paragraph becomes one paragraph of its lines joined by spaces |
| BlockLaws.TextRun | src/pages/BlogPost.tsx:274-280 | a run of text lines is one paragraph |
| BlockLaws.TextRunFromEmpty | src/pages/BlogPost.tsx:274-275 | text lines only add to the pending paragraph |
| BlockLaws.BulletRun | src/pages/BlogPost.tsx:217-226 | a run of bullets is one unordered list of their items |
| BlockLaws.NumberedRun | src/pages/BlogPost.tsx:227-247 | a run of numbered lines is one ordered list |
| BlockLaws.QuotesSeparate | src/pages/BlogPost.tsx:249-261 | each quote line is its own block quote |
| BlockLaws.WalkRebase | src/pages/BlogPost.tsx:158-280 | the walk only appends to the blocks already emitted |
| BlockLaws.WalkStep | src/pages/BlogPost.tsx:158-276 | the loop moves forward, a numbered run at a time |
| BlockLaws.WalkPrefix | src/pages/BlogPost.tsx:158-167 | before a blank line, the walk of a longer input runs as that of its prefix |
| BlockLaws.WalkSuffix | src/pages/BlogPost.tsx:158-167 | after a blank line, the walk runs as that of the remainder |
| BlockLaws.BlankSplits | src/pages/BlogPost.tsx:162-167 | a blank line splits the blocks: those of the text before it, then those of the text after it |
| BlockLaws.NoFenceParts | src/pages/BlogPost.tsx:101-102 | text without triple backticks is one part |
| BlockLaws.ProseOutline | src/pages/BlogPost.tsx:96-121 | content without fences is read as its lines |
| BlockLaws.EmptyPart | src/pages/BlogPost.tsx:282 | an empty part renders nothing |
| BlockLaws.WholeFence | src/pages/BlogPost.tsx:101-102 | a whole fence splits into '', the fence, '' |
| BlockLaws.FencedOutline | src/pages/BlogPost.tsx:104-118 | a fenced block renders as one code block with its trimmed language and verbatim body |
| BlockLaws.HeadingAlone | src/pages/BlogPost.tsx:169-215 | a heading line is one heading block |
| BlockLaws.OrdinaryStart | src/pages/BlogPost.tsx:273-275 | a line starting with no marker character is text |
| BlockLaws.LevelTwo | src/pages/BlogPost.tsx:181-190 | `## x` is a level-2 heading |
| BlockLaws.SplitThree | src/pages/BlogPost.tsx:121 | a heading, an empty line and text split into three lines |
| BlockLaws.ExampleLines | src/pages/BlogPost.tsx:158-275 | those three lines classify as heading, blank and text |
| BlockLaws.ExampleBlocks | src/pages/BlogPost.tsx:158-280 | those three lines give a heading and a paragraph |
| BlockLaws.HeadingThenParagraph | src/pages/BlogPost.tsx:96-284 | `## x`, an empty line and text render as a heading and a paragraph |
| Calculator.Find | src/pages/CostCalculator.tsx:110 | a service is found exactly when one has the id, and it is that one |
| Calculator.AddonItems | src/pages/CostCalculator.tsx:143-148 | no more lines than add-ons |
| Calculator.Quote | src/pages/CostCalculator.tsx:120-155 | zero with no lines without a service and package; otherwise the package line then the selected add-ons, the package's delivery days, and the sum of the lines; equal to the reference estimate |
| Calculator.Tally | src/pages/CostCalculator.tsx:141-148 | the loop builds the package line and the selected add-on lines, with their sum |
| Calculator.TotalAppend | src/pages/CostCalculator.tsx:146 | adding a line adds its price |
| Calculator.AddonItemsTotal | src/pages/CostCalculator.tsx:142-148 | the add-on lines sum to the prices of the selected add-ons |
| Calculator.AddonItemsMembers | src/pages/CostCalculator.tsx:143-147 | a line is present exactly when its catalog add-on is selected |
| Calculator.AddonItemsSelectionBlind | src/pages/CostCalculator.tsx:143-147 | only membership in the selection matters |
| Calculator.EstimateOf | src/pages/CostCalculator.tsx:120-155 | the breakdown is empty exactly when no service or package is chosen |
| Calculator.EstimateTotal | src/pages/CostCalculator.tsx:120-155 | the total is the base price, plus 2000 per page beyond five for websites only, plus the selected add-ons; the first line carries the page count exactly then |
| Calculator.DeliveryFixed | src/pages/CostCalculator.tsx:152 | delivery days do not depend on add-ons or pages |
| Calculator.PagesOnlyForWebsites | src/pages/CostCalculator.tsx:132 | pages change nothing for other services |
| Calculator.UnknownAddonIgnored | src/pages/CostCalculator.tsx:143-144 | a selected id that is not in the catalog changes nothing |
| Calculator.SelectionOrderIrrelevant | src/pages/CostCalculator.tsx:143-144 | the order of selection does not matter |
| Calculator.ExtraPageCost | src/pages/CostCalculator.tsx:132-135 | from five pages on, one more page adds 2000 |
| Calculator.WorkedExample | src/pages/CostCalculator.tsx:17-155 | web development, first package, SEO, 8 pages: 29000 in 7 days |
| Calculator.SeoPrice | src/pages/CostCalculator.tsx:28-35 | the web development SEO add-on costs 8000 |
| Calculator.ChooseService | src/pages/CostCalculator.tsx:157-162 | choosing a service clears the package and add-ons and resets pages to 5 |
| Calculator.ChoosePackage | src/pages/CostCalculator.tsx:230 | choosing a listed package keeps the selection valid |
| Calculator.Remove | src/pages/CostCalculator.tsx:115 | removal keeps exactly the other ids |
| Calculator.RemoveKeepsDistinct | src/pages/CostCalculator.tsx:115 | removal keeps ids distinct |
| Calculator.Toggle | src/pages/CostCalculator.tsx:112-118 | toggling flips membership of that id only and keeps ids distinct |
| Calculator.ToggleTwice | src/pages/CostCalculator.tsx:112-118 | toggling twice restores membership, and the list itself when the id was absent |
| Calculator.RemoveLast | src/pages/CostCalculator.tsx:115-116 | removing the id just appended restores the list |
| Calculator.Fewer | src/pages/CostCalculator.tsx:260 | the stepper never goes below one page |
| Calculator.More | src/pages/CostCalculator.tsx:267 | the stepper adds one page and changes nothing else |
| Calculator.FewerUndoesMore | src/pages/CostCalculator.tsx:260-267 | minus undoes plus |
| Calculator.ApplyKeepsGood | src/pages/CostCalculator.tsx:104-162 | every enabled UI event keeps the selection valid, pages positive and add-ons distinct |
| Calculator.InitialGood | src/pages/CostCalculator.tsx:105-108 | the initial state is good |
| Contact.IsEmail | src/pages/Contact.tsx:98-99 | an accepted address has at least five characters |
| Contact.IsEmailMatches | src/pages/Contact.tsx:98-99 | the direct check accepts exactly the strings `^[^\s@]+@[^\s@]+\.[^\s@]+$` matches |
| Contact.AcceptedMatches | src/pages/Contact.tsx:98-99 | accepted strings match the pattern |
| Contact.MatchAccepted | src/pages/Contact.tsx:98-99 | strings that match the pattern are accepted |
| Contact.AcceptedShape | src/pages/Contact.tsx:98-99 | an accepted address has exactly one `@`, inside it, and no whitespace |
| Contact.SetFieldFrame | src/pages/Contact.tsx:82 | setting a field changes that field and no other |
| Contact.Optional | src/pages/Contact.tsx:109-112 | an empty optional field becomes an absent column: absent exactly for '', and reading it back gives the field |
| Contact.ToInquiry | src/pages/Contact.tsx:106-114 | the payload keeps name, email and message, and sends no '' optional column |
| Contact.InquiryRoundTrip | src/pages/Contact.tsx:106-114 | form and inquiry convert into each other without loss |
| Contact.Validate | src/pages/Contact.tsx:92-103 | the missing-fields error exactly when a required field is empty; accepted exactly when all are set and the email is well formed |
| Contact.ValidateAccepts | src/pages/Contact.tsx:92-103 | acceptance stated with the regular expression itself |
| Contact.Change | src/pages/Contact.tsx:81-84 | an edit sets that field, clears the error and keeps the other fields |
| Contact.NoticeOf | src/pages/Contact.tsx:122-132 | the notification goes to the project's `send-contact-notification` function, with a subject only when a service was picked, and source `stachbit.in` |
| Contact.Submit | src/pages/Contact.tsx:86-155 | loading ends; only a valid form is sent, as its inquiry; success resets the form and sets success, failure keeps it with the failure message; the notification goes out exactly after a successful insert with a configured url |
| Contact.NoticeMatchesInquiry | src/pages/Contact.tsx:106-132 | the notification carries the inquiry's name, email, message and phone, and a subject exactly when it has a service |
| Contact.NoticeIrrelevantToPage | src/pages/Contact.tsx:118-137 | whether the notification goes out leaves the page and the insert alone |
| Contact.SuccessResets | src/pages/Contact.tsx:139-148 | after a successful submit every field is empty |
| Contact.Shown | src/pages/Contact.tsx:58-76 | a loaded non-empty field is shown, otherwise the page's fallback |
| Contact.TelLink | src/pages/Contact.tsx:65 | `tel:` followed by the number with its whitespace removed |
| Contact.ContactDetails | src/pages/Contact.tsx:54-79 | four entries: email, phone, location, response time |
| Contact.TelHref | src/pages/Contact.tsx:65 | the phone entry links to the tel link of the value it shows |
| Contact.LoadedNonEmpty | src/lib/supabase.ts:250-285 | every loaded field except the address is non-empty |
| Contact.LoadedSettingsShownAsIs | src/pages/Contact.tsx:58-76 | once loaded, the page's fallbacks never show |
| Footer.ActiveLinks | src/components/layout/Footer.tsx:47-51 | the active links are exactly the set Twitter, LinkedIn and GitHub links, none empty, and none before loading |
| Footer.ActiveLinksInOrder | src/components/layout/Footer.tsx:47-51 | in the order Twitter, LinkedIn, GitHub, each present exactly when set |
| Footer.GitHubLast | src/components/layout/Footer.tsx:47-51 | a set GitHub link comes last |
| Footer.Icons | src/components/layout/Footer.tsx:74-99 | some icons always show: the active links, or the fallback set when there are none |
| Footer.NoLinksFallBack | src/components/layout/Footer.tsx:74-99 | empty settings show the fallback icons |
| Footer.ContactColumn | src/components/layout/Footer.tsx:143-149 | mailto and tel links built from the shown email and phone |
| Footer.FooterAgreesWithContactPage | src/components/layout/Footer.tsx:143-149 | the footer shows the same email, phone, location and links as the contact page |
| Footer.DefaultsWhileLoading | src/components/layout/Footer.tsx:42-44 | before loading, the footer shows the default contact details |
| Blog.Search | src/pages/Blog.tsx:49-53 | the posts kept are exactly those whose title or excerpt contains the query, case-folded |
| Blog.SearchKeepsOrder | src/pages/Blog.tsx:49-53 | search distributes over concatenation, keeping order |
| Blog.EmptyQueryKeepsAll | src/pages/Blog.tsx:49-53 | the empty query keeps every post |
| Blog.LongerQueryNarrows | src/pages/Blog.tsx:49-53 | extending the query only removes posts |
| Blog.SearchIgnoresCase | src/pages/Blog.tsx:49-53 | a lower-cased query finds the same posts |
| Blog.FilteringHidesFeatured | src/pages/Blog.tsx:110 | a search query or a chosen category hides the featured section |
| Blog.UnfilteredShowsFeatured | src/pages/Blog.tsx:110 | with no query and no category, the section shows exactly when there are featured posts |
| Blog.LowerConcat | src/pages/Blog.tsx:51-52 | case folding distributes over concatenation |
| Blog.LowerIdempotent | src/pages/Blog.tsx:51-52 | folding twice is folding once |
| Blog.IncludesPrefix | src/pages/Blog.tsx:51-52 | text containing a query contains its prefixes |
| Blog.Load | src/pages/Blog.tsx:29-47 | each list is replaced when its fetch returned data, even an empty list, and kept otherwise |
| Blog.FailedLoadKeeps | src/pages/Blog.tsx:29-47 | a load where every fetch failed changes nothing |
| Blog.FeaturedAtMostThree | src/pages/Blog.tsx:33 | the featured strip gets the first three featured posts, or all when fewer |
| Portfolio.Visible | src/pages/Portfolio.tsx:130-132 | 'all' shows every project; otherwise exactly those of the chosen service |
| Portfolio.VisibleKeepsOrder | src/pages/Portfolio.tsx:130-132 | the filter keeps the order |
| Portfolio.VisibleIdempotent | src/pages/Portfolio.tsx:130-132 | filtering twice is filtering once |
| Portfolio.AfterFetch | src/pages/Portfolio.tsx:116-128 | the list changes only to non-empty fetched data, and always does then |
| Portfolio.NeverEmptied | src/pages/Portfolio.tsx:112-128 | the demo projects are never replaced by an empty list |
| Portfolio.Badges | src/pages/Portfolio.tsx:210-217 | the first three technologies, in order |
| Portfolio.MoreBadge | src/pages/Portfolio.tsx:218-222 | the "+n" badge shows exactly beyond three technologies |
| Portfolio.BadgesAccountForAll | src/pages/Portfolio.tsx:210-222 | shown badges plus the "+n" count account for every technology |
| Portfolio.PlaceholderHidesLink | src/pages/Portfolio.tsx:226 | a missing, empty or '#' url shows no "View Project" link |
| Portfolio.RealUrlShowsLink | src/pages/Portfolio.tsx:226-234 | any other url shows the link |
| Carousel.Next | src/components/ui/TestimonialCarousel.tsx:51-56 | ignored while animating; otherwise the next testimonial, wrapping from the last to the first, and animating |
| Carousel.Prev | src/components/ui/TestimonialCarousel.tsx:58-63 | ignored while animating; otherwise the previous one, wrapping from the first to the last |
| Carousel.Settle | src/components/ui/TestimonialCarousel.tsx:55 | the timeout ends the animation and keeps the index |
| Carousel.Jump | src/components/ui/TestimonialCarousel.tsx:122-125 | a dot jumps to its testimonial even while animating |
| Carousel.Apply | src/components/ui/TestimonialCarousel.tsx:43-125 | every event keeps the index on a testimonial |
| Carousel.Run | src/components/ui/TestimonialCarousel.tsx:43-125 | any run of events keeps the index on a testimonial |
| Carousel.NextThenPrev | src/components/ui/TestimonialCarousel.tsx:51-63 | next then previous returns to the same testimonial |
| Carousel.PrevThenNext | src/components/ui/TestimonialCarousel.tsx:51-63 | previous then next returns to the same testimonial |
| Carousel.ForwardRotates | src/components/ui/TestimonialCarousel.tsx:54 | k completed nexts move k places modulo four |
| Carousel.FullCircle | src/components/ui/TestimonialCarousel.tsx:54 | four nexts come back around |
| Carousel.Ticks | src/components/ui/TestimonialCarousel.tsx:43-55 | rounds of the interval firing and the transition ending |
| Carousel.TicksRotate | src/components/ui/TestimonialCarousel.tsx:43-56 | with a handler that reads the live flag, each round advances one testimonial |
| Carousel.Rerender | src/components/ui/TestimonialCarousel.tsx:43-49 | the effect re-runs, capturing the render's flag, exactly when the index changed |
| Carousel.ApplyAsWritten | src/components/ui/TestimonialCarousel.tsx:43-63 | buttons and dots act as intended; the interval acts on the captured flag |
| Carousel.RunAsWritten | src/components/ui/TestimonialCarousel.tsx:43-125 | the as-written component also keeps the index on a testimonial |
| Carousel.AutoAdvanceStalls | src/components/ui/TestimonialCarousel.tsx:43-56 | once a running transition is captured, ticks never move the carousel again |
| Carousel.StallsAfterFirstTick | src/components/ui/TestimonialCarousel.tsx:43-56 | from the first render the timer alone stops at the second testimonial; the intended handler reaches k mod 4 |
| Seo.Find | src/components/SEOHead.tsx:38 | `querySelector`: the first element with the key, or none when there is none |
| Seo.Upsert | src/components/SEOHead.tsx:36-60 | overwrites the first match in place, or appends exactly when there is none; other elements are untouched |
| Seo.UpsertReads | src/components/SEOHead.tsx:36-60 | after an upsert the key reads the new value |
| Seo.UpsertFrame | src/components/SEOHead.tsx:36-60 | other keys read as before |
| Seo.UpsertIdempotent | src/components/SEOHead.tsx:36-60 | upserting twice is upserting once |
| Seo.UpsertAgain | src/components/SEOHead.tsx:36-60 | writing the value a key already reads changes nothing |
| Seo.ApplyAllFrame | src/components/SEOHead.tsx:62-96 | keys not written read as before |
| Seo.ApplyAllReads | src/components/SEOHead.tsx:62-96 | with distinct keys, each written key reads its value |
| Seo.ApplyAllIdempotent | src/components/SEOHead.tsx:62-96 | running the writes twice is running them once |
| Seo.KindOf | src/components/SEOHead.tsx:21 | `type` defaults to "website" when absent |
| Seo.PageTitle | src/components/SEOHead.tsx:33 | the title, a bar and the site name; the site name alone for an empty title |
| Seo.FullUrl | src/components/SEOHead.tsx:28 | the base url followed by the path, or the base url alone |
| Seo.OgImageOf | src/components/SEOHead.tsx:29 | the image, or the default image |
| Seo.Optional | src/components/SEOHead.tsx:64-92 | one write when the value is given, none otherwise |
| Seo.CardWrites | src/components/SEOHead.tsx:68-80 | the ten Open Graph and Twitter Card writes |
| Seo.ArticleWrites | src/components/SEOHead.tsx:82-93 | no article tags unless the type is "article" |
| Seo.Writes | src/components/SEOHead.tsx:62-96 | the effect ends with the canonical link |
| Seo.WritesDistinct | src/components/SEOHead.tsx:62-96 | no key is written twice in one run |
| Seo.Mount | src/components/SEOHead.tsx:31-102 | mounting sets the page title |
| Seo.Unmount | src/components/SEOHead.tsx:99-101 | unmounting resets the title to the site name and leaves the head alone |
| Seo.MountIdempotent | src/components/SEOHead.tsx:31-102 | re-running the effect with the same props changes nothing |
| Seo.MountReads | src/components/SEOHead.tsx:62-96 | every write of the run is what its key reads afterwards |
| Seo.CanonicalIsFullUrl | src/components/SEOHead.tsx:96 | the canonical link is the full url |
| Seo.OgTypeDefaultsToWebsite | src/components/SEOHead.tsx:21 | `og:type` reads "website" when no type is given, and the given type otherwise |
| Seo.KeywordsOnlyWhenGiven | src/components/SEOHead.tsx:64-66 | keywords are written when given and left alone otherwise |
| Seo.WritesAvoid | src/components/SEOHead.tsx:62-96 | the run skips the keywords tag without keywords, and the article tags on non-articles |
| Seo.ArticleTagsOnlyForArticles | src/components/SEOHead.tsx:83-93 | article tags are left alone unless the page is an article |
| Seo.ArticleOf | src/components/SEOHead.tsx:125-154 | the modified date falls back to the published date; full url and default image |
| Seo.Count | src/components/SEOHead.tsx:164 | no element with the key exactly when none is found |
| Seo.CountAppend | src/components/SEOHead.tsx:169 | appending an element adds one to its key's count and leaves other counts alone |
| Seo.RemoveFirst | src/components/SEOHead.tsx:164-167 | `getElementById(...).remove()` removes exactly one match when there is one |
| Seo.MountArticle | src/components/SEOHead.tsx:156-170 | the new script is appended last |
| Seo.ExactlyOneScript | src/components/SEOHead.tsx:156-176 | with at most one script before, exactly one after mounting and none after cleanup |

## Left out

- Network and database I/O. Supabase queries, the inquiry insert and the notification `fetch` are replaced by their results. The equality filters, ordering and `count` are done by the server and are not modelled.
- Settings.Page: the server's answer to a negative limit or offset is not modelled and reads as `None`. For other values the model assumes PostgREST's `offset`/`limit` semantics, where `.range` replaces an earlier `.limit`.
- `recordBlogView`, `getBlogBySlug` and `getRelatedPosts` are not modelled, nor the post page's not-found redirect. They are fetches and navigation with no logic of their own.
- Timers are not modelled as time. The carousel's 5-second interval and 500 ms timeout become `Tick` and `Settled` events, so the relative timing of events is not modelled.
- Blocks.Render: rendering details are left out: React elements, CSS classes, `key` props and icons. Render and the Outline it rests on flatten the per-part `<div>` wrapper, and the `null` for a part with no elements, into one block list. The order and contents of the blocks are stated; their grouping by part is not.
- JsText.Lower: `toLowerCase` is modelled for ASCII letters only, because Unicode case mapping tables are out of scope. Blog.Search and Blog.SearchIgnoresCase inherit this; non-ASCII case-insensitive matches are not modelled.
- Blog.Load: models one completed `loadData` run as a single step. The effect at Blog.tsx:25-27 starts a new run on every category change, with no cancellation. Runs with three sequential awaits can therefore overlap. A stale run's `setPosts` may land after a newer one's, and its `setLoading(false)` may end the loading state early. Such interleavings, and the loading flag, are not modelled.
- Blog.Search: matches case-insensitively only for ASCII letters, through JsText.Lower; a title differing from the query only in non-ASCII case is not matched by the model, though the source would match it.
- Contact.Submit: the form's `loading` flag is modelled only at the end of the handler, not while the insert is in flight. The notification's own success or failure is swallowed by the source and is not modelled.
- Presentation: `Intl.NumberFormat` prices, `toLocaleDateString`, `encodeURIComponent` in share links, `JSON.stringify` of the structured data (modelled as the `Article` record), the clipboard and `window.open` calls.
- The static pages and decoration (`Landing`, `Services`, `About`, `FloatingElement`, `ScrollReveal`, `TechStack`, with their `IntersectionObserver` use) hold no logic. `Header` state is UI-only. `App` routing is react-router's. None of these is part of this model.

## Findings

| source | as written | input that shows it | evidently intended | confidence | as-written member | corrected member |
|---|---|---|---|---|---|---|
| src/components/ui/TestimonialCarousel.tsx:43-56 | the interval is re-created only when `current` changes, and it calls the `handleNext` of that render, which reads that render's `isAnimating`; after the first automatic advance this is `true` for good, so every later tick returns early | first render, then wait: the first tick moves to testimonial 2, the 500 ms timeout clears the flag, and the next tick 5 s later is ignored, as is every one after it | the timer advances one testimonial every 5 seconds | not executed | Carousel.StallsAfterFirstTick | Carousel.TicksRotate |

=== FILE: block_laws.dfy ===
/**
 * What the line reader of `renderContent` guarantees about runs of lines:
 * paragraph text, bullets and numbered items each gather into one block, a
 * quote line is a block of its own, and a blank line closes everything, so
 * the text before it and the text after it are read independently.
 */
module BlockLaws {
  import opened Common
  import opened JsText
  import opened Blocks

  // ---------------------------------------------------------------------
  // Paragraph text

  function Last(s: string): char
    requires |s| > 0
  {
    s[|s| - 1]
  }

  lemma {:induction false} JoinEnds(ps: seq<string>, sep: string)
    requires |ps| > 0 && forall k :: 0 <= k < |ps| ==> ps[k] != ""
    ensures |Join(ps, sep)| > 0
    ensures Join(ps, sep)[0] == ps[0][0]
    ensures Last(Join(ps, sep)) == Last(ps[|ps| - 1])
  {
    if |ps| > 1 {
      JoinEnds(ps[1..], sep);
      var rest := Join(ps[1..], sep);
      assert Join(ps, sep) == ps[0] + sep + rest;
    }
  }

  /** Joining trimmed, non-empty lines with spaces gives trimmed, non-empty
      text, so trimming the joined paragraph changes nothing. */
  lemma JoinTrimmed(ps: seq<string>)
    requires |ps| > 0
    requires forall k :: 0 <= k < |ps| ==> ps[k] != "" && IsTrimmed(ps[k])
    ensures Join(ps, " ") != "" && IsTrimmed(Join(ps, " "))
  {
    JoinEnds(ps, " ");
  }

  /** Under the reader's invariant, closing an open paragraph always emits
      it: its text is its lines joined by single spaces. */
  lemma ParagraphFlush(a: Acc)
    requires Inv(a) && |a.para| > 0
    ensures FlushParagraph(a) == a.(blocks := a.blocks + [Paragraph(Join(a.para, " "))], para := [])
  {
    JoinTrimmed(a.para);
  }

  lemma {:induction false} PayloadsCons(ls: seq<Line>, i: nat, j: nat)
    requires i < j <= |ls|
    ensures Payloads(ls, i, j) == [Payload(ls[i])] + Payloads(ls, i + 1, j)
    decreases j - i
  {
    if i + 1 < j {
      PayloadsCons(ls, i, j - 1);
      assert Payloads(ls, i + 1, j) == Payloads(ls, i + 1, j - 1) + [Payload(ls[j - 1])];
    }
  }

  /** Paragraph-text lines only add to the open paragraph. */
  lemma {:induction false} TextRunWalk(ls: seq<Line>, i: nat, a: Acc)
    requires WellClassified(ls) && i <= |ls| && !a.inList
    requires forall k :: i <= k < |ls| ==> ls[k].TextLine?
    ensures Walk(ls, i, a) == a.(para := a.para + Payloads(ls, i, |ls|))
    decreases |ls| - i
  {
    if i < |ls| {
      PayloadsCons(ls, i, |ls|);
      TextRunWalk(ls, i + 1, a.(para := a.para + [ls[i].text]));
      assert a.para + [ls[i].text] + Payloads(ls, i + 1, |ls|) == a.para + Payloads(ls, i, |ls|);
    }
  }

  /** Closing when nothing is open changes nothing. */
  lemma FlushClean(a: Acc)
    requires Clean(a)
    ensures Flush(a) == a
  {
    assert CloseList(a) == a;
  }

  /** Consecutive paragraph-text lines make one paragraph: their trimmed
      texts joined by single spaces. */
  lemma TextRun(ls: seq<Line>)
    requires WellClassified(ls) && |ls| > 0
    requires forall k :: 0 <= k < |ls| ==> ls[k].TextLine?
    ensures ReadBlocks(ls) == [Paragraph(Join(Payloads(ls, 0, |ls|), " "))]
  {
    TextRunFromEmpty(ls, Start);
    var a := Start.(para := Payloads(ls, 0, |ls|));
    assert Inv(a);
    assert CloseList(a) == a;
    ParagraphFlush(a);
  }

  lemma TextRunFromEmpty(ls: seq<Line>, a: Acc)
    requires WellClassified(ls) && |ls| > 0
    requires forall k :: 0 <= k < |ls| ==> ls[k].TextLine?
    requires !a.inList && a.para == []
    ensures Walk(ls, 0, a) == a.(para := Payloads(ls, 0, |ls|))
  {
    TextRunWalk(ls, 0, a);
    assert a.para + Payloads(ls, 0, |ls|) == Payloads(ls, 0, |ls|);
  }

  // ---------------------------------------------------------------------
  // Lists

  /** Bullet lines only add to the open list. */
  lemma {:induction false} BulletRunWalk(ls: seq<Line>, i: nat, a: Acc)
    requires WellClassified(ls) && i <= |ls| && a.inList
    requires forall k :: i <= k < |ls| ==> ls[k].BulletLine?
    ensures Walk(ls, i, a) == a.(items := a.items + Payloads(ls, i, |ls|))
    decreases |ls| - i
  {
    if i < |ls| {
      PayloadsCons(ls, i, |ls|);
      BulletRunWalk(ls, i + 1, a.(items := a.items + [ls[i].text]));
      assert a.items + [ls[i].text] + Payloads(ls, i + 1, |ls|) == a.items + Payloads(ls, i, |ls|);
    }
  }

  /** A bullet line with nothing open opens a list with one item. */
  lemma BulletOpens(ls: seq<Line>)
    requires WellClassified(ls) && |ls| > 0 && ls[0].BulletLine?
    ensures Walk(ls, 0, Start) == Walk(ls, 1, Start.(inList := true, items := [ls[0].text]))
  {
    WalkOther(ls, 0, Start);
    assert ls[0] == BulletLine(ls[0].text);
    BulletStep(ls[0].text);
  }

  lemma BulletStep(x: string)
    ensures Step(Start, BulletLine(x)) == Start.(inList := true, items := [x])
  {
  }

  /** Closing an open list emits it. */
  lemma ListCloses(items: seq<string>)
    requires |items| > 0
    ensures Flush(Start.(inList := true, items := items)).blocks == [UnorderedList(items)]
  {
    var b := Start.(inList := true, items := items);
    assert CloseList(b) == Start.(blocks := [UnorderedList(items)]);
    FlushClean(Start.(blocks := [UnorderedList(items)]));
  }

  /** Consecutive bullet lines make one unordered list. */
  lemma BulletRun(ls: seq<Line>)
    requires WellClassified(ls) && |ls| > 0
    requires forall k :: 0 <= k < |ls| ==> ls[k].BulletLine?
    ensures ReadBlocks(ls) == [UnorderedList(Payloads(ls, 0, |ls|))]
  {
    BulletRunFromStart(ls);
    ListCloses(Payloads(ls, 0, |ls|));
  }

  lemma BulletRunFromStart(ls: seq<Line>)
    requires WellClassified(ls) && |ls| > 0
    requires forall k :: 0 <= k < |ls| ==> ls[k].BulletLine?
    ensures Walk(ls, 0, Start) == Start.(inList := true, items := Payloads(ls, 0, |ls|))
  {
    var a := Start.(inList := true, items := [ls[0].text]);
    assert Walk(ls, 0, Start) == Walk(ls, 1, a) by { BulletOpens(ls); }
    assert Walk(ls, 1, a) == a.(items := a.items + Payloads(ls, 1, |ls|)) by {
      BulletRunWalk(ls, 1, a);
    }
    assert a.items + Payloads(ls, 1, |ls|) == Payloads(ls, 0, |ls|) by {
      PayloadsCons(ls, 0, |ls|);
    }
  }

  /** Consecutive numbered lines make one ordered list. */
  lemma NumberedRun(ls: seq<Line>)
    requires WellClassified(ls) && |ls| > 0
    requires forall k :: 0 <= k < |ls| ==> ls[k].NumberedLine?
    ensures ReadBlocks(ls) == [OrderedList(Payloads(ls, 0, |ls|))]
  {
    assert NumberedEnd(ls, 1) == |ls|;
    WalkNumbered(ls, 0, Start);
    FlushClean(Start);
    var a := Start.(blocks := [OrderedList(Payloads(ls, 0, |ls|))]);
    assert Walk(ls, 0, Start) == a;
    FlushClean(a);
  }

  /** Each quote line is a block of its own: two quote lines in a row are
      two quotes, not one. */
  lemma QuotesSeparate(x: string, y: string)
    ensures ReadBlocks([QuoteLine(x), QuoteLine(y)]) == [Quote(x), Quote(y)]
  {
    var ls := [QuoteLine(x), QuoteLine(y)];
    FlushClean(Start);
    var a := Start.(blocks := [Quote(x)]);
    WalkOther(ls, 0, Start);
    assert Step(Start, ls[0]) == a;
    FlushClean(a);
    var b := Start.(blocks := [Quote(x), Quote(y)]);
    WalkOther(ls, 1, a);
    assert Step(a, ls[1]) == b;
    FlushClean(b);
  }

  // ---------------------------------------------------------------------
  // A blank line closes everything

  /** The state with `bs` emitted before everything it has emitted. */
  function Rebase(bs: seq<Block<string>>, a: Acc): Acc {
    a.(blocks := bs + a.blocks)
  }

  lemma EmitRebase(bs: seq<Block<string>>, a: Acc, b: Block<string>)
    ensures Emit(Rebase(bs, a), b) == Rebase(bs, Emit(a, b))
  {
    assert bs + a.blocks + [b] == bs + (a.blocks + [b]);
  }

  lemma CloseListRebase(bs: seq<Block<string>>, a: Acc)
    ensures CloseList(Rebase(bs, a)) == Rebase(bs, CloseList(a))
  {
    EmitRebase(bs, a, UnorderedList(a.items));
  }

  lemma FlushParagraphRebase(bs: seq<Block<string>>, a: Acc)
    ensures FlushParagraph(Rebase(bs, a)) == Rebase(bs, FlushParagraph(a))
  {
    if |a.para| > 0 {
      var text := Trim(Join(a.para, " "));
      var extra := if text != "" then [Paragraph(text)] else [];
      assert bs + a.blocks + extra == bs + (a.blocks + extra);
    }
  }

  lemma FlushRebase(bs: seq<Block<string>>, a: Acc)
    ensures Flush(Rebase(bs, a)) == Rebase(bs, Flush(a))
  {
    CloseListRebase(bs, a);
    FlushParagraphRebase(bs, CloseList(a));
  }

  lemma StepRebase(bs: seq<Block<string>>, a: Acc, l: Line)
    requires !l.NumberedLine? && (l.TextLine? ==> l.text != "" && IsTrimmed(l.text))
    ensures Step(Rebase(bs, a), l) == Rebase(bs, Step(a, l))
  {
    FlushRebase(bs, a);
    CloseListRebase(bs, a);
    FlushParagraphRebase(bs, a);
    match l
    case HeadingLine(n, x) => EmitRebase(bs, Flush(a), Heading(n, x));
    case QuoteLine(x) => EmitRebase(bs, Flush(a), Quote(x));
    case RuleLine => EmitRebase(bs, Flush(a), Rule);
    case _ =>
  }

  /** What the reader emits does not depend on what was emitted before. */
  lemma {:induction false} WalkRebase(ls: seq<Line>, i: nat, bs: seq<Block<string>>, a: Acc)
    requires WellClassified(ls) && i <= |ls|
    ensures Walk(ls, i, Rebase(bs, a)) == Rebase(bs, Walk(ls, i, a))
    decreases |ls| - i
  {
    if i < |ls| {
      if ls[i].NumberedLine? {
        var j := NumberedEnd(ls, i + 1);
        var b := OrderedList(Payloads(ls, i, j));
        WalkNumbered(ls, i, a);
        WalkNumbered(ls, i, Rebase(bs, a));
        FlushRebase(bs, a);
        EmitRebase(bs, Flush(a), b);
        WalkRebase(ls, j, bs, Emit(Flush(a), b));
      } else {
        WalkOther(ls, i, a);
        WalkOther(ls, i, Rebase(bs, a));
        StepRebase(bs, a, ls[i]);
        WalkRebase(ls, i + 1, bs, Step(a, ls[i]));
      }
    }
  }

  /** `m` starts with `l` and then has a line that is not a numbered item. */
  ghost predicate ExtendsWithBreak(m: seq<Line>, l: seq<Line>) {
    |l| < |m| && m[..|l|] == l && !m[|l|].NumberedLine?
  }

  lemma {:induction false} NumberedEndPrefix(m: seq<Line>, l: seq<Line>, i: nat)
    requires ExtendsWithBreak(m, l) && i <= |l|
    ensures NumberedEnd(m, i) == NumberedEnd(l, i)
    decreases |l| - i
  {
    if i < |l| {
      assert m[i] == l[i];
      NumberedEndPrefix(m, l, i + 1);
    }
  }

  lemma PayloadsPrefix(m: seq<Line>, l: seq<Line>, i: nat, j: nat)
    requires |l| <= |m| && m[..|l|] == l && i <= j <= |l|
    ensures Payloads(m, i, j) == Payloads(l, i, j)
  {
    assert forall k :: i <= k < j ==> m[k] == l[k];
  }

  /** Where one step of the reader at line `i` leaves it: past the whole
      numbered run for a numbered line, past the line otherwise. */
  function NextIndex(ls: seq<Line>, i: nat): nat
    requires i < |ls|
  {
    if ls[i].NumberedLine? then NumberedEnd(ls, i + 1) else i + 1
  }

  /** The accumulator after one step of the reader at line `i`. */
  function NextAcc(ls: seq<Line>, i: nat, a: Acc): Acc
    requires i < |ls| && WellClassified(ls)
  {
    if ls[i].NumberedLine? then Emit(Flush(a), OrderedList(Payloads(ls, i, NumberedEnd(ls, i + 1))))
    else Step(a, ls[i])
  }

  /** The reader advances by one step at a time. */
  lemma WalkStep(ls: seq<Line>, i: nat, a: Acc)
    requires i < |ls| && WellClassified(ls)
    ensures i < NextIndex(ls, i) <= |ls|
    ensures Walk(ls, i, a) == Walk(ls, NextIndex(ls, i), NextAcc(ls, i, a))
  {
    if ls[i].NumberedLine? {
      WalkNumbered(ls, i, a);
    } else {
      WalkOther(ls, i, a);
    }
  }

  /** Reading a text that continues past `l` after a break reads `l` first,
      exactly as if `l` were all there was (without the final close). */
  lemma {:induction false} WalkPrefix(m: seq<Line>, l: seq<Line>, i: nat, a: Acc)
    requires ExtendsWithBreak(m, l) && WellClassified(m) && WellClassified(l) && i <= |l|
    ensures Walk(m, i, a) == Walk(m, |l|, Walk(l, i, a))
    decreases |l| - i
  {
    if i < |l| {
      PrefixStep(m, l, i, a);
      WalkStep(m, i, a);
      WalkStep(l, i, a);
      WalkPrefix(m, l, NextIndex(l, i), NextAcc(l, i, a));
    }
  }

  /** A step of the reader inside `l` is the same step inside `m`. */
  lemma PrefixStep(m: seq<Line>, l: seq<Line>, i: nat, a: Acc)
    requires ExtendsWithBreak(m, l) && WellClassified(m) && WellClassified(l) && i < |l|
    ensures NextIndex(m, i) == NextIndex(l, i) && NextAcc(m, i, a) == NextAcc(l, i, a)
  {
    assert m[i] == l[i];
    if l[i].NumberedLine? {
      NumberedEndPrefix(m, l, i + 1);
      PayloadsPrefix(m, l, i, NumberedEnd(l, i + 1));
    }
  }

  /** `r` is the text of `m` from line `n` on. */
  ghost predicate Shifted(m: seq<Line>, n: nat, r: seq<Line>) {
    n + |r| == |m| && forall k :: 0 <= k < |r| ==> m[n + k] == r[k]
  }

  lemma {:induction false} NumberedEndSuffix(m: seq<Line>, n: nat, r: seq<Line>, i: nat)
    requires Shifted(m, n, r) && i <= |r|
    ensures NumberedEnd(m, n + i) == n + NumberedEnd(r, i)
    decreases |r| - i
  {
    if i < |r| {
      assert m[n + i] == r[i];
      NumberedEndSuffix(m, n, r, i + 1);
    }
  }

  lemma PayloadsSuffix(m: seq<Line>, n: nat, r: seq<Line>, i: nat, j: nat)
    requires Shifted(m, n, r) && i <= j <= |r|
    ensures Payloads(m, n + i, n + j) == Payloads(r, i, j)
  {
    assert forall k :: i <= k < j ==> m[n + k] == r[k];
  }

  /** Reading the tail of `m` from line `n` on is reading that tail. */
  lemma {:induction false} WalkSuffix(m: seq<Line>, n: nat, r: seq<Line>, i: nat, a: Acc)
    requires Shifted(m, n, r) && WellClassified(m) && WellClassified(r) && i <= |r|
    ensures Walk(m, n + i, a) == Walk(r, i, a)
    decreases |r| - i
  {
    if i < |r| {
      SuffixStep(m, n, r, i, a);
      WalkStep(m, n + i, a);
      WalkStep(r, i, a);
      WalkSuffix(m, n, r, NextIndex(r, i), NextAcc(r, i, a));
    }
  }

  /** A step of the reader inside `r` is the same step inside `m`, shifted
      by `n`. */
  lemma SuffixStep(m: seq<Line>, n: nat, r: seq<Line>, i: nat, a: Acc)
    requires Shifted(m, n, r) && WellClassified(m) && WellClassified(r) && i < |r|
    ensures NextIndex(m, n + i) == n + NextIndex(r, i) && NextAcc(m, n + i, a) == NextAcc(r, i, a)
  {
    assert m[n + i] == r[i];
    if r[i].NumberedLine? {
      NumberedEndSuffix(m, n, r, i + 1);
      PayloadsSuffix(m, n, r, i, NumberedEnd(r, i + 1));
    }
  }

  /** The shape facts about `l1`, a blank line, then `l2`. */
  lemma BlankJoin(l1: seq<Line>, l2: seq<Line>)
    requires WellClassified(l1) && WellClassified(l2)
    ensures WellClassified(l1 + [Blank] + l2)
    ensures ExtendsWithBreak(l1 + [Blank] + l2, l1) && (l1 + [Blank] + l2)[|l1|] == Blank
    ensures Shifted(l1 + [Blank] + l2, |l1| + 1, l2)
  {
    var m := l1 + [Blank] + l2;
    forall k | 0 <= k < |m| && m[k].TextLine? ensures m[k].text != "" && IsTrimmed(m[k].text) {
      if k < |l1| {
        assert m[k] == l1[k];
      } else if k > |l1| {
        assert m[k] == l2[k - |l1| - 1];
      }
    }
    assert m[..|l1|] == l1;
  }

  /** A blank line closes the open list and paragraph, so the lines before
      it and the lines after it are read independently: in particular a
      blank line splits a list in two. */
  lemma BlankSplits(l1: seq<Line>, l2: seq<Line>)
    requires WellClassified(l1) && WellClassified(l2)
    ensures WellClassified(l1 + [Blank] + l2)
    ensures ReadBlocks(l1 + [Blank] + l2) == ReadBlocks(l1) + ReadBlocks(l2)
  {
    var p := l1 + [Blank];
    var m := p + l2;
    BlankJoin(l1, l2);
    var w1 := Walk(l1, 0, Start);
    WalkPrefix(m, l1, 0, Start);
    WalkOther(m, |l1|, w1);
    var c := Flush(w1);
    assert Step(w1, Blank) == c;
    assert Inv(Start);
    assert Shifted(m, |p|, l2);
    WalkSuffix(m, |p|, l2, 0, c);
    assert c == Rebase(c.blocks, Start);
    WalkRebase(l2, 0, c.blocks, Start);
    FlushRebase(c.blocks, Walk(l2, 0, Start));
    FlushClean(c);
  }

  // ---------------------------------------------------------------------
  // Whole content

  /** Text without any three backticks is a single part. */
  lemma NoFenceParts(s: string)
    requires forall m :: !TicksAt(s, m)
    ensures Parts(s, 0) == [s]
  {
    assert FirstFence(s, 0).None?;
  }

  /** Content with Unix line endings and no fence is read line by line. */
  lemma ProseOutline(content: string)
    requires forall k :: !CrLfAt(content, k)
    requires forall m :: !TicksAt(content, m)
    ensures Outline(content) == LinesBlocks(Split(content, '\n'))
  {
    NormalizeIdentity(content);
    NoFenceParts(content);
    assert !StartsWith(content, "```") by { assert !TicksAt(content, 0); }
    assert PartsBlocks([content]) == PartBlocks(content) + PartsBlocks([]);
  }

  /** An empty part renders nothing. */
  lemma EmptyPart()
    ensures PartBlocks("") == []
  {
    assert !StartsWith("", "```");
    EmptyLine();
    FlushClean(Start);
    WalkOther([Blank], 0, Start);
  }

  /** The empty text is one blank line. */
  lemma EmptyLine()
    ensures ClassifyAll(Split("", '\n')) == [Blank]
  {
    SplitNoSep("", '\n');
    ClassifyEmpty();
    ClassifyAllOne("", Blank);
  }

  /** An empty line is a blank line. */
  lemma ClassifyEmpty()
    ensures Classify("") == Blank
  {
    assert IsTrimmed("");
  }

  /** `s` is one whole lazy fence. */
  lemma WholeFence(s: string)
    requires |s| >= 6 && TicksAt(s, 0) && TicksAt(s, |s| - 3)
    requires forall m :: 3 <= m < |s| - 3 ==> !TicksAt(s, m)
    ensures Parts(s, 0) == ["", s, ""]
  {
    var n := NextTicks(s, 3);
    assert n == Some(|s| - 3);
    assert FenceAt(s, 0) == Some(|s|);
    assert FirstFence(s, 0) == Some((0, |s|));
    assert FirstFence(s, |s|).None?;
    assert s[0..0] == "" && s[0..|s|] == s && s[|s|..] == "";
  }

  /** A fenced block on its own renders as one code block: the language
      from the opening line, trimmed, and the body verbatim. */
  lemma FencedOutline(lang: string, body: string)
    requires '\n' !in lang
    requires var s := "```" + lang + "\n" + body + "\n```";
      && (forall k :: !CrLfAt(s, k))
      && (forall m :: 3 <= m < |s| - 3 ==> !TicksAt(s, m))
    ensures Outline("```" + lang + "\n" + body + "\n```") == [Code(Trim(lang), body)]
  {
    var s := "```" + lang + "\n" + body + "\n```";
    NormalizeIdentity(s);
    assert TicksAt(s, 0) && TicksAt(s, |s| - 3) by {
      assert s[..3] == "```";
      assert s[|s| - 3..] == "```";
    }
    WholeFence(s);
    EmptyPart();
    CodeVerbatim(lang, body);
    assert StartsWith(s, "```");
    assert PartsBlocks(["", s, ""]) == PartBlocks("") + PartsBlocks([s, ""]);
    assert PartsBlocks([s, ""]) == PartBlocks(s) + PartsBlocks([""]);
    assert PartsBlocks([""]) == PartBlocks("") + PartsBlocks([]);
  }

  /** A heading line on its own is one heading block. */
  lemma HeadingAlone(n: nat, x: string)
    ensures ReadBlocks([HeadingLine(n, x)]) == [Heading(n, x)]
  {
    var ls := [HeadingLine(n, x)];
    FlushClean(Start);
    WalkOther(ls, 0, Start);
    assert Step(Start, ls[0]) == Start.(blocks := [Heading(n, x)]);
    FlushClean(Start.(blocks := [Heading(n, x)]));
  }

  /** A trimmed line whose first character opens no marker is paragraph
      text. */
  lemma OrdinaryStart(t: string)
    requires t != "" && t[0] !in "#-*_>" && !IsDigit(t[0])
    ensures Kind(t) == TextLine(t)
  {
    assert DigitsEnd(t, 0) == 0;
    assert !IsRule(t);
  }

  /** "## " then trimmed text is a level-two heading. */
  lemma LevelTwo(x: string)
    requires x != "" && IsTrimmed(x)
    ensures IsTrimmed("## " + x)
    ensures Kind("## " + x) == HeadingLine(2, x)
  {
    var t := "## " + x;
    assert t[0] == '#' && t[1] == '#' && t[|t| - 1] == x[|x| - 1];
    assert t[..3] == "## " && t[3..] == x;
  }

  /** Classifying a line that is already trimmed. */
  lemma ClassifyTrimmed(line: string)
    requires IsTrimmed(line)
    ensures Classify(line) == Kind(line)
  {
  }

  /** Lines classified one by one give the classified sequence. */
  lemma ClassifyAllIs(lines: seq<string>, ls: seq<Line>)
    requires |lines| == |ls|
    requires forall k :: 0 <= k < |lines| ==> Classify(lines[k]) == ls[k]
    ensures ClassifyAll(lines) == ls
  {
  }

  /** A line classified on its own. */
  lemma ClassifyAllOne(line: string, l: Line)
    requires Classify(line) == l
    ensures ClassifyAll([line]) == [l]
  {
    ClassifyAllIs([line], [l]);
  }

  /** Classifying lines commutes with concatenation. */
  lemma ClassifyAllAppend(a: seq<string>, b: seq<string>)
    ensures ClassifyAll(a + b) == ClassifyAll(a) + ClassifyAll(b)
  {
    ClassifyAllIs(a + b, ClassifyAll(a) + ClassifyAll(b));
  }

  /** Text free of line feeds, carriage returns and backticks. */
  predicate Inert(s: string) {
    forall k :: 0 <= k < |s| ==> s[k] != '\n' && s[k] != '\r' && s[k] != '`'
  }

  lemma InertConcat(a: string, b: string)
    requires Inert(a) && Inert(b)
    ensures Inert(a + b)
  {
  }

  lemma SplitThree(x: string, text: string)
    requires Inert(x) && Inert(text)
    ensures Split("## " + x + "\n\n" + text, '\n') == ["## " + x, "", text]
  {
    var title := "## " + x;
    assert '\n' !in title && '\n' !in text by {
      assert forall k :: 0 <= k < |title| ==> title[k] != '\n' by {
        forall k | 0 <= k < |title| ensures title[k] != '\n' {
          if k >= 3 { assert title[k] == x[k - 3]; }
        }
      }
    }
    assert "## " + x + "\n\n" + text == title + ['\n'] + ("" + ['\n'] + text);
    SplitAtSep(title, "" + ['\n'] + text, '\n');
    SplitAtSep("", text, '\n');
    SplitNoSep(text, '\n');
  }

  lemma NoTicks(c: string)
    requires forall k :: 0 <= k < |c| ==> c[k] != '`'
    ensures forall m :: !TicksAt(c, m)
  {
    forall m ensures !TicksAt(c, m) {
      if 0 <= m && m + 3 <= |c| {
        assert c[m..m + 3][0] == c[m];
      }
    }
  }

  lemma ContentIsProse(x: string, text: string)
    requires Inert(x) && Inert(text)
    ensures var c := "## " + x + "\n\n" + text;
      (forall k :: !CrLfAt(c, k)) && (forall m :: !TicksAt(c, m))
  {
    var c := "## " + x + "\n\n" + text;
    assert forall k :: 0 <= k < |c| ==> c[k] != '\r' && c[k] != '`' by {
      forall k | 0 <= k < |c| ensures c[k] != '\r' && c[k] != '`' {
        if 3 <= k < 3 + |x| { assert c[k] == x[k - 3]; }
        if k >= 5 + |x| { assert c[k] == text[k - 5 - |x|]; }
      }
    }
    NoTicks(c);
  }

  lemma ExampleLines(x: string, text: string)
    requires x != "" && IsTrimmed(x) && Inert(x)
    requires text != "" && IsTrimmed(text) && Inert(text)
    requires text[0] !in "#-*_>" && !IsDigit(text[0])
    ensures ClassifyAll(Split("## " + x + "\n\n" + text, '\n'))
         == [HeadingLine(2, x), Blank, TextLine(text)]
  {
    var h := "## " + x;
    assert Split(h + "\n\n" + text, '\n') == [h] + [""] + [text] by {
      SplitThree(x, text);
    }
    assert ClassifyAll([h]) == [HeadingLine(2, x)] by {
      LevelTwo(x);
      ClassifyTrimmed(h);
      ClassifyAllOne(h, HeadingLine(2, x));
    }
    assert ClassifyAll([""]) == [Blank] by {
      ClassifyEmpty();
      ClassifyAllOne("", Blank);
    }
    assert ClassifyAll([text]) == [TextLine(text)] by {
      ClassifyTrimmed(text);
      OrdinaryStart(text);
      ClassifyAllOne(text, TextLine(text));
    }
    ClassifyAllAppend([h] + [""], [text]);
    ClassifyAllAppend([h], [""]);
  }

  lemma ExampleBlocks(x: string, text: string)
    requires text != "" && IsTrimmed(text)
    ensures ReadBlocks([HeadingLine(2, x), Blank, TextLine(text)])
         == [Heading(2, x), Paragraph(text)]
  {
    var h := [HeadingLine(2, x)];
    var p := [TextLine(text)];
    assert [HeadingLine(2, x), Blank, TextLine(text)] == h + [Blank] + p;
    BlankSplits(h, p);
    HeadingAlone(2, x);
    TextRun(p);
    assert Payloads(p, 0, 1) == [text];
  }

  /** A level-two heading, a blank line, and a line of paragraph text render
      as a heading block and a paragraph block, whatever the texts are. */
  lemma HeadingThenParagraph(x: string, text: string)
    requires x != "" && IsTrimmed(x) && Inert(x)
    requires text != "" && IsTrimmed(text) && Inert(text)
    requires text[0] !in "#-*_>" && !IsDigit(text[0])
    ensures Outline("## " + x + "\n\n" + text) == [Heading(2, x), Paragraph(text)]
  {
    var content := "## " + x + "\n\n" + text;
    ContentIsProse(x, text);
    ProseOutline(content);
    ExampleLines(x, text);
    ExampleBlocks(x, text);
  }
}

=== FILE: blocks.dfy ===
/**
 * The blog renderer's block level (`renderContent`): line endings are
 * normalised, the text is cut into fenced code parts and the text between
 * them, code parts become code blocks, and every other part is read line by
 * line into headings, paragraphs, lists, quotes and rules. Each block's text
 * is then handed to the inline formatter (`Inline.Tokens`).
 *
 * The per-part wrapper element and React keys are presentational and are not
 * modelled: the blocks of all parts are concatenated in order.
 */
module Blocks {
  import opened Common
  import opened JsText
  import opened Inline

  // ---------------------------------------------------------------------
  // Line endings: content.replace(/\r\n/g, '\n')

  /** Every `"\r\n"` pair, scanning left to right without overlap, becomes a
      single `'\n'`; every other character is kept. */
  function Normalize(s: string): (r: string)
    ensures |r| <= |s|
    ensures (forall k :: 0 <= k < |s| ==> s[k] != '\r') ==> r == s
  {
    if |s| >= 2 && s[0] == '\r' && s[1] == '\n' then "\n" + Normalize(s[2..])
    else if |s| == 0 then ""
    else [s[0]] + Normalize(s[1..])
  }

  /** `s` contains the pair `"\r\n"` at index `k`. */
  predicate CrLfAt(s: string, k: int) {
    0 <= k && k + 1 < |s| && s[k] == '\r' && s[k + 1] == '\n'
  }

  /** Normalisation changes the text exactly when it holds a `"\r\n"` pair. */
  lemma {:induction false} NormalizeIdentity(s: string)
    ensures Normalize(s) == s <==> forall k :: !CrLfAt(s, k)
  {
    if |s| >= 2 && s[0] == '\r' && s[1] == '\n' {
      assert CrLfAt(s, 0);
      assert |Normalize(s)| < |s| by { assert |Normalize(s[2..])| <= |s| - 2; }
    } else if |s| > 0 {
      NormalizeIdentity(s[1..]);
      assert !CrLfAt(s, 0);
      assert Normalize(s) == [s[0]] + Normalize(s[1..]);
      assert s == [s[0]] + s[1..];
      assert (Normalize(s) == s) == (Normalize(s[1..]) == s[1..]);
      assert (forall k :: !CrLfAt(s, k)) ==> (forall k :: !CrLfAt(s[1..], k)) by {
        forall k | CrLfAt(s[1..], k) ensures CrLfAt(s, k + 1) { }
      }
      assert (forall k :: !CrLfAt(s[1..], k)) ==> (forall k :: !CrLfAt(s, k)) by {
        forall k | CrLfAt(s, k) ensures CrLfAt(s[1..], k - 1) { }
      }
    }
  }

  /** The inverse direction: every `'\n'` written as `"\r\n"`. */
  function ExpandNewlines(s: string): (r: string)
    ensures |r| >= |s|
  {
    if |s| == 0 then ""
    else (if s[0] == '\n' then "\r\n" else [s[0]]) + ExpandNewlines(s[1..])
  }

  /** Text with Windows line endings normalises to the same text with Unix
      line endings, provided it had no stray carriage return of its own. */
  lemma {:induction false} NormalizeExpand(s: string)
    requires forall k :: 0 <= k < |s| ==> s[k] != '\r'
    ensures Normalize(ExpandNewlines(s)) == s
  {
    if |s| > 0 {
      NormalizeExpand(s[1..]);
      var e := ExpandNewlines(s[1..]);
      if s[0] == '\n' {
        assert ExpandNewlines(s) == "\r\n" + e;
        assert ("\r\n" + e)[2..] == e;
      } else {
        assert ExpandNewlines(s) == [s[0]] + e;
        assert ([s[0]] + e)[1..] == e;
      }
      assert s == [s[0]] + s[1..];
    }
  }

  /** A carriage return not followed by a line feed is kept, and the scan
      does not overlap: `"\r\r\n"` becomes `"\r\n"`. */
  lemma LoneCarriageReturn()
    ensures Normalize("\r") == "\r"
    ensures Normalize("\r\r\n") == "\r\n"
  {
    assert Normalize("\r\r\n") == "\r" + Normalize("\r\n");
  }

  // ---------------------------------------------------------------------
  // Fenced code parts: content.split(/(```[\s\S]*?```)/g)

  predicate TicksAt(s: string, i: int) {
    0 <= i && OccursAt(s, "```", i)
  }

  /** The first index at or after `from` where three backticks occur. */
  function NextTicks(s: string, from: nat): (r: Option<nat>)
    ensures r.Some? ==> from <= r.value && TicksAt(s, r.value)
    ensures forall m :: from <= m && (r.None? || m < r.value) ==> !TicksAt(s, m)
    decreases |s| - from
  {
    if from + 3 > |s| then None
    else if TicksAt(s, from) then Some(from)
    else NextTicks(s, from + 1)
  }

  /** `s[i..e]` is a fence as the lazy pattern matches it: it opens with three
      backticks and closes at the first three backticks that do not overlap
      the opening. */
  ghost predicate Fence(s: string, i: nat, e: nat) {
    && i + 6 <= e <= |s|
    && TicksAt(s, i) && TicksAt(s, e - 3)
    && forall m :: i + 3 <= m < e - 3 ==> !TicksAt(s, m)
  }

  /** The end of the fence the pattern matches at `i`, if any. */
  function FenceAt(s: string, i: nat): (r: Option<nat>)
    ensures r.Some? <==> exists e :: Fence(s, i, e)
    ensures r.Some? ==> Fence(s, i, r.value)
  {
    if !TicksAt(s, i) then None
    else match NextTicks(s, i + 3)
      case None => None
      case Some(j) =>
        assert Fence(s, i, j + 3);
        Some(j + 3)
  }

  /** The leftmost fence starting at or after `from`, as (start, end). */
  function FirstFence(s: string, from: nat): (r: Option<(nat, nat)>)
    ensures r.Some? ==> from <= r.value.0 && Fence(s, r.value.0, r.value.1)
    ensures forall m :: from <= m && (r.None? || m < r.value.0) ==> FenceAt(s, m).None?
    decreases |s| - from
  {
    if from >= |s| then None
    else match FenceAt(s, from)
      case Some(e) => Some((from, e))
      case None => FirstFence(s, from + 1)
  }

  /** Concatenation of a sequence of strings. */
  function Concat(parts: seq<string>): string {
    if |parts| == 0 then "" else parts[0] + Concat(parts[1..])
  }

  lemma {:induction false} ConcatAppend(a: seq<string>, b: seq<string>)
    ensures Concat(a + b) == Concat(a) + Concat(b)
  {
    if |a| > 0 {
      ConcatAppend(a[1..], b);
      assert (a + b)[1..] == a[1..] + b;
    } else {
      assert a + b == b;
    }
  }

  /** The pieces `split` returns for the text from `p` on: text between
      fences at even positions, the fences themselves (the capture group) at
      odd positions. */
  function Parts(s: string, p: nat): (r: seq<string>)
    requires p <= |s|
    ensures |r| % 2 == 1
    decreases |s| - p
  {
    match FirstFence(s, p)
    case None => [s[p..]]
    case Some((i, e)) => [s[p..i], s[i..e]] + Parts(s, e)
  }

  /** The pieces tile the text: concatenating them gives it back. */
  lemma {:induction false} PartsTile(s: string, p: nat)
    requires p <= |s|
    ensures Concat(Parts(s, p)) == s[p..]
    decreases |s| - p
  {
    match FirstFence(s, p)
    case None =>
    case Some((i, e)) =>
      PartsTile(s, e);
      ConcatAppend([s[p..i], s[i..e]], Parts(s, e));
      ConcatPair(s[p..i], s[i..e]);
      assert s[i..] == s[i..e] + s[e..];
      assert s[p..] == s[p..i] + s[i..];
  }

  lemma ConcatPair(a: string, b: string)
    ensures Concat([a, b]) == a + b
  {
    assert [a, b][1..] == [b];
    assert [b][1..] == [];
    assert Concat([b]) == b + "" == b;
  }

  /** `t` is the fence of `s` that starts at `i`. */
  ghost predicate FencePiece(s: string, i: nat, t: string) {
    Fence(s, i, i + |t|) && t == s[i..i + |t|]
  }

  /** `t` is the text of `s` at `a`, at or after `p`, and no fence starts
      inside it. */
  ghost predicate PlainPiece(s: string, p: nat, a: nat, t: string) {
    && p <= a && a + |t| <= |s| && t == s[a..a + |t|]
    && forall m :: a <= m < a + |t| ==> FenceAt(s, m).None?
  }

  lemma FirstPieces(s: string, p: nat)
    requires p <= |s|
    ensures PlainPiece(s, p, p, Parts(s, p)[0])
    ensures FirstFence(s, p).Some? ==> FencePiece(s, FirstFence(s, p).value.0, Parts(s, p)[1])
  {
  }

  lemma LaterPieces(s: string, p: nat, n: nat)
    requires p <= |s| && 2 <= n < |Parts(s, p)|
    ensures FirstFence(s, p).Some?
    ensures p < FirstFence(s, p).value.1 <= |s|
    ensures Parts(s, p)[n] == Parts(s, FirstFence(s, p).value.1)[n - 2]
  {
  }

  /** Piece `2k + 1` is a whole lazy fence; no fence starts inside piece
      `2k`. */
  lemma {:induction false} PartsShape(s: string, p: nat, k: nat)
    requires p <= |s|
    ensures 2 * k < |Parts(s, p)| ==> var t := Parts(s, p)[2 * k]; exists a: nat :: PlainPiece(s, p, a, t)
    ensures 2 * k + 1 < |Parts(s, p)| ==> var t := Parts(s, p)[2 * k + 1]; exists i: nat :: FencePiece(s, i, t)
    decreases |s| - p
  {
    FirstPieces(s, p);
    if k == 0 {
      if 1 < |Parts(s, p)| {
        assert FencePiece(s, FirstFence(s, p).value.0, Parts(s, p)[1]);
      }
      assert PlainPiece(s, p, p, Parts(s, p)[0]);
    } else if 2 * k < |Parts(s, p)| {
      LaterPieces(s, p, 2 * k);
      var e := FirstFence(s, p).value.1;
      PartsShape(s, e, k - 1);
      var a: nat :| PlainPiece(s, e, a, Parts(s, e)[2 * k - 2]);
      assert PlainPiece(s, p, a, Parts(s, p)[2 * k]);
      if 2 * k + 1 < |Parts(s, p)| {
        LaterPieces(s, p, 2 * k + 1);
        var i: nat :| FencePiece(s, i, Parts(s, e)[2 * k - 1]);
        assert FencePiece(s, i, Parts(s, p)[2 * k + 1]);
      }
    }
  }

  // ---------------------------------------------------------------------
  // Code parts

  /** `line.replace('```', '')`: the first occurrence removed, if any. */
  function RemoveFirstTicks(line: string): (r: string)
    ensures TicksAt(line, 0) ==> r == line[3..]
    ensures (forall m :: !TicksAt(line, m)) ==> r == line
  {
    match NextTicks(line, 0)
    case None => line
    case Some(i) => line[..i] + line[i + 3..]
  }

  /** A code part: its language is the first line without its first three
      backticks, trimmed; its code is every line strictly between the first
      and the last, joined by line feeds (nothing when there is only one
      line). */
  function CodePart(part: string): (r: (string, string)) {
    var lines := Split(part, '\n');
    var language := Trim(RemoveFirstTicks(lines[0]));
    var code := if |lines| < 2 then "" else Join(lines[1..|lines| - 1], "\n");
    (language, code)
  }

  lemma {:induction false} SplitAppend(x: string, z: string, sep: char)
    requires sep !in z
    ensures Split(x + [sep] + z, sep) == Split(x, sep) + [z]
  {
    if |x| == 0 {
      SplitAtSep("", z, sep);
      SplitNoSep(z, sep);
      assert x + [sep] + z == "" + [sep] + z;
    } else {
      SplitAppend(x[1..], z, sep);
      assert (x + [sep] + z)[1..] == x[1..] + [sep] + z;
      assert (x + [sep] + z)[0] == x[0];
      var rest := Split(x[1..], sep);
      if x[0] != sep {
        assert (rest + [z])[0] == rest[0];
        assert (rest + [z])[1..] == rest[1..] + [z];
      }
    }
  }

  /** A fence written the usual way, with the language on the opening line
      and the closing backticks on a line of their own, gives back its body
      verbatim, whatever the body holds. */
  lemma CodeVerbatim(lang: string, body: string)
    requires '\n' !in lang
    ensures CodePart("```" + lang + "\n" + body + "\n```") == (Trim(lang), body)
  {
    var part := "```" + lang + "\n" + body + "\n```";
    SplitAppend("```" + lang + "\n" + body, "```", '\n');
    SplitAtSep("```" + lang, body, '\n');
    assert part == ("```" + lang) + ['\n'] + body + ['\n'] + "```";
    var lines := Split(part, '\n');
    assert lines == ["```" + lang] + Split(body, '\n') + ["```"];
    assert lines[1..|lines| - 1] == Split(body, '\n');
    JoinSplit(body, '\n');
    assert TicksAt("```" + lang, 0);
    assert ("```" + lang)[3..] == lang;
  }

  /** A lone fence with no line feed (such as an unclosed trailing "```")
      renders as a code block with no code. */
  lemma CodeOneLine(part: string)
    requires '\n' !in part
    ensures CodePart(part).1 == ""
  {
    SplitNoSep(part, '\n');
  }

  // ---------------------------------------------------------------------
  // Line classification

  predicate IsDigit(c: char) {
    '0' <= c <= '9'
  }

  /** The first index at or after `from` that does not hold an ASCII digit
      (the regular-expression class `\d`). */
  function DigitsEnd(t: string, from: nat): (r: nat)
    requires from <= |t|
    ensures from <= r <= |t|
    ensures forall k :: from <= k < r ==> IsDigit(t[k])
    ensures r < |t| ==> !IsDigit(t[r])
    decreases |t| - from
  {
    if from < |t| && IsDigit(t[from]) then DigitsEnd(t, from + 1) else from
  }

  /** `t` starts with `d` digits, a full stop and a space. */
  ghost predicate NumberedAs(t: string, d: nat) {
    && 0 < d && d + 2 <= |t|
    && (forall k :: 0 <= k < d ==> IsDigit(t[k]))
    && t[d] == '.' && t[d + 1] == ' '
  }

  /** `/^\d+\. /`: the text after the marker when `t` starts with one. The
      digit run is maximal, so there is at most one way to read the marker. */
  function NumberedItem(t: string): (r: Option<string>)
    ensures r.Some? ==> exists d: nat :: NumberedAs(t, d)
    ensures r.Some? ==> |t| >= 3 && IsDigit(t[0])
    ensures forall d: nat :: NumberedAs(t, d) ==> r == Some(t[d + 2..])
  {
    var d := DigitsEnd(t, 0);
    assert forall d': nat :: NumberedAs(t, d') ==> d' == d by {
      forall d': nat | NumberedAs(t, d') ensures d' == d { }
    }
    if 0 < d && d + 2 <= |t| && t[d] == '.' && t[d + 1] == ' ' then
      assert NumberedAs(t, d);
      Some(t[d + 2..])
    else None
  }

  /** `/^[-*] /`. */
  predicate IsBullet(t: string) {
    |t| >= 2 && (t[0] == '-' || t[0] == '*') && t[1] == ' '
  }

  /** `/^[-*_]{3,}$/`: three or more characters, each a dash, star or
      underscore, in any mixture. */
  predicate IsRule(t: string) {
    |t| >= 3 && forall k :: 0 <= k < |t| ==> t[k] == '-' || t[k] == '*' || t[k] == '_'
  }

  /** What one line of a text part is, after trimming. */
  datatype Line =
    | Blank
    | HeadingLine(level: nat, text: string)
    | BulletLine(text: string)
    | NumberedLine(text: string)
    | QuoteLine(text: string)
    | RuleLine
    | TextLine(text: string)

  /** "#" repeated `level` times, then a space. */
  function HeadingMarker(level: nat): string {
    if level == 0 then " " else "#" + HeadingMarker(level - 1)
  }

  /** The tests in the order the renderer applies them to a trimmed line:
      blank, the four heading markers, a bullet, a number, a quote, a rule,
      and otherwise paragraph text. */
  function Kind(t: string): (r: Line)
    ensures r.Blank? <==> t == ""
    ensures r.NumberedLine? <==> NumberedItem(t).Some?
    ensures r.TextLine? ==> r.text == t && t != ""
  {
    assert NumberedItem(t).Some? ==> t[0] != '#';
    if t == "" then Blank
    else if StartsWith(t, "# ") then HeadingLine(1, t[2..])
    else if StartsWith(t, "## ") then HeadingLine(2, t[3..])
    else if StartsWith(t, "### ") then HeadingLine(3, t[4..])
    else if StartsWith(t, "#### ") then HeadingLine(4, t[5..])
    else if IsBullet(t) then BulletLine(t[2..])
    else if NumberedItem(t).Some? then NumberedLine(NumberedItem(t).value)
    else if StartsWith(t, "> ") then QuoteLine(t[2..])
    else if IsRule(t) then RuleLine
    else TextLine(t)
  }

  /** What each kind of line says about the trimmed text it came from: the
      marker it starts with and the text that follows the marker. */
  lemma KindShape(t: string)
    ensures var r := Kind(t);
      && (r.HeadingLine? ==> 1 <= r.level <= 4 && t == HeadingMarker(r.level) + r.text)
      && (r.BulletLine? ==> IsBullet(t) && r.text == t[2..])
      && (r.NumberedLine? ==> NumberedItem(t) == Some(r.text))
      && (r.QuoteLine? ==> StartsWith(t, "> ") && r.text == t[2..])
      && (r.RuleLine? ==> IsRule(t) && !IsBullet(t))
      && (r.TextLine? ==> !IsBullet(t) && !IsRule(t) && !StartsWith(t, "# ") && !StartsWith(t, "> "))
  {
    assert HeadingMarker(1) == "# " && HeadingMarker(2) == "## ";
    assert HeadingMarker(3) == "### " && HeadingMarker(4) == "#### ";
    var r := Kind(t);
    if r.HeadingLine? {
      StartsWithSplit(t, HeadingMarker(r.level));
    }
  }

  /** A line is classified by its trimmed text. */
  function Classify(line: string): Line {
    Kind(Trim(line))
  }

  /** Five hashes are not a heading: the line is paragraph text. */
  lemma FiveHashesIsText()
    ensures Kind("##### x") == TextLine("##### x")
  {
    var t := "##### x";
    assert t[1] == '#' && t[2] == '#' && t[3] == '#' && t[4] == '#';
    assert DigitsEnd(t, 0) == 0;
    assert !IsRule(t) by { assert t[5] == ' '; }
  }

  /** Spaced dashes are a bullet (whose text is "- -"), not a rule. */
  lemma SpacedDashesAreBullet()
    ensures Kind("- - -") == BulletLine("- -")
  {
  }

  /** Unbroken runs of dashes, stars and underscores, mixed or not, are rules. */
  lemma DashesAreRule()
    ensures Kind("---") == RuleLine
  {
    assert DigitsEnd("---", 0) == 0;
  }

  lemma MixedRunIsRule()
    ensures Kind("-*_") == RuleLine
  {
    assert DigitsEnd("-*_", 0) == 0;
  }

  /** A numbered marker may have any number of digits. */
  lemma NumberedExample()
    ensures Kind("12. x") == NumberedLine("x")
  {
    var t := "12. x";
    assert DigitsEnd(t, 2) == 2;
    assert DigitsEnd(t, 0) == 2;
  }

  /** Surrounding whitespace is trimmed away before the tests. */
  lemma TrimmedBeforeClassifying()
    ensures Classify(" 12. x ") == NumberedLine("x")
  {
    TrimExample();
    NumberedExample();
  }

  lemma TrimExample()
    ensures Trim(" 12. x ") == "12. x"
  {
    assert " 12. x " == " " + "12. x" + " ";
    TrimPadded(" ", "12. x", " ");
  }

  // ---------------------------------------------------------------------
  // Blocks and the line accumulator

  /** A rendered block. `T` is the type of a block's text: the raw string
      (as the line reader produces it) or its inline spans (as rendered). */
  datatype Block<T> =
    | Heading(level: nat, body: T)
    | Paragraph(body: T)
    | UnorderedList(items: seq<T>)
    | OrderedList(items: seq<T>)
    | Quote(body: T)
    | Rule
    | Code(language: string, code: string)

  /** The reader's state: the blocks emitted so far, the open paragraph's
      lines, whether a bullet list is open, and its items. */
  datatype Acc = Acc(blocks: seq<Block<string>>, para: seq<string>, inList: bool, items: seq<string>)

  const Start := Acc([], [], false, [])

  /** A list is open exactly when it has items; an open list and an open
      paragraph never coexist; paragraph lines are trimmed and non-empty. */
  ghost predicate Inv(a: Acc) {
    && (a.inList <==> |a.items| > 0)
    && (a.inList ==> a.para == [])
    && (forall k :: 0 <= k < |a.para| ==> a.para[k] != "" && IsTrimmed(a.para[k]))
  }

  /** `flushList`: emit the open list, if it has items, and close it. */
  function FlushList(a: Acc): (r: Acc)
    ensures Inv(a) ==> Inv(r) && !r.inList && r.para == a.para
  {
    if |a.items| > 0 then
      a.(blocks := a.blocks + [UnorderedList(a.items)], items := [], inList := false)
    else a
  }

  /** `if (inList) flushList();` */
  function CloseList(a: Acc): (r: Acc)
    ensures Inv(a) ==> Inv(r) && !r.inList && r.para == a.para
  {
    if a.inList then FlushList(a) else a
  }

  /** `flushParagraph`: emit the open paragraph's lines joined by spaces and
      trimmed, unless that text is empty, and clear it. */
  function FlushParagraph(a: Acc): (r: Acc)
    ensures Inv(a) ==> Inv(r)
    ensures r.para == [] && r.inList == a.inList && r.items == a.items
  {
    if |a.para| > 0 then
      var text := Trim(Join(a.para, " "));
      a.(blocks := a.blocks + (if text != "" then [Paragraph(text)] else []), para := [])
    else a
  }

  /** Close whatever is open: the list first, then the paragraph. */
  function Flush(a: Acc): (r: Acc)
    ensures Inv(a) ==> Inv(r) && Clean(r)
  {
    FlushParagraph(CloseList(a))
  }

  /** Nothing is open. */
  predicate Clean(a: Acc) {
    a.para == [] && !a.inList && a.items == []
  }

  function Emit(a: Acc, b: Block<string>): Acc {
    a.(blocks := a.blocks + [b])
  }

  /** The text a line carries after its marker ("" for blank and rule
      lines). */
  function Payload(l: Line): string {
    match l
    case Blank => ""
    case RuleLine => ""
    case HeadingLine(_, x) => x
    case BulletLine(x) => x
    case NumberedLine(x) => x
    case QuoteLine(x) => x
    case TextLine(x) => x
  }

  /** One line that is not a numbered item. */
  function Step(a: Acc, l: Line): (r: Acc)
    requires !l.NumberedLine?
    requires l.TextLine? ==> l.text != "" && IsTrimmed(l.text)
    ensures Inv(a) ==> Inv(r)
  {
    match l
    case Blank => Flush(a)
    case HeadingLine(n, x) => Emit(Flush(a), Heading(n, x))
    case BulletLine(x) =>
      var b := if a.inList then a else FlushParagraph(a).(inList := true);
      b.(items := b.items + [x])
    case QuoteLine(x) => Emit(Flush(a), Quote(x))
    case RuleLine => Emit(Flush(a), Rule)
    case TextLine(x) =>
      var b := CloseList(a);
      b.(para := b.para + [x])
  }

  /** Every paragraph-text line carries trimmed, non-empty text, as the
      classifier guarantees. */
  ghost predicate WellClassified(ls: seq<Line>) {
    forall k :: 0 <= k < |ls| && ls[k].TextLine? ==> ls[k].text != "" && IsTrimmed(ls[k].text)
  }

  /** The lines of a part, each classified by its trimmed text. */
  function ClassifyAll(lines: seq<string>): (r: seq<Line>)
    ensures |r| == |lines| && WellClassified(r)
    ensures forall k :: 0 <= k < |lines| ==> r[k] == Classify(lines[k])
  {
    seq(|lines|, k requires 0 <= k < |lines| => Classify(lines[k]))
  }

  /** The first index at or after `i` whose line is not a numbered item. */
  function NumberedEnd(ls: seq<Line>, i: nat): (r: nat)
    requires i <= |ls|
    ensures i <= r <= |ls|
    ensures forall k :: i <= k < r ==> ls[k].NumberedLine?
    ensures r < |ls| ==> !ls[r].NumberedLine?
    decreases |ls| - i
  {
    if i < |ls| && ls[i].NumberedLine? then NumberedEnd(ls, i + 1) else i
  }

  /** The payloads of lines `i` up to `j`. */
  function Payloads(ls: seq<Line>, i: nat, j: nat): (r: seq<string>)
    requires i <= j <= |ls|
    ensures |r| == j - i
    ensures forall k :: 0 <= k < j - i ==> r[k] == Payload(ls[i + k])
    decreases j - i
  {
    if i == j then [] else Payloads(ls, i, j - 1) + [Payload(ls[j - 1])]
  }

  /** The reader from line `i` on. A numbered line takes with it every
      numbered line that immediately follows and emits them as one ordered
      list. */
  function Walk(ls: seq<Line>, i: nat, a: Acc): (r: Acc)
    requires i <= |ls| && WellClassified(ls)
    ensures Inv(a) ==> Inv(r)
    decreases |ls| - i
  {
    if i == |ls| then a
    else if ls[i].NumberedLine? then
      var j := NumberedEnd(ls, i + 1);
      Walk(ls, j, Emit(Flush(a), OrderedList(Payloads(ls, i, j))))
    else Walk(ls, i + 1, Step(a, ls[i]))
  }

  /** The blocks of a run of classified lines: read them all, then close
      the list and the paragraph. */
  function ReadBlocks(ls: seq<Line>): seq<Block<string>>
    requires WellClassified(ls)
  {
    Flush(Walk(ls, 0, Start)).blocks
  }

  function LinesBlocks(lines: seq<string>): seq<Block<string>> {
    ReadBlocks(ClassifyAll(lines))
  }

  lemma RunStart(ls: seq<Line>, first: nat)
    requires first < |ls| && ls[first].NumberedLine?
    ensures Payloads(ls, first, first + 1) == [ls[first].text]
  {
  }

  lemma RunStep(ls: seq<Line>, first: nat, i: nat)
    requires first <= i && i + 1 < |ls| && ls[i + 1].NumberedLine?
    ensures Payloads(ls, first, i + 2) == Payloads(ls, first, i + 1) + [ls[i + 1].text]
  {
  }

  lemma WalkNumbered(ls: seq<Line>, i: nat, a: Acc)
    requires i < |ls| && WellClassified(ls) && ls[i].NumberedLine?
    ensures var j := NumberedEnd(ls, i + 1);
      Walk(ls, i, a) == Walk(ls, j, Emit(Flush(a), OrderedList(Payloads(ls, i, j))))
  {
  }

  lemma WalkOther(ls: seq<Line>, i: nat, a: Acc)
    requires i < |ls| && WellClassified(ls) && !ls[i].NumberedLine?
    ensures Walk(ls, i, a) == Walk(ls, i + 1, Step(a, ls[i]))
  {
  }

  /** The inner loop: the items of the numbered run that starts at `first`,
      and the index of its last line. */
  method GatherNumbered(ls: seq<Line>, first: nat) returns (last: nat, items: seq<string>)
    requires first < |ls| && ls[first].NumberedLine?
    ensures last + 1 == NumberedEnd(ls, first + 1)
    ensures items == Payloads(ls, first, last + 1)
  {
    last := first;
    items := [ls[first].text];
    RunStart(ls, first);
    while last + 1 < |ls| && ls[last + 1].NumberedLine?
      invariant first <= last < |ls|
      invariant NumberedEnd(ls, first + 1) == NumberedEnd(ls, last + 1)
      invariant items == Payloads(ls, first, last + 1)
    {
      RunStep(ls, first, last);
      last := last + 1;
      items := items + [ls[last].text];
    }
  }

  /** One turn of the reader's loop: a numbered run, or one other line. */
  method ReadOne(ls: seq<Line>, i: nat, a: Acc) returns (i': nat, a': Acc)
    requires i < |ls| && WellClassified(ls)
    ensures i < i' <= |ls|
    ensures Walk(ls, i', a') == Walk(ls, i, a)
  {
    if ls[i].NumberedLine? {
      WalkNumbered(ls, i, a);
      var last, items := GatherNumbered(ls, i);
      a' := Emit(Flush(a), OrderedList(items));
      i' := last + 1;
    } else {
      WalkOther(ls, i, a);
      a' := Step(a, ls[i]);
      i' := i + 1;
    }
  }

  /** The same reader as a loop over the lines. */
  method ReadLines(lines: seq<string>) returns (blocks: seq<Block<string>>)
    ensures blocks == LinesBlocks(lines)
  {
    var ls := ClassifyAll(lines);
    var a := Start;
    var i := 0;
    ghost var goal := Walk(ls, 0, Start);
    while i < |ls|
      invariant 0 <= i <= |ls|
      invariant Walk(ls, i, a) == goal
      decreases |ls| - i
    {
      i, a := ReadOne(ls, i, a);
    }
    blocks := Flush(a).blocks;
  }

  // ---------------------------------------------------------------------
  // Whole content

  /** A part that starts with three backticks is code, whether or not it is
      a closed fence; any other part is read line by line. */
  function PartBlocks(part: string): seq<Block<string>> {
    if StartsWith(part, "```") then
      var (language, code) := CodePart(part);
      [Code(language, code)]
    else LinesBlocks(Split(part, '\n'))
  }

  function PartsBlocks(parts: seq<string>): seq<Block<string>> {
    if |parts| == 0 then [] else PartBlocks(parts[0]) + PartsBlocks(parts[1..])
  }

  /** `renderContent` up to inline formatting: the blocks of every part, in
      order. */
  function Outline(content: string): seq<Block<string>> {
    PartsBlocks(Parts(Normalize(content), 0))
  }

  /** A block with its text run through the inline formatter. Code is left
      as it is. */
  function RenderBlock(b: Block<string>): Block<seq<Span>> {
    match b
    case Heading(n, x) => Heading(n, Tokens(x))
    case Paragraph(x) => Paragraph(Tokens(x))
    case UnorderedList(xs) => UnorderedList(seq(|xs|, k requires 0 <= k < |xs| => Tokens(xs[k])))
    case OrderedList(xs) => OrderedList(seq(|xs|, k requires 0 <= k < |xs| => Tokens(xs[k])))
    case Quote(x) => Quote(Tokens(x))
    case Rule => Rule
    case Code(l, c) => Code(l, c)
  }

  /** `renderContent`: the rendered blocks of the content. */
  function Render(content: string): (r: seq<Block<seq<Span>>>)
    ensures |r| == |Outline(content)|
  {
    var o := Outline(content);
    seq(|o|, k requires 0 <= k < |o| => RenderBlock(o[k]))
  }

  /** A rendered block with its spans turned back into source text. */
  function Erase(b: Block<seq<Span>>): Block<string> {
    match b
    case Heading(n, x) => Heading(n, Source(x))
    case Paragraph(x) => Paragraph(Source(x))
    case UnorderedList(xs) => UnorderedList(seq(|xs|, k requires 0 <= k < |xs| => Source(xs[k])))
    case OrderedList(xs) => OrderedList(seq(|xs|, k requires 0 <= k < |xs| => Source(xs[k])))
    case Quote(x) => Quote(Source(x))
    case Rule => Rule
    case Code(l, c) => Code(l, c)
  }

  /** Inline formatting loses no text: erasing a rendered block's spans gives
      back the block as the line reader produced it. */
  lemma EraseRenderBlock(b: Block<string>)
    ensures Erase(RenderBlock(b)) == b
  {
    match b
    case UnorderedList(xs) =>
      assert Erase(RenderBlock(b)).items == xs;
    case OrderedList(xs) =>
      assert Erase(RenderBlock(b)).items == xs;
    case _ =>
  }

  /** The rendered content is the outline with inline formatting applied, and
      erasing the formatting gives the outline back. */
  lemma RenderTiles(content: string)
    ensures forall k :: 0 <= k < |Render(content)| ==> Erase(Render(content)[k]) == Outline(content)[k]
  {
    forall k | 0 <= k < |Render(content)|
      ensures Erase(Render(content)[k]) == Outline(content)[k]
    {
      EraseRenderBlock(Outline(content)[k]);
    }
  }
}

=== FILE: blog.dfy ===
/**
 * The blog index: the case-insensitive search over titles and excerpts, when
 * the featured section shows, and how fetched lists replace the old ones.
 */
module Blog {
  import opened Common
  import opened JsText
  import Settings

  datatype Post = Post(title: string, excerpt: Option<string>)

  /** The title, or a present excerpt, contains the query, ignoring case. */
  predicate Matches(p: Post, query: string) {
    || Includes(Lower(p.title), Lower(query))
    || (p.excerpt.Some? && Includes(Lower(p.excerpt.value), Lower(query)))
  }

  function Matching(query: string): Post -> bool {
    (p: Post) => Matches(p, query)
  }

  /** `filteredPosts`. */
  function Search(posts: seq<Post>, query: string): (r: seq<Post>)
    ensures forall p :: p in r <==> p in posts && Matches(p, query)
  {
    Filter(posts, Matching(query))
  }

  /** Results keep the order of the fetched list. */
  lemma SearchKeepsOrder(a: seq<Post>, b: seq<Post>, query: string)
    ensures Search(a + b, query) == Search(a, query) + Search(b, query)
  {
    FilterConcat(a, b, Matching(query));
  }

  /** Every string contains the empty string. */
  lemma IncludesEmpty(s: string)
    ensures Includes(s, "")
  {
    assert OccursAt(s, "", 0);
  }

  /** An empty query keeps every post. */
  lemma EmptyQueryKeepsAll(posts: seq<Post>)
    ensures Search(posts, "") == posts
  {
    forall p | p in posts ensures Matching("")(p) {
      IncludesEmpty(Lower(p.title));
    }
    FilterKeepsAll(posts, Matching(""));
  }

  lemma LowerConcat(a: string, b: string)
    ensures Lower(a + b) == Lower(a) + Lower(b)
  {
  }

  lemma LowerIdempotent(s: string)
    ensures Lower(Lower(s)) == Lower(s)
  {
  }

  lemma IncludesPrefix(s: string, a: string, b: string)
    requires Includes(s, a + b)
    ensures Includes(s, a)
  {
    var i :| 0 <= i <= |s| && OccursAt(s, a + b, i);
    assert s[i..i + |a|] == (a + b)[..|a|];
    assert OccursAt(s, a, i);
  }

  /** Typing more can only narrow the results. */
  lemma LongerQueryNarrows(posts: seq<Post>, q: string, more: string, p: Post)
    requires p in Search(posts, q + more)
    ensures p in Search(posts, q)
  {
    LowerConcat(q, more);
    if Includes(Lower(p.title), Lower(q + more)) {
      IncludesPrefix(Lower(p.title), Lower(q), Lower(more));
    } else {
      IncludesPrefix(Lower(p.excerpt.value), Lower(q), Lower(more));
    }
  }

  /** Case in the query does not matter. */
  lemma SearchIgnoresCase(posts: seq<Post>, q: string)
    ensures Search(posts, Lower(q)) == Search(posts, q)
  {
    LowerIdempotent(q);
    FilterAgree(posts, Matching(Lower(q)), Matching(q));
  }

  /** The featured section needs featured posts, no search and no category. */
  predicate ShowsFeatured(featured: seq<Post>, query: string, category: Option<string>) {
    |featured| > 0 && query == "" && (category.None? || category.value == "")
  }

  /** A search or a chosen category hides the featured section. */
  lemma FilteringHidesFeatured(featured: seq<Post>, query: string, category: Option<string>)
    requires query != "" || (category.Some? && category.value != "")
    ensures !ShowsFeatured(featured, query, category)
  {
  }

  /** With nothing filtered, the section shows exactly when there are
      featured posts. */
  lemma UnfilteredShowsFeatured(featured: seq<Post>, category: Option<string>)
    requires category.None? || category.value == ""
    ensures ShowsFeatured(featured, "", category) <==> |featured| > 0
  {
  }

  /** The three lists the page holds. */
  datatype Lists = Lists(featured: seq<Post>, posts: seq<Post>, categories: seq<string>)

  /** `loadData`: each list is replaced when its fetch returned data, even
      an empty list, and kept otherwise. */
  function Load(l: Lists, featured: Option<seq<Post>>, posts: Option<seq<Post>>,
                categories: Option<seq<string>>): (r: Lists)
    ensures featured.None? ==> r.featured == l.featured
    ensures posts.None? ==> r.posts == l.posts
    ensures categories.None? ==> r.categories == l.categories
    ensures featured.Some? ==> r.featured == featured.value
    ensures posts.Some? ==> r.posts == posts.value
    ensures categories.Some? ==> r.categories == categories.value
  {
    Lists(featured.GetOr(l.featured), posts.GetOr(l.posts), categories.GetOr(l.categories))
  }

  /** A load in which every fetch failed changes nothing. */
  lemma FailedLoadKeeps(l: Lists)
    ensures Load(l, None, None, None) == l
  {
  }

  /** The featured strip asks for `limit: 3` and no offset: it gets the first
      three featured matches, or all of them when there are fewer. */
  lemma FeaturedAtMostThree(matches: seq<Post>)
    ensures var r := Settings.Page(matches, Settings.PagingOf(Some(3), None));
      r.Some? && r.value == matches[..if |matches| < 3 then |matches| else 3]
  {
  }
}

=== FILE: calculator.dfy ===
/**
 * The project cost estimator: a fixed catalog of services, each with three
 * packages and six add-ons; a pure estimate (total, delivery days, itemised
 * breakdown) of the current selection; and the page's state transitions.
 */
module Calculator {
  import opened Common

  datatype Package = Package(name: string, basePrice: nat, deliveryDays: nat)
  datatype Addon = Addon(id: string, name: string, price: nat)
  datatype Service = Service(id: string, name: string, packages: seq<Package>, addons: seq<Addon>)

  /** Pages included in every website package, and the price of each extra one. */
  const IncludedPages: int := 5
  const ExtraPagePrice: int := 2000

  const WebDev: Service := Service("web_dev", "Website Development",
    [Package("Basic", 15000, 7), Package("Professional", 35000, 14), Package("Enterprise", 75000, 30)],
    [Addon("cms", "CMS Integration", 5000),
     Addon("ecommerce", "E-commerce (up to 50 products)", 15000),
     Addon("seo", "SEO Optimization", 8000),
     Addon("analytics", "Analytics Setup", 3000),
     Addon("hosting", "1 Year Hosting", 5000),
     Addon("maintenance", "6 Months Maintenance", 12000)])

  const Saas: Service := Service("saas", "SaaS Application",
    [Package("MVP", 50000, 21), Package("Standard", 100000, 45), Package("Enterprise", 200000, 90)],
    [Addon("auth", "Advanced Auth (OAuth, 2FA)", 15000),
     Addon("billing", "Subscription Billing", 20000),
     Addon("dashboard", "Admin Dashboard", 25000),
     Addon("api", "Public API", 30000),
     Addon("notifications", "Email/Push Notifications", 10000),
     Addon("analytics", "Analytics Dashboard", 18000)])

  const Android: Service := Service("android", "Android Application",
    [Package("Basic", 40000, 21), Package("Professional", 80000, 45), Package("Enterprise", 150000, 75)],
    [Addon("ios", "iOS Version", 35000),
     Addon("push", "Push Notifications", 8000),
     Addon("offline", "Offline Mode", 15000),
     Addon("payment", "Payment Integration", 12000),
     Addon("maps", "Maps Integration", 10000),
     Addon("playstore", "Play Store Publishing", 5000)])

  const Custom: Service := Service("custom", "Custom Solution",
    [Package("Small Project", 25000, 14), Package("Medium Project", 60000, 30), Package("Large Project", 120000, 60)],
    [Addon("api", "REST API Development", 20000),
     Addon("integration", "Third-party Integration", 15000),
     Addon("automation", "Automation Scripts", 10000),
     Addon("migration", "Data Migration", 18000),
     Addon("documentation", "Technical Documentation", 8000),
     Addon("support", "3 Months Support", 15000)])

  const Catalog: seq<Service> := [WebDev, Saas, Android, Custom]

  /** `serviceTypes.find(s => s.id === id)`: the first service with that id. */
  function Find(services: seq<Service>, id: Option<string>): (r: Option<Service>)
    ensures r.Some? <==> id.Some? && exists k :: 0 <= k < |services| && services[k].id == id.value
    ensures r.Some? ==> r.value in services && r.value.id == id.value
  {
    if id.None? || |services| == 0 then None
    else if services[0].id == id.value then Some(services[0])
    else Find(services[1..], id)
  }

  /** A breakdown line is either the package (mentioning the page count only
      when extra pages are charged) or a selected add-on. */
  datatype Label = PackageLabel(packageName: string, pages: Option<int>) | AddonLabel(addonName: string)
  datatype Item = Item(caption: Label, price: int)
  datatype Estimate = Estimate(total: int, deliveryDays: nat, breakdown: seq<Item>)

  /** What the page holds: the chosen service id, the chosen package index,
      the selected add-on ids (in selection order) and the page count. */
  datatype Selection = Selection(service: Option<string>, package: Option<nat>, addons: seq<string>, pages: int)

  const Initial: Selection := Selection(None, None, [], IncludedPages)

  /** A package index always points into the current service's packages:
      the page only offers the buttons of that service. */
  predicate Valid(s: Selection) {
    var svc := Find(Catalog, s.service);
    svc.Some? && s.package.Some? ==> s.package.value < |svc.value.packages|
  }

  /** Sum of the prices of a breakdown. */
  function Total(items: seq<Item>): int {
    if |items| == 0 then 0 else Total(items[..|items| - 1]) + items[|items| - 1].price
  }

  /** One breakdown line per catalog add-on whose id is selected, in catalog order. */
  function AddonItems(addons: seq<Addon>, selected: seq<string>): (r: seq<Item>)
    ensures |r| <= |addons|
  {
    if |addons| == 0 then []
    else
      var last := addons[|addons| - 1];
      AddonItems(addons[..|addons| - 1], selected)
        + (if last.id in selected then [Item(AddonLabel(last.name), last.price)] else [])
  }

  /** The package line: base price, plus 2000 per page beyond five for websites. */
  function PackageItem(serviceId: string, pkg: Package, pages: int): (r: Item)
  {
    if serviceId == "web_dev" && pages > IncludedPages then
      Item(PackageLabel(pkg.name, Some(pages)), pkg.basePrice + (pages - IncludedPages) * ExtraPagePrice)
    else
      Item(PackageLabel(pkg.name, None), pkg.basePrice)
  }

  /** The memoised estimate of the page. */
  method Quote(s: Selection) returns (e: Estimate)
    requires Valid(s)
    ensures Find(Catalog, s.service).None? || s.package.None? ==> e == Estimate(0, 0, [])
    ensures Find(Catalog, s.service).Some? && s.package.Some? ==>
      var svc := Find(Catalog, s.service).value;
      var pkg := svc.packages[s.package.value];
      && e.deliveryDays == pkg.deliveryDays
      && e.breakdown == [PackageItem(svc.id, pkg, s.pages)] + AddonItems(svc.addons, s.addons)
      && e.total == Total(e.breakdown)
    ensures e == EstimateOf(s)
  {
    var found := Find(Catalog, s.service);
    if found.None? || s.package.None? {
      return Estimate(0, 0, []);
    }
    var svc := found.value;
    var pkg := svc.packages[s.package.value];
    var total, items := Tally(svc, pkg, s.pages, s.addons);
    e := Estimate(total, pkg.deliveryDays, items);
  }

  /** The package line followed by a walk over the service's add-ons, adding
      a line and its price for each selected one. */
  method Tally(svc: Service, pkg: Package, pages: int, selected: seq<string>) returns (total: int, items: seq<Item>)
    ensures items == [PackageItem(svc.id, pkg, pages)] + AddonItems(svc.addons, selected)
    ensures total == Total(items)
  {
    var first := PackageItem(svc.id, pkg, pages);
    items := [first];
    var addonsTotal := 0;
    var k := 0;
    while k < |svc.addons|
      invariant 0 <= k <= |svc.addons|
      invariant items == [first] + AddonItems(svc.addons[..k], selected)
      invariant addonsTotal == Total(AddonItems(svc.addons[..k], selected))
    {
      var addon := svc.addons[k];
      assert svc.addons[..k + 1][..k] == svc.addons[..k];
      assert AddonItems(svc.addons[..k + 1], selected) == AddonItems(svc.addons[..k], selected)
        + (if addon.id in selected then [Item(AddonLabel(addon.name), addon.price)] else []);
      if addon.id in selected {
        var line := Item(AddonLabel(addon.name), addon.price);
        assert AddonItems(svc.addons[..k + 1], selected) == AddonItems(svc.addons[..k], selected) + [line];
        TotalAppend(AddonItems(svc.addons[..k], selected), line);
        items := items + [line];
        addonsTotal := addonsTotal + addon.price;
      } else {
        assert AddonItems(svc.addons[..k + 1], selected) == AddonItems(svc.addons[..k], selected);
      }
      k := k + 1;
    }
    assert svc.addons[..k] == svc.addons;
    TotalCons(first, AddonItems(svc.addons, selected));
    total := first.price + addonsTotal;
  }

  lemma TotalAppend(items: seq<Item>, x: Item)
    ensures Total(items + [x]) == Total(items) + x.price
  {
    assert (items + [x])[..|items|] == items;
  }

  lemma {:induction false} TotalCons(x: Item, items: seq<Item>)
    ensures Total([x] + items) == x.price + Total(items)
    decreases |items|
  {
    if |items| > 0 {
      var init := items[..|items| - 1];
      TotalCons(x, init);
      assert ([x] + items)[..|items|] == [x] + init;
    }
  }

  /** The sum of the prices of the selected catalog add-ons, computed
      directly from the catalog. */
  function SelectedPrice(addons: seq<Addon>, selected: seq<string>): int {
    if |addons| == 0 then 0
    else (if addons[0].id in selected then addons[0].price else 0) + SelectedPrice(addons[1..], selected)
  }

  /** Front-to-back view of the add-on lines. */
  lemma {:induction false} AddonItemsCons(a: Addon, rest: seq<Addon>, selected: seq<string>)
    ensures AddonItems([a] + rest, selected)
         == (if a.id in selected then [Item(AddonLabel(a.name), a.price)] else []) + AddonItems(rest, selected)
    decreases |rest|
  {
    if |rest| > 0 {
      var init := rest[..|rest| - 1];
      AddonItemsCons(a, init, selected);
      assert ([a] + rest)[..|rest|] == [a] + init;
      assert ([a] + rest)[|rest|] == rest[|rest| - 1];
    } else {
      assert ([a] + rest)[..0] == [];
    }
  }

  /** The add-on lines cost exactly the selected add-ons' prices. */
  lemma {:induction false} AddonItemsTotal(addons: seq<Addon>, selected: seq<string>)
    ensures Total(AddonItems(addons, selected)) == SelectedPrice(addons, selected)
  {
    if |addons| > 0 {
      AddonItemsCons(addons[0], addons[1..], selected);
      assert [addons[0]] + addons[1..] == addons;
      AddonItemsTotal(addons[1..], selected);
      var head := if addons[0].id in selected then [Item(AddonLabel(addons[0].name), addons[0].price)] else [];
      if addons[0].id in selected {
        TotalCons(head[0], AddonItems(addons[1..], selected));
        assert head == [head[0]];
      } else {
        assert head + AddonItems(addons[1..], selected) == AddonItems(addons[1..], selected);
      }
    }
  }

  /** A line appears for an add-on exactly when the add-on is in the catalog
      and its id is selected. */
  lemma {:induction false} AddonItemsMembers(addons: seq<Addon>, selected: seq<string>, x: Item)
    ensures x in AddonItems(addons, selected)
       <==> exists a :: a in addons && a.id in selected && x == Item(AddonLabel(a.name), a.price)
  {
    if |addons| > 0 {
      var init := addons[..|addons| - 1];
      var last := addons[|addons| - 1];
      AddonItemsMembers(init, selected, x);
      assert addons == init + [last];
      if x in AddonItems(addons, selected) && x !in AddonItems(init, selected) {
        assert last.id in selected && x == Item(AddonLabel(last.name), last.price);
      }
    }
  }

  /** Only which catalog ids are selected matters: not their order, not
      duplicates, and not ids that are not in the catalog. */
  lemma {:induction false} AddonItemsSelectionBlind(addons: seq<Addon>, s1: seq<string>, s2: seq<string>)
    requires forall a :: a in addons ==> (a.id in s1 <==> a.id in s2)
    ensures AddonItems(addons, s1) == AddonItems(addons, s2)
  {
    if |addons| > 0 {
      var init := addons[..|addons| - 1];
      assert forall a :: a in init ==> a in addons;
      AddonItemsSelectionBlind(init, s1, s2);
    }
  }

  /** The same estimate as a function, for stating laws about it. */
  function EstimateOf(s: Selection): (e: Estimate)
    requires Valid(s)
    ensures e.breakdown == [] <==> Find(Catalog, s.service).None? || s.package.None?
  {
    var found := Find(Catalog, s.service);
    if found.None? || s.package.None? then Estimate(0, 0, [])
    else
      var svc := found.value;
      var pkg := svc.packages[s.package.value];
      var items := [PackageItem(svc.id, pkg, s.pages)] + AddonItems(svc.addons, s.addons);
      Estimate(Total(items), pkg.deliveryDays, items)
  }

  /** The total is the package line (base price plus extra pages, for
      websites only) plus the prices of the selected catalog add-ons. */
  lemma EstimateTotal(s: Selection)
    requires Valid(s) && Find(Catalog, s.service).Some? && s.package.Some?
    ensures var svc := Find(Catalog, s.service).value;
      var pkg := svc.packages[s.package.value];
      var extra := svc.id == "web_dev" && s.pages > IncludedPages;
      && EstimateOf(s).total == pkg.basePrice
           + (if extra then (s.pages - IncludedPages) * ExtraPagePrice else 0)
           + SelectedPrice(svc.addons, s.addons)
      && EstimateOf(s).breakdown[0]
           == Item(PackageLabel(pkg.name, if extra then Some(s.pages) else None),
                   pkg.basePrice + (if extra then (s.pages - IncludedPages) * ExtraPagePrice else 0))
  {
    var svc := Find(Catalog, s.service).value;
    var pkg := svc.packages[s.package.value];
    TotalCons(PackageItem(svc.id, pkg, s.pages), AddonItems(svc.addons, s.addons));
    AddonItemsTotal(svc.addons, s.addons);
  }

  /** Delivery time depends on the package alone, never on add-ons or pages. */
  lemma DeliveryFixed(s: Selection, addons: seq<string>, pages: int)
    requires Valid(s)
    ensures EstimateOf(s.(addons := addons, pages := pages)).deliveryDays == EstimateOf(s).deliveryDays
  {
  }

  /** The page count matters only for websites. */
  lemma PagesOnlyForWebsites(s: Selection, pages: int)
    requires Valid(s) && s.service != Some("web_dev")
    ensures EstimateOf(s.(pages := pages)) == EstimateOf(s)
  {
  }

  /** Selecting an id that is not one of the service's add-ons changes nothing. */
  lemma UnknownAddonIgnored(s: Selection, u: string)
    requires Valid(s) && Find(Catalog, s.service).Some?
    requires forall a :: a in Find(Catalog, s.service).value.addons ==> a.id != u
    ensures EstimateOf(s.(addons := s.addons + [u])) == EstimateOf(s)
  {
    var svc := Find(Catalog, s.service).value;
    AddonItemsSelectionBlind(svc.addons, s.addons + [u], s.addons);
  }

  /** Lines follow the catalog's order: the order of selection is irrelevant. */
  lemma SelectionOrderIrrelevant(s: Selection, addons: seq<string>)
    requires Valid(s)
    requires forall x :: x in addons <==> x in s.addons
    ensures EstimateOf(s.(addons := addons)) == EstimateOf(s)
  {
    var svc := Find(Catalog, s.service);
    if svc.Some? {
      AddonItemsSelectionBlind(svc.value.addons, addons, s.addons);
    }
  }

  /** From five pages on, each extra website page adds 2000. */
  lemma ExtraPageCost(s: Selection)
    requires Valid(s) && s.service == Some("web_dev") && s.package.Some? && s.pages >= IncludedPages
    ensures EstimateOf(More(s)).total == EstimateOf(s).total + ExtraPagePrice
  {
    assert Find(Catalog, s.service) == Some(WebDev);
    EstimateTotal(s);
    EstimateTotal(More(s));
  }

  /** Website, Basic package, eight pages and SEO: 15000 + 3 * 2000 + 8000,
      delivered in 7 days. */
  lemma WorkedExample()
    ensures var s := Selection(Some("web_dev"), Some(0), ["seo"], 8);
      Valid(s) && EstimateOf(s).total == 29000 && EstimateOf(s).deliveryDays == 7
  {
    var s := Selection(Some("web_dev"), Some(0), ["seo"], 8);
    FindWebDev();
    SeoPrice();
    EstimateTotal(s);
  }

  lemma FindWebDev()
    ensures Find(Catalog, Some("web_dev")) == Some(WebDev)
  {
    assert Catalog[0] == WebDev;
  }

  lemma SeoPrice()
    ensures SelectedPrice(WebDev.addons, ["seo"]) == 8000
  {
    var a := WebDev.addons;
    assert a[0].id != "seo" && a[1].id != "seo" && a[2].id == "seo";
    assert a[1..][1..] == a[2..] && a[2..][1..] == a[3..];
    assert forall k :: 0 <= k < |a[3..]| ==> a[3..][k].id !in ["seo"];
    SelectedPriceNone(a[3..], ["seo"]);
  }

  lemma {:induction false} SelectedPriceNone(addons: seq<Addon>, selected: seq<string>)
    requires forall k :: 0 <= k < |addons| ==> addons[k].id !in selected
    ensures SelectedPrice(addons, selected) == 0
  {
    if |addons| > 0 {
      SelectedPriceNone(addons[1..], selected);
    }
  }

  // State transitions.

  /** `handleServiceChange`: a new service clears package, add-ons and pages. */
  function ChooseService(s: Selection, id: string): (r: Selection)
    ensures r.service == Some(id) && r.package.None? && r.addons == [] && r.pages == IncludedPages
  {
    Selection(Some(id), None, [], IncludedPages)
  }

  /** A package button of the current service. */
  function ChoosePackage(s: Selection, index: nat): (r: Selection)
    requires Find(Catalog, s.service).Some? && index < |Find(Catalog, s.service).value.packages|
    ensures Valid(r) && r.package == Some(index)
  {
    s.(package := Some(index))
  }

  /** `prev.filter(id => id !== x)`. */
  function Remove(ids: seq<string>, x: string): (r: seq<string>)
    ensures forall y :: y in r <==> y in ids && y != x
    ensures x !in ids ==> r == ids
  {
    if |ids| == 0 then []
    else (if ids[0] == x then [] else [ids[0]]) + Remove(ids[1..], x)
  }

  predicate NoDuplicates(ids: seq<string>) {
    forall i, j :: 0 <= i < j < |ids| ==> ids[i] != ids[j]
  }

  lemma {:induction false} RemoveKeepsDistinct(ids: seq<string>, x: string)
    ensures NoDuplicates(ids) ==> NoDuplicates(Remove(ids, x))
  {
    if |ids| > 0 && NoDuplicates(ids) {
      RemoveKeepsDistinct(ids[1..], x);
      assert ids[0] !in ids[1..] by {
        forall k | 0 <= k < |ids[1..]| ensures ids[1..][k] != ids[0] {
          assert ids[1..][k] == ids[k + 1];
        }
      }
    }
  }

  /** `toggleAddon`: drop the id when present, append it when absent. */
  function Toggle(ids: seq<string>, x: string): (r: seq<string>)
    ensures forall y :: y in r <==> (y in ids) != (y == x)
    ensures NoDuplicates(ids) ==> NoDuplicates(r)
  {
    if x in ids then
      RemoveKeepsDistinct(ids, x);
      Remove(ids, x)
    else ids + [x]
  }

  /** Toggling twice restores the selected set, and restores the very same
      sequence when the id was absent. */
  lemma ToggleTwice(ids: seq<string>, x: string)
    ensures forall y :: y in Toggle(Toggle(ids, x), x) <==> y in ids
    ensures x !in ids ==> Toggle(Toggle(ids, x), x) == ids
  {
    if x !in ids {
      RemoveLast(ids, x);
    }
  }

  lemma {:induction false} RemoveLast(ids: seq<string>, x: string)
    requires x !in ids
    ensures Remove(ids + [x], x) == ids
  {
    if |ids| > 0 {
      RemoveLast(ids[1..], x);
      assert (ids + [x])[1..] == ids[1..] + [x];
      assert [ids[0]] + ids[1..] == ids;
    }
  }

  /** The page-count buttons: never below one, no upper bound. */
  function Fewer(s: Selection): (r: Selection)
    ensures r.pages >= 1 && (s.pages > 1 ==> r.pages == s.pages - 1)
    ensures r == s.(pages := r.pages)
  {
    s.(pages := if s.pages - 1 > 1 then s.pages - 1 else 1)
  }

  function More(s: Selection): (r: Selection)
    ensures r.pages == s.pages + 1 && r == s.(pages := r.pages)
  {
    s.(pages := s.pages + 1)
  }

  lemma FewerUndoesMore(s: Selection)
    requires s.pages >= 1
    ensures Fewer(More(s)) == s
  {
  }

  datatype Event = PickService(id: string) | PickPackage(index: nat) | ToggleAddon(id: string) | FewerPages | MorePages

  /** Events the page can raise in a given state: package buttons exist only
      for the chosen service's packages. */
  predicate Enabled(s: Selection, e: Event) {
    e.PickPackage? ==> Find(Catalog, s.service).Some? && e.index < |Find(Catalog, s.service).value.packages|
  }

  function Apply(s: Selection, e: Event): (r: Selection)
    requires Enabled(s, e)
  {
    match e
    case PickService(id) => ChooseService(s, id)
    case PickPackage(i) => ChoosePackage(s, i)
    case ToggleAddon(id) => s.(addons := Toggle(s.addons, id))
    case FewerPages => Fewer(s)
    case MorePages => More(s)
  }

  /** What every reachable state satisfies. */
  predicate Good(s: Selection) {
    Valid(s) && s.pages >= 1 && NoDuplicates(s.addons)
  }

  /** Every enabled event keeps the state good, starting from the initial one. */
  lemma ApplyKeepsGood(s: Selection, e: Event)
    requires Good(s) && Enabled(s, e)
    ensures Good(Apply(s, e))
  {
  }

  lemma InitialGood()
    ensures Good(Initial)
  {
  }
}

=== FILE: carousel.dfy ===
/**
 * The testimonial carousel: a current index over the four testimonials and an
 * animation flag that makes the arrow buttons (and the auto-advance timer)
 * ignore presses while a transition runs. Timers become plain events.
 */
module Carousel {

  /** The number of testimonials on the page. */
  const Count: nat := 4

  datatype State = State(current: nat, animating: bool)

  const Start: State := State(0, false)

  predicate Valid(s: State) {
    s.current < Count
  }

  /** `handleNext`; the auto-advance timer calls the same handler. */
  function Next(s: State): (r: State)
    requires Valid(s)
    ensures Valid(r)
    ensures s.animating ==> r == s
    ensures !s.animating ==> r.animating && (r.current == s.current + 1 || (s.current == Count - 1 && r.current == 0))
  {
    if s.animating then s else State((s.current + 1) % Count, true)
  }

  /** `handlePrev`; the index is non-negative, so `%` needs no sign fix-up. */
  function Prev(s: State): (r: State)
    requires Valid(s)
    ensures Valid(r)
    ensures s.animating ==> r == s
    ensures !s.animating ==> r.animating && (r.current + 1 == s.current || (s.current == 0 && r.current == Count - 1))
  {
    if s.animating then s else State((s.current - 1 + Count) % Count, true)
  }

  /** The half-second timeout that ends a transition. */
  function Settle(s: State): (r: State)
    ensures !r.animating && r.current == s.current
  {
    s.(animating := false)
  }

  /** A dot click jumps straight to its testimonial, animating or not. */
  function Jump(s: State, index: nat): (r: State)
    requires index < Count
    ensures Valid(r) && r.current == index && r.animating == s.animating
  {
    s.(current := index)
  }

  datatype Event = NextPressed | PrevPressed | Tick | Settled | Dot(index: nat)

  predicate Allowed(e: Event) {
    e.Dot? ==> e.index < Count
  }

  function Apply(s: State, e: Event): (r: State)
    requires Valid(s) && Allowed(e)
    ensures Valid(r)
  {
    match e
    case NextPressed => Next(s)
    case Tick => Next(s)
    case PrevPressed => Prev(s)
    case Settled => Settle(s)
    case Dot(i) => Jump(s, i)
  }

  /** Any run of events keeps the index on a testimonial. */
  function Run(s: State, es: seq<Event>): (r: State)
    requires Valid(s) && forall k :: 0 <= k < |es| ==> Allowed(es[k])
    ensures Valid(r)
    decreases |es|
  {
    if |es| == 0 then s else Run(Apply(s, es[0]), es[1..])
  }

  /** Forward then back, with the transition over in between, is no move. */
  lemma NextThenPrev(s: State)
    requires Valid(s) && !s.animating
    ensures Prev(Settle(Next(s))).current == s.current
  {
  }

  lemma PrevThenNext(s: State)
    requires Valid(s) && !s.animating
    ensures Next(Settle(Prev(s))).current == s.current
  {
  }

  /** `k` completed forward transitions. */
  function Forward(s: State, k: nat): (r: State)
    requires Valid(s)
    ensures Valid(r)
    decreases k
  {
    if k == 0 then s else Forward(Settle(Next(Settle(s))), k - 1)
  }

  lemma {:induction false} ForwardRotates(s: State, k: nat)
    requires Valid(s)
    ensures Forward(s, k).current == (s.current + k) % Count
    decreases k
  {
    if k > 0 {
      var s' := Settle(Next(Settle(s)));
      ForwardRotates(s', k - 1);
      assert s'.current == (s.current + 1) % Count;
    }
  }

  /** A full round of nexts comes back to the starting testimonial. */
  lemma FullCircle(s: State)
    requires Valid(s)
    ensures Forward(s, Count).current == s.current
  {
    ForwardRotates(s, Count);
  }

  // Auto-advance.

  /** `k` rounds of the interval firing and the transition ending. */
  function Ticks(k: nat): (es: seq<Event>)
    ensures |es| == 2 * k
    ensures forall i :: 0 <= i < |es| ==> es[i] == Tick || es[i] == Settled
  {
    if k == 0 then [] else [Tick, Settled] + Ticks(k - 1)
  }

  lemma RunTwo(es: seq<Event>, rest: seq<Event>, s: State)
    requires Valid(s) && |es| == 2 && Allowed(es[0]) && Allowed(es[1])
    requires forall k :: 0 <= k < |rest| ==> Allowed(rest[k])
    ensures forall k :: 0 <= k < |es + rest| ==> Allowed((es + rest)[k])
    ensures Run(s, es + rest) == Run(Apply(Apply(s, es[0]), es[1]), rest)
  {
    assert (es + rest)[1..][1..] == rest;
  }

  /** With a handler that reads the live animation flag, every round moves the
      carousel on by one testimonial. */
  lemma {:induction false} TicksRotate(s: State, k: nat)
    requires Valid(s) && !s.animating
    ensures Run(s, Ticks(k)).current == (s.current + k) % Count
    decreases k
  {
    if k > 0 {
      var s' := Settle(Next(s));
      RunTwo([Tick, Settled], Ticks(k - 1), s);
      TicksRotate(s', k - 1);
      assert s'.current == (s.current + 1) % Count;
      assert (s'.current + (k - 1)) % Count == (s.current + k) % Count;
    }
  }

  /** The component as written: the interval is restarted only when `current`
      changes, and it calls the `handleNext` of the render that restarted it,
      which reads the animation flag of that render (`seen`), not the live one. */
  datatype Clocked = Clocked(view: State, seen: bool)

  const ClockedStart: Clocked := Clocked(Start, false)

  /** A new state as the component renders it: when the index moves, the
      effect re-runs and its handler captures the new render's flag. */
  function Rerender(c: Clocked, s: State): (r: Clocked)
    ensures r.view == s
    ensures r.seen == if s.current != c.view.current then s.animating else c.seen
  {
    Clocked(s, if s.current != c.view.current then s.animating else c.seen)
  }

  /** The buttons and dots use the live flag; the interval uses the captured
      one, and its functional update still reads the live index. */
  function ApplyAsWritten(c: Clocked, e: Event): (r: Clocked)
    requires Valid(c.view) && Allowed(e)
    ensures Valid(r.view)
    ensures e != Tick ==> r.view == Apply(c.view, e)
    ensures e == Tick && c.seen ==> r.view == c.view
    ensures e == Tick && !c.seen ==> r.view == Next(Settle(c.view))
  {
    if e == Tick then Rerender(c, if c.seen then c.view else Next(Settle(c.view)))
    else Rerender(c, Apply(c.view, e))
  }

  function RunAsWritten(c: Clocked, es: seq<Event>): (r: Clocked)
    requires Valid(c.view) && forall k :: 0 <= k < |es| ==> Allowed(es[k])
    ensures Valid(r.view)
    decreases |es|
  {
    if |es| == 0 then c else RunAsWritten(ApplyAsWritten(c, es[0]), es[1..])
  }

  /** Once the handler has captured a running transition, the timer alone
      never moves the carousel again: every later tick is ignored. */
  lemma {:induction false} AutoAdvanceStalls(c: Clocked, es: seq<Event>)
    requires Valid(c.view) && c.seen
    requires forall k :: 0 <= k < |es| ==> es[k] == Tick || es[k] == Settled
    ensures RunAsWritten(c, es).view.current == c.view.current
    ensures RunAsWritten(c, es).seen
    decreases |es|
  {
    if |es| > 0 {
      var c' := ApplyAsWritten(c, es[0]);
      assert c'.view.current == c.view.current && c'.seen;
      AutoAdvanceStalls(c', es[1..]);
    }
  }

  /** From the first render, the first tick advances and captures the running
      transition; after that, however many rounds pass, the carousel stays on
      the second testimonial, where the live-flag handler would have gone on. */
  lemma StallsAfterFirstTick(k: nat)
    requires k >= 1
    ensures RunAsWritten(ClockedStart, Ticks(k)).view.current == 1
    ensures Run(Start, Ticks(k)).current == k % Count
  {
    var rest := Ticks(k - 1);
    var es := [Tick, Settled] + rest;
    assert es[0] == Tick && es[1..][0] == Settled && es[1..][1..] == rest;
    var c1 := ApplyAsWritten(ClockedStart, Tick);
    assert c1.view == State(1, true) && c1.seen;
    var c2 := ApplyAsWritten(c1, Settled);
    assert c2.view == State(1, false) && c2.seen;
    AutoAdvanceStalls(c2, rest);
    TicksRotate(Start, k);
  }
}

=== FILE: common.dfy ===
/** Optional values and error-carrying results, standing in for JavaScript's
    `null`/`undefined` and for the `{ data, error }` pairs the site passes around. */
module Common {

  datatype Option<+T> = None | Some(value: T) {
    /** The value, or `default` when there is none (JavaScript's `x ?? default`). */
    function GetOr(default: T): T {
      match this
      case Some(v) => v
      case None => default
    }
  }

  datatype Result<+T, +E> = Ok(value: T) | Err(error: E)

  /** `Array.prototype.filter`: the elements that pass, in their original order. */
  function Filter<T(!new)>(s: seq<T>, keep: T -> bool): (r: seq<T>)
    ensures |r| <= |s|
    ensures forall x :: x in r <==> x in s && keep(x)
    ensures forall k :: 0 <= k < |r| ==> keep(r[k])
  {
    KeptFacts(s, keep);
    Kept(s, keep)
  }

  /** The recursion behind `Filter`: the first element if it passes, then the rest. */
  function Kept<T>(s: seq<T>, keep: T -> bool): seq<T> {
    if |s| == 0 then [] else (if keep(s[0]) then [s[0]] else []) + Kept(s[1..], keep)
  }

  lemma {:induction false} KeptFacts<T(!new)>(s: seq<T>, keep: T -> bool)
    ensures |Kept(s, keep)| <= |s|
    ensures forall x :: x in Kept(s, keep) <==> x in s && keep(x)
    ensures forall k :: 0 <= k < |Kept(s, keep)| ==> keep(Kept(s, keep)[k])
  {
    if |s| > 0 {
      KeptFacts(s[1..], keep);
      assert s == [s[0]] + s[1..];
    }
  }

  /** Filtering distributes over concatenation, so relative order is kept. */
  lemma FilterConcat<T(!new)>(a: seq<T>, b: seq<T>, keep: T -> bool)
    ensures Filter(a + b, keep) == Filter(a, keep) + Filter(b, keep)
  {
    KeptConcat(a, b, keep);
  }

  lemma {:induction false} KeptConcat<T>(a: seq<T>, b: seq<T>, keep: T -> bool)
    ensures Kept(a + b, keep) == Kept(a, keep) + Kept(b, keep)
  {
    if |a| > 0 {
      KeptConcat(a[1..], b, keep);
      assert (a + b)[1..] == a[1..] + b;
      assert (a + b)[0] == a[0];
    } else {
      assert a + b == b;
    }
  }

  /** A single element is kept exactly when it passes. */
  lemma FilterOne<T(!new)>(x: T, keep: T -> bool)
    ensures Filter([x], keep) == if keep(x) then [x] else []
  {
    assert [x][1..] == [];
    assert Kept([x], keep) == (if keep(x) then [x] else []) + Kept([], keep);
  }

  /** When everything passes, nothing is dropped. */
  lemma FilterKeepsAll<T(!new)>(s: seq<T>, keep: T -> bool)
    requires forall x :: x in s ==> keep(x)
    ensures Filter(s, keep) == s
  {
    KeptAll(s, keep);
  }

  lemma {:induction false} KeptAll<T>(s: seq<T>, keep: T -> bool)
    requires forall k :: 0 <= k < |s| ==> keep(s[k])
    ensures Kept(s, keep) == s
  {
    if |s| > 0 {
      KeptAll(s[1..], keep);
      assert [s[0]] + s[1..] == s;
    }
  }

  /** Two tests that agree on every element filter alike. */
  lemma FilterAgree<T(!new)>(s: seq<T>, f: T -> bool, g: T -> bool)
    requires forall x :: x in s ==> f(x) == g(x)
    ensures Filter(s, f) == Filter(s, g)
  {
    KeptAgree(s, f, g);
  }

  lemma {:induction false} KeptAgree<T>(s: seq<T>, f: T -> bool, g: T -> bool)
    requires forall k :: 0 <= k < |s| ==> f(s[k]) == g(s[k])
    ensures Kept(s, f) == Kept(s, g)
  {
    if |s| > 0 {
      KeptAgree(s[1..], f, g);
    }
  }
}

=== FILE: contact.dfy ===
/**
 * The contact page: the submit handler's validation (required fields, then
 * the email pattern `^[^\s@]+@[^\s@]+\.[^\s@]+$`), the mapping of the form
 * to the stored inquiry, the form reset, and the displayed contact details
 * with their fallbacks. The insert itself is an input.
 */
module Contact {
  import opened Common
  import opened JsText
  import opened Settings

  // The email pattern.

  /** `[^\s@]`: neither whitespace nor '@'. */
  predicate Plain(c: char) {
    !IsJsSpace(c) && c != '@'
  }

  predicate AllPlain(s: string) {
    forall k :: 0 <= k < |s| ==> Plain(s[k])
  }

  /** The pattern matches with its '@' at `i` and its escaped '.' at `j`:
      one or more plain characters before each of them and after the dot. */
  ghost predicate EmailAt(s: string, i: int, j: int) {
    && 0 < i && i + 1 < j && j + 1 < |s|
    && s[i] == '@' && s[j] == '.'
    && AllPlain(s[..i]) && AllPlain(s[i + 1..j]) && AllPlain(s[j + 1..])
  }

  /** The anchored pattern matches the whole of `s`. */
  ghost predicate MatchesEmail(s: string) {
    exists i, j :: EmailAt(s, i, j)
  }

  /** A direct check: a non-empty plain local part up to the first '@', then a
      plain domain with a '.' that is neither its first nor its last character. */
  function IsEmail(s: string): (r: bool)
    ensures r ==> |s| >= 5
  {
    var at := IndexOf(s, '@', 0);
    && 0 < at < |s|
    && AllPlain(s[..at]) && AllPlain(s[at + 1..])
    && |s| - at >= 4 && '.' in s[at + 2..|s| - 1]
  }

  lemma AllPlainSplit(s: string, j: int)
    requires 0 <= j < |s| && s[j] == '.'
    ensures AllPlain(s) <==> AllPlain(s[..j]) && AllPlain(s[j + 1..])
  {
    if AllPlain(s[..j]) && AllPlain(s[j + 1..]) {
      forall k | 0 <= k < |s| ensures Plain(s[k]) {
        if k < j { assert s[..j][k] == s[k]; }
        else if k > j { assert s[j + 1..][k - j - 1] == s[k]; }
      }
    }
  }

  /** The check accepts exactly the strings the pattern matches. */
  lemma IsEmailMatches(s: string)
    ensures IsEmail(s) <==> MatchesEmail(s)
  {
    if IsEmail(s) {
      AcceptedMatches(s);
    }
    if MatchesEmail(s) {
      var i, j :| EmailAt(s, i, j);
      MatchAccepted(s, i, j);
    }
  }

  lemma AcceptedMatches(s: string)
    requires IsEmail(s)
    ensures MatchesEmail(s)
  {
    var at := IndexOf(s, '@', 0);
    var d := s[at + 2..|s| - 1];
    var m :| 0 <= m < |d| && d[m] == '.';
    var j := at + 2 + m;
    var dom := s[at + 1..];
    assert dom[j - at - 1] == '.';
    AllPlainSplit(dom, j - at - 1);
    assert dom[..j - at - 1] == s[at + 1..j];
    assert dom[j - at..] == s[j + 1..];
    assert EmailAt(s, at, j);
  }

  lemma MatchAccepted(s: string, i: int, j: int)
    requires EmailAt(s, i, j)
    ensures IsEmail(s)
  {
    assert IndexOf(s, '@', 0) == i by {
      forall k | 0 <= k < i ensures s[k] != '@' { assert s[..i][k] == s[k]; }
    }
    var dom := s[i + 1..];
    assert dom[j - i - 1] == '.';
    assert dom[..j - i - 1] == s[i + 1..j];
    assert dom[j - i..] == s[j + 1..];
    AllPlainSplit(dom, j - i - 1);
    assert s[i + 2..|s| - 1][j - i - 2] == '.';
  }

  /** Exactly one '@', and no whitespace anywhere, in an accepted address. */
  lemma AcceptedShape(s: string)
    requires IsEmail(s)
    ensures exists i :: 0 < i < |s| - 1 && s[i] == '@' && forall k :: 0 <= k < |s| && k != i ==> s[k] != '@'
    ensures forall k :: 0 <= k < |s| ==> !IsJsSpace(s[k])
  {
    var at := IndexOf(s, '@', 0);
    assert forall k :: at < k < |s| ==> s[k] == s[at + 1..][k - at - 1];
    assert forall k :: 0 <= k < at ==> s[k] == s[..at][k];
  }

  // The form.

  datatype Form = Form(name: string, email: string, phone: string, company: string,
                       serviceInterest: string, budgetRange: string, message: string)

  const EmptyForm: Form := Form("", "", "", "", "", "", "")

  datatype FieldName = NameField | EmailField | PhoneField | CompanyField
    | ServiceField | BudgetField | MessageField

  /** `{ ...formData, [name]: value }`. */
  function SetField(f: Form, field: FieldName, v: string): (r: Form)
  {
    match field
    case NameField => f.(name := v)
    case EmailField => f.(email := v)
    case PhoneField => f.(phone := v)
    case CompanyField => f.(company := v)
    case ServiceField => f.(serviceInterest := v)
    case BudgetField => f.(budgetRange := v)
    case MessageField => f.(message := v)
  }

  function Get(f: Form, field: FieldName): string {
    match field
    case NameField => f.name
    case EmailField => f.email
    case PhoneField => f.phone
    case CompanyField => f.company
    case ServiceField => f.serviceInterest
    case BudgetField => f.budgetRange
    case MessageField => f.message
  }

  /** Setting a field changes that field and no other. */
  lemma SetFieldFrame(f: Form, field: FieldName, v: string, other: FieldName)
    ensures Get(SetField(f, field, v), other) == if other == field then v else Get(f, other)
  {
  }

  /** The stored inquiry; optional columns are absent rather than ''. */
  datatype Inquiry = Inquiry(name: string, email: string, phone: Option<string>,
    company: Option<string>, serviceInterest: Option<string>, budgetRange: Option<string>,
    message: string)

  /** `value || undefined`. */
  function Optional(s: string): (r: Option<string>)
    ensures r.None? <==> s == ""
    ensures r.GetOr("") == s
  {
    if s == "" then None else Some(s)
  }

  function ToInquiry(f: Form): (q: Inquiry)
    ensures q.name == f.name && q.email == f.email && q.message == f.message
    ensures q.phone != Some("") && q.company != Some("")
    ensures q.serviceInterest != Some("") && q.budgetRange != Some("")
  {
    Inquiry(f.name, f.email, Optional(f.phone), Optional(f.company),
            Optional(f.serviceInterest), Optional(f.budgetRange), f.message)
  }

  /** Reading an inquiry back into a form, absent columns as ''. */
  function FormOf(q: Inquiry): Form {
    Form(q.name, q.email, q.phone.GetOr(""), q.company.GetOr(""),
         q.serviceInterest.GetOr(""), q.budgetRange.GetOr(""), q.message)
  }

  /** No information is lost: the form comes back from its inquiry, and an
      inquiry without '' columns comes back from its form. */
  lemma InquiryRoundTrip(f: Form, q: Inquiry)
    ensures FormOf(ToInquiry(f)) == f
    ensures q.phone != Some("") && q.company != Some("")
         && q.serviceInterest != Some("") && q.budgetRange != Some("")
         ==> ToInquiry(FormOf(q)) == q
  {
  }

  const MissingFields: string := "Please fill in all required fields"
  const BadEmail: string := "Please enter a valid email address"
  const SubmitFailed: string := "Failed to submit form. Please try again or email us directly."

  /** The checks of the submit handler, in order. */
  function Validate(f: Form): (r: Result<Inquiry, string>)
    ensures r.Err? ==> r.error == MissingFields || r.error == BadEmail
    ensures r.Err? && r.error == MissingFields <==> f.name == "" || f.email == "" || f.message == ""
    ensures r.Ok? <==> f.name != "" && f.email != "" && f.message != "" && IsEmail(f.email)
    ensures r.Ok? ==> r.value == ToInquiry(f)
  {
    if f.name == "" || f.email == "" || f.message == "" then Err(MissingFields)
    else if !IsEmail(f.email) then Err(BadEmail)
    else Ok(ToInquiry(f))
  }

  /** Accepted forms are exactly those with the three required fields filled
      and an address the pattern matches; whitespace-only values count as filled. */
  lemma ValidateAccepts(f: Form)
    ensures Validate(f).Ok? <==> f.name != "" && f.message != "" && MatchesEmail(f.email)
  {
    IsEmailMatches(f.email);
  }

  /** What the page shows and holds. */
  datatype Page = Page(form: Form, error: Option<string>, success: bool, loading: bool)

  const Blank: Page := Page(EmptyForm, None, false, false)

  /** `handleChange`: update one field and clear the error. */
  function Change(p: Page, field: FieldName, v: string): (r: Page)
    ensures r.error.None? && Get(r.form, field) == v
    ensures forall other :: other != field ==> Get(r.form, other) == Get(p.form, other)
  {
    p.(form := SetField(p.form, field, v), error := None)
  }

  /** The body of the fire-and-forget notification POST to the
      `send-contact-notification` function: the raw phone field, and a
      subject only when a service was picked. */
  datatype Notice = Notice(endpoint: string, name: string, email: string, phone: string,
    subject: Option<string>, message: string, source: string)

  function NoticeOf(f: Form, functionsUrl: string): (n: Notice)
    ensures n.endpoint == functionsUrl + "/functions/v1/send-contact-notification"
    ensures n.subject.None? <==> f.serviceInterest == ""
    ensures n.subject.Some? ==> n.subject.value == "Inquiry: " + f.serviceInterest
    ensures n.source == "stachbit.in"
  {
    Notice(functionsUrl + "/functions/v1/send-contact-notification", f.name, f.email, f.phone,
           if f.serviceInterest != "" then Some("Inquiry: " + f.serviceInterest) else None,
           f.message, "stachbit.in")
  }

  /** The result of a submit: the new page, the inquiry handed to the insert
      if validation let it through, and the notification posted, if any. */
  datatype Submission = Submission(page: Page, sent: Option<Inquiry>, notice: Option<Notice>)

  /** `handleSubmit`, with the insert's success and the configured project url
      (`''` when unset) as parameters. The notification's own outcome is
      swallowed, so it has no say in the page. */
  function Submit(p: Page, insertOk: bool, functionsUrl: string): (r: Submission)
    ensures !r.page.loading
    ensures r.sent.Some? <==> Validate(p.form).Ok?
    ensures r.sent.Some? ==> r.sent.value == ToInquiry(p.form)
    ensures r.sent.None? ==> r.page == p.(error := Some(Validate(p.form).error), loading := false)
    ensures r.sent.Some? && insertOk ==> r.page == Page(EmptyForm, None, true, false)
    ensures r.sent.Some? && !insertOk ==> r.page == p.(error := Some(SubmitFailed), loading := false)
    ensures r.notice.Some? <==> r.sent.Some? && insertOk && functionsUrl != ""
    ensures r.notice.Some? ==> r.notice.value == NoticeOf(p.form, functionsUrl)
  {
    match Validate(p.form)
    case Err(msg) => Submission(p.(error := Some(msg), loading := false), None, None)
    case Ok(q) =>
      if insertOk then
        Submission(Page(EmptyForm, None, true, false), Some(q),
                   if functionsUrl != "" then Some(NoticeOf(p.form, functionsUrl)) else None)
      else Submission(p.(error := Some(SubmitFailed), loading := false), Some(q), None)
  }

  /** The notification tells the same story as the stored inquiry: same name,
      email and message, the phone the inquiry keeps, and a subject exactly
      when the inquiry has a service. */
  lemma NoticeMatchesInquiry(p: Page, insertOk: bool, functionsUrl: string)
    requires Submit(p, insertOk, functionsUrl).notice.Some?
    ensures var r := Submit(p, insertOk, functionsUrl);
      var n := r.notice.value;
      && r.sent.Some?
      && n.name == r.sent.value.name && n.email == r.sent.value.email
      && n.message == r.sent.value.message
      && Optional(n.phone) == r.sent.value.phone
      && (n.subject.Some? <==> r.sent.value.serviceInterest.Some?)
      && (n.subject.Some? ==> n.subject.value == "Inquiry: " + r.sent.value.serviceInterest.value)
  {
  }

  /** Whether the notification goes out leaves the page untouched. */
  lemma NoticeIrrelevantToPage(p: Page, insertOk: bool, url1: string, url2: string)
    ensures Submit(p, insertOk, url1).page == Submit(p, insertOk, url2).page
    ensures Submit(p, insertOk, url1).sent == Submit(p, insertOk, url2).sent
  {
  }

  /** After a successful submission every field is empty again. */
  lemma SuccessResets(p: Page, functionsUrl: string, field: FieldName)
    requires Submit(p, true, functionsUrl).sent.Some?
    ensures Get(Submit(p, true, functionsUrl).page.form, field) == ""
  {
  }

  // The displayed contact details.

  /** `x || fallback` on an optional settings record. */
  function Shown(data: Option<ContactSettings>, k: ContactKey, fallback: string): (r: string)
    ensures data.None? || Field(data.value, k) == "" ==> r == fallback
    ensures data.Some? && Field(data.value, k) != "" ==> r == Field(data.value, k)
  {
    if data.Some? && Field(data.value, k) != "" then Field(data.value, k) else fallback
  }

  /** `tel:` followed by the number with every whitespace character removed. */
  function TelLink(phone: string): (r: string)
    ensures |r| >= 4 && r[..4] == "tel:" && r[4..] == RemoveWhitespace(phone)
    ensures forall k :: 4 <= k < |r| ==> !IsJsSpace(r[k])
  {
    var num := RemoveWhitespace(phone);
    assert forall k :: 4 <= k < |"tel:" + num| ==> ("tel:" + num)[k] == num[k - 4];
    "tel:" + num
  }

  datatype Detail = Detail(caption: string, value: string, href: Option<string>)

  function ContactDetails(data: Option<ContactSettings>): (r: seq<Detail>)
    ensures |r| == 4
  {
    var email := Shown(data, EmailKey, "hello@stachbit.in");
    var phone := Shown(data, PhoneKey, "+91 98765 43210");
    [Detail("Email", email, Some("mailto:" + email)),
     Detail("Phone", phone, Some(TelLink(phone))),
     Detail("Location", Shown(data, LocationKey, "India"), None),
     Detail("Response Time", Shown(data, ResponseTimeKey, "Within 24 hours"), None)]
  }

  /** The dialable number keeps every non-space character of the shown phone
      and nothing else. */
  lemma TelHref(data: Option<ContactSettings>)
    ensures var d := ContactDetails(data);
      d[1].href == Some(TelLink(d[1].value))
  {
  }

  /** Loaded settings are never empty except for the address. */
  lemma LoadedNonEmpty(resp: Response<Row>, k: ContactKey)
    requires k != AddressKey
    ensures Field(GetContactSettings(resp), k) != ""
  {
    if !resp.failed && resp.data.Some? {
      var m := Collect(resp.data.value);
      assert Field(GetContactSettings(resp), k) == Pick(m, KeyName(k), Field(DefaultContact, k));
    }
  }

  /** Settings as loaded already carry the same fallbacks, so what is shown
      is exactly what was loaded. */
  lemma LoadedSettingsShownAsIs(resp: Response<Row>, k: ContactKey, fallback: string)
    requires k != AddressKey
    ensures Shown(Some(GetContactSettings(resp)), k, fallback) == Field(GetContactSettings(resp), k)
  {
    LoadedNonEmpty(resp, k);
  }
}

=== FILE: footer.dfy ===
/**
 * The site footer: social icons from the loaded links (with three fixed
 * profile links when none are set) and the contact column with its fallbacks.
 */
module Footer {
  import opened Common
  import opened Settings
  import opened Contact

  datatype Social = Social(name: string, href: string)

  /** `activeSocialLinks`: Twitter, LinkedIn, GitHub in that order, without
      the empty ones; nothing before the links are loaded. */
  function ActiveLinks(data: Option<SocialLinks>): (r: seq<Social>)
    ensures data.None? ==> r == []
    ensures forall k :: 0 <= k < |r| ==> r[k].href != ""
    ensures data.Some? ==> forall x :: x in r <==>
      || (x == Social("Twitter", data.value.twitter) && data.value.twitter != "")
      || (x == Social("LinkedIn", data.value.linkedin) && data.value.linkedin != "")
      || (x == Social("GitHub", data.value.github) && data.value.github != "")
  {
    if data.None? then []
    else
      var l := data.value;
      Filter([Social("Twitter", l.twitter), Social("LinkedIn", l.linkedin), Social("GitHub", l.github)],
             (s: Social) => s.href != "")
  }

  const FallbackLinks: seq<Social> := [
    Social("Twitter", "https://twitter.com/stachbit"),
    Social("LinkedIn", "https://linkedin.com/company/stachbit"),
    Social("GitHub", "https://github.com/stachbit")]

  /** The icons rendered: the active links, or the fixed profiles when there are none. */
  function Icons(data: Option<SocialLinks>): (r: seq<Social>)
    ensures |r| > 0
    ensures |ActiveLinks(data)| > 0 ==> r == ActiveLinks(data)
    ensures |ActiveLinks(data)| == 0 ==> r == FallbackLinks
  {
    var active := ActiveLinks(data);
    if |active| > 0 then active else FallbackLinks
  }

  /** Links as loaded with every url empty (the error path of the loader)
      show the fixed profiles. */
  lemma NoLinksFallBack()
    ensures Icons(Some(NoLinks)) == FallbackLinks
  {
    assert ActiveLinks(Some(NoLinks)) == [];
  }

  /** The link for one platform when its url is set, nothing otherwise. */
  function IfSet(name: string, href: string): seq<Social> {
    if href != "" then [Social(name, href)] else []
  }

  /** The active links are exactly the set ones, Twitter first, then
      LinkedIn, then GitHub. */
  lemma ActiveLinksInOrder(l: SocialLinks)
    ensures ActiveLinks(Some(l))
         == IfSet("Twitter", l.twitter) + IfSet("LinkedIn", l.linkedin) + IfSet("GitHub", l.github)
  {
    var t, i, g := Social("Twitter", l.twitter), Social("LinkedIn", l.linkedin), Social("GitHub", l.github);
    var keep := (s: Social) => s.href != "";
    assert [t, i, g] == [t] + [i] + [g];
    FilterConcat([t] + [i], [g], keep);
    FilterConcat([t], [i], keep);
    FilterOne(t, keep);
    FilterOne(i, keep);
    FilterOne(g, keep);
  }

  /** A set GitHub url always appears, after Twitter's and LinkedIn's. */
  lemma GitHubLast(l: SocialLinks)
    requires l.github != ""
    ensures |ActiveLinks(Some(l))| > 0 && ActiveLinks(Some(l))[|ActiveLinks(Some(l))| - 1] == Social("GitHub", l.github)
  {
    var all := [Social("Twitter", l.twitter), Social("LinkedIn", l.linkedin), Social("GitHub", l.github)];
    var keep := (s: Social) => s.href != "";
    assert all == all[..2] + [all[2]];
    FilterConcat(all[..2], [all[2]], keep);
    assert Filter([all[2]], keep) == [all[2]];
  }

  /** The contact column. */
  datatype Column = Column(email: string, mailto: string, phone: string, tel: string, location: string)

  function ContactColumn(data: Option<ContactSettings>): (r: Column)
    ensures r.mailto == "mailto:" + r.email && r.tel == TelLink(r.phone)
  {
    var email := Shown(data, EmailKey, "hello@stachbit.in");
    var phone := Shown(data, PhoneKey, "+91 98765 43210");
    Column(email, "mailto:" + email, phone, TelLink(phone), Shown(data, LocationKey, "India"))
  }

  /** The footer and the contact page show the same details. */
  lemma FooterAgreesWithContactPage(data: Option<ContactSettings>)
    ensures var c := ContactColumn(data);
      var d := ContactDetails(data);
      c.email == d[0].value && c.phone == d[1].value && c.location == d[2].value
      && Some(c.tel) == d[1].href && Some(c.mailto) == d[0].href
  {
  }

  /** Before the settings arrive the defaults are shown. */
  lemma DefaultsWhileLoading()
    ensures ContactColumn(None).email == DefaultContact.email
    ensures ContactColumn(None).phone == DefaultContact.phone
    ensures ContactColumn(None).location == DefaultContact.location
  {
  }
}

=== FILE: inline.dfy ===
/**
 * The blog renderer's inline formatter (`renderInlineFormatting`): a
 * left-to-right tokenizer that, at each step, looks for the leftmost match of
 * four patterns in the remaining text, keeps the earliest one, emits the text
 * before it literally and the captured text unformatted, and continues after
 * the match.
 *
 * The four patterns are JavaScript regular expressions in the source; each is
 * written here as a character-level matcher (`BoldAt`, `ItalicAt`, `CodeAt`,
 * `LinkAt`) together with a declarative statement of what the regular
 * expression accepts (`BoldSpan`, `ItalicSpan`, `CodeSpan`, `LinkSpan`), and
 * the two are proved to agree.
 */
module Inline {
  import opened Common
  import opened JsText

  /** One piece of rendered inline content. `Italic` records which delimiter
      matched (`*` or `_`) so that the source text can be reconstructed. */
  datatype Span =
    | Text(text: string)
    | Bold(text: string)
    | Italic(text: string, marker: char)
    | InlineCode(text: string)
    | Link(text: string, href: string)

  /** The source text a span was produced from. */
  function SpanSource(sp: Span): string {
    match sp
    case Text(t) => t
    case Bold(t) => "**" + t + "**"
    case Italic(t, m) => [m] + t + [m]
    case InlineCode(t) => "`" + t + "`"
    case Link(t, h) => "[" + t + "](" + h + ")"
  }

  function Source(spans: seq<Span>): string {
    ConcatMap(spans, SpanSource)
  }

  lemma SourceConcat(a: seq<Span>, b: seq<Span>)
    ensures Source(a + b) == Source(a) + Source(b)
  {
    ConcatMapAppend(a, b, SpanSource);
  }

  /** The four patterns, in the order the source lists them. */
  datatype Kind = BoldKind | ItalicKind | CodeKind | LinkKind

  predicate OfKind(sp: Span, k: Kind) {
    match k
    case BoldKind => sp.Bold?
    case ItalicKind => sp.Italic?
    case CodeKind => sp.InlineCode?
    case LinkKind => sp.Link?
  }

  /** A match: where it starts, how many characters it consumes, and what it
      renders to. */
  datatype Hit = Hit(start: nat, len: nat, span: Span)

  /** Every match a matcher reports starts at `i`, consumes at least three
      characters, and is exactly the source text of the span it renders. */
  ghost predicate WellFormedHit(s: string, i: nat, h: Hit, k: Kind) {
    && h.start == i && h.len >= 3 && i + h.len <= |s|
    && SpanSource(h.span) == s[i..i + h.len]
    && OfKind(h.span, k)
  }

  // ---------------------------------------------------------------------
  // Bold: /\*\*(.+?)\*\*/

  /** A lazy `(.+?)\*\*` started at content index `p` closes at `j`: the
      content `s[p..j]` is non-empty and free of line terminators, `**`
      follows it, and no shorter content would have been followed by `**`. */
  ghost predicate BoldCloseAfter(s: string, p: nat, j: nat) {
    && p < j && j + 2 <= |s|
    && s[j] == '*' && s[j + 1] == '*'
    && (forall k :: p <= k < j ==> !IsLineTerminator(s[k]))
    && (forall k :: p < k < j ==> !(s[k] == '*' && s[k + 1] == '*'))
  }

  ghost predicate BoldSpan(s: string, i: nat, j: nat) {
    i + 2 <= |s| && s[i] == '*' && s[i + 1] == '*' && BoldCloseAfter(s, i + 2, j)
  }

  function BoldClose(s: string, p: nat): (r: Option<nat>)
    requires p <= |s|
    ensures r.Some? ==> BoldCloseAfter(s, p, r.value)
    ensures r.None? ==> forall j :: !BoldCloseAfter(s, p, j)
    decreases |s| - p
  {
    if p == |s| || IsLineTerminator(s[p]) then None
    else if p + 2 < |s| && s[p + 1] == '*' && s[p + 2] == '*' then Some(p + 1)
    else
      var r := BoldClose(s, p + 1);
      assert forall j :: BoldCloseAfter(s, p, j) ==> BoldCloseAfter(s, p + 1, j);
      r
  }

  function BoldAt(s: string, i: nat): (r: Option<Hit>)
    requires i < |s|
    ensures r.Some? ==> WellFormedHit(s, i, r.value, BoldKind)
    ensures r.Some? <==> exists j :: BoldSpan(s, i, j)
    ensures r.Some? ==> BoldSpan(s, i, i + r.value.len - 2)
  {
    if i + 1 < |s| && s[i] == '*' && s[i + 1] == '*' then
      match BoldClose(s, i + 2)
      case Some(j) =>
        assert s[i..j + 2] == s[i..i + 2] + s[i + 2..j] + s[j..j + 2];
        assert s[i..i + 2] == "**" && s[j..j + 2] == "**";
        assert BoldSpan(s, i, j);
        Some(Hit(i, j + 2 - i, Bold(s[i + 2..j])))
      case None => None
    else None
  }

  // ---------------------------------------------------------------------
  // Italic: /(?<!\*)\*([^*]+?)\*(?!\*)|_([^_]+?)_/

  /** The first alternative: a `*` not preceded by `*`, non-empty content
      without `*`, and a closing `*` not followed by `*`. */
  ghost predicate StarItalicSpan(s: string, i: nat, j: nat) {
    && i + 2 <= j < |s|
    && s[i] == '*' && (i == 0 || s[i - 1] != '*')
    && s[j] == '*' && (j + 1 == |s| || s[j + 1] != '*')
    && (forall k :: i < k < j ==> s[k] != '*')
  }

  /** The second alternative: `_`, non-empty content without `_`, `_`. */
  ghost predicate UnderscoreItalicSpan(s: string, i: nat, j: nat) {
    && i + 2 <= j < |s|
    && s[i] == '_' && s[j] == '_'
    && (forall k :: i < k < j ==> s[k] != '_')
  }

  ghost predicate ItalicSpan(s: string, i: nat, j: nat) {
    StarItalicSpan(s, i, j) || UnderscoreItalicSpan(s, i, j)
  }

  /** The content between `i` and the first `c` after it, with both
      delimiters, as an italic span. */
  function Delimited(s: string, i: nat, j: nat, sp: Span): (h: Hit)
    requires i + 2 <= j < |s|
    requires SpanSource(sp) == [s[i]] + s[i + 1..j] + [s[j]]
    ensures h.start == i && h.len == j + 1 - i && h.span == sp
    ensures SpanSource(h.span) == s[i..i + h.len]
  {
    assert s[i..j + 1] == [s[i]] + s[i + 1..j] + [s[j]];
    Hit(i, j + 1 - i, sp)
  }

  function StarItalicAt(s: string, i: nat): (r: Option<Hit>)
    requires i < |s|
    ensures r.Some? ==> WellFormedHit(s, i, r.value, ItalicKind)
    ensures r.Some? <==> exists j :: StarItalicSpan(s, i, j)
    ensures r.Some? ==> StarItalicSpan(s, i, i + r.value.len - 1)
  {
    if s[i] == '*' && (i == 0 || s[i - 1] != '*') then
      var j := IndexOf(s, '*', i + 1);
      if j < |s| && i + 2 <= j && (j + 1 == |s| || s[j + 1] != '*') then
        assert StarItalicSpan(s, i, j);
        Some(Delimited(s, i, j, Italic(s[i + 1..j], '*')))
      else
        assert forall j' :: StarItalicSpan(s, i, j') ==> j' == j;
        None
    else None
  }

  function UnderscoreItalicAt(s: string, i: nat): (r: Option<Hit>)
    requires i < |s|
    ensures r.Some? ==> WellFormedHit(s, i, r.value, ItalicKind)
    ensures r.Some? <==> exists j :: UnderscoreItalicSpan(s, i, j)
    ensures r.Some? ==> UnderscoreItalicSpan(s, i, i + r.value.len - 1)
  {
    if s[i] == '_' then
      var j := IndexOf(s, '_', i + 1);
      if j < |s| && i + 2 <= j then
        assert UnderscoreItalicSpan(s, i, j);
        Some(Delimited(s, i, j, Italic(s[i + 1..j], '_')))
      else
        assert forall j' :: UnderscoreItalicSpan(s, i, j') ==> j' == j;
        None
    else None
  }

  /** The alternation tries the starred form first; the two cannot both
      apply at one position since they start with different characters. */
  function ItalicAt(s: string, i: nat): (r: Option<Hit>)
    requires i < |s|
    ensures r.Some? ==> WellFormedHit(s, i, r.value, ItalicKind)
    ensures r.Some? <==> exists j :: ItalicSpan(s, i, j)
    ensures r.Some? ==> ItalicSpan(s, i, i + r.value.len - 1)
  {
    if s[i] == '*' then
      assert forall j :: ItalicSpan(s, i, j) <==> StarItalicSpan(s, i, j);
      StarItalicAt(s, i)
    else
      assert forall j :: ItalicSpan(s, i, j) <==> UnderscoreItalicSpan(s, i, j);
      UnderscoreItalicAt(s, i)
  }

  // ---------------------------------------------------------------------
  // Inline code: /`([^`]+)`/

  ghost predicate CodeSpan(s: string, i: nat, j: nat) {
    && i + 2 <= j < |s|
    && s[i] == '`' && s[j] == '`'
    && (forall k :: i < k < j ==> s[k] != '`')
  }

  function CodeAt(s: string, i: nat): (r: Option<Hit>)
    requires i < |s|
    ensures r.Some? ==> WellFormedHit(s, i, r.value, CodeKind)
    ensures r.Some? <==> exists j :: CodeSpan(s, i, j)
    ensures r.Some? ==> CodeSpan(s, i, i + r.value.len - 1)
  {
    if s[i] == '`' then
      var j := IndexOf(s, '`', i + 1);
      if j < |s| && i + 2 <= j then
        assert CodeSpan(s, i, j);
        Some(Delimited(s, i, j, InlineCode(s[i + 1..j])))
      else
        assert forall j' :: CodeSpan(s, i, j') ==> j' == j;
        None
    else None
  }

  // ---------------------------------------------------------------------
  // Link: /\[([^\]]+)\]\(([^)]+)\)/

  /** `[`, non-empty text without `]`, `](`, non-empty target without `)`,
      `)`; the closing `)` is at `k`. */
  ghost predicate LinkSpan(s: string, i: nat, j: nat, k: nat) {
    && i + 2 <= j && j + 3 <= k < |s|
    && s[i] == '[' && s[j] == ']' && s[j + 1] == '(' && s[k] == ')'
    && (forall m :: i < m < j ==> s[m] != ']')
    && (forall m :: j + 1 < m < k ==> s[m] != ')')
  }

  function LinkAt(s: string, i: nat): (r: Option<Hit>)
    requires i < |s|
    ensures r.Some? ==> WellFormedHit(s, i, r.value, LinkKind)
    ensures r.Some? <==> exists j, k :: LinkSpan(s, i, j, k)
    ensures r.Some? ==> LinkSpan(s, i, i + 1 + |r.value.span.text|, i + r.value.len - 1)
  {
    if s[i] == '[' then
      var j := IndexOf(s, ']', i + 1);
      var k := if j + 2 <= |s| then IndexOf(s, ')', j + 2) else |s|;
      LinkEnds(s, i, j, k);
      if j + 1 < |s| && i + 2 <= j && s[j + 1] == '(' && k < |s| && j + 3 <= k then
        var h := LinkHit(s, i, j, k);
        Some(h)
      else None
    else None
  }

  /** A link opened at `i` closes its text at the first `]` after `i` and
      its target at the first `)` after that. */
  lemma LinkEnds(s: string, i: nat, j: nat, k: nat)
    requires i < |s| && s[i] == '['
    requires j == IndexOf(s, ']', i + 1)
    requires k == if j + 2 <= |s| then IndexOf(s, ')', j + 2) else |s|
    ensures forall j', k' :: LinkSpan(s, i, j', k') ==> j' == j && k' == k
  {
    forall j': nat, k': nat | LinkSpan(s, i, j', k')
      ensures j' == j && k' == k
    {
      FirstOccurrence(s, ']', i + 1, j');
      FirstOccurrence(s, ')', j + 2, k');
    }
  }

  /** An occurrence of `c` at or after `from`, with none of `c` between, is
      the one `IndexOf` finds. */
  lemma FirstOccurrence(s: string, c: char, from: nat, x: nat)
    requires from <= x < |s| && s[x] == c
    requires forall m :: from <= m < x ==> s[m] != c
    ensures IndexOf(s, c, from) == x
  {
  }

  /** The source of a link is its brackets around its text and target. */
  lemma LinkSource(s: string, i: nat, j: nat, k: nat)
    requires i < j && j + 1 < k < |s|
    requires s[i] == '[' && s[j] == ']' && s[j + 1] == '(' && s[k] == ')'
    ensures s[i..k + 1] == "[" + s[i + 1..j] + "](" + s[j + 2..k] + ")"
  {
    assert s[j + 2..k + 1] == s[j + 2..k] + [s[k]];
    assert s[j..k + 1] == [s[j], s[j + 1]] + s[j + 2..k + 1];
    assert s[i..j] == [s[i]] + s[i + 1..j];
    assert s[i..k + 1] == s[i..j] + s[j..k + 1];
  }

  /** The match of the link whose text closes at `j` and whose target
      closes at `k`. */
  function LinkHit(s: string, i: nat, j: nat, k: nat): (h: Hit)
    requires i + 2 <= j && j + 3 <= k < |s|
    requires s[i] == '[' && s[j] == ']' && s[j + 1] == '(' && s[k] == ')'
    requires forall m :: i < m < j ==> s[m] != ']'
    requires forall m :: j + 1 < m < k ==> s[m] != ')'
    ensures WellFormedHit(s, i, h, LinkKind)
    ensures h.span == Link(s[i + 1..j], s[j + 2..k])
    ensures LinkSpan(s, i, i + 1 + |h.span.text|, i + h.len - 1)
  {
    LinkSource(s, i, j, k);
    Hit(i, k + 1 - i, Link(s[i + 1..j], s[j + 2..k]))
  }

  // ---------------------------------------------------------------------
  // The earliest match

  function MatchAt(k: Kind, s: string, i: nat): (r: Option<Hit>)
    requires i < |s|
    ensures r.Some? ==> WellFormedHit(s, i, r.value, k)
  {
    match k
    case BoldKind => BoldAt(s, i)
    case ItalicKind => ItalicAt(s, i)
    case CodeKind => CodeAt(s, i)
    case LinkKind => LinkAt(s, i)
  }

  /** At most one pattern can match at a given position: they start with
      different characters, and bold needs `**` where starred italic refuses
      a second `*`. */
  lemma NoTies(s: string, i: nat, k1: Kind, k2: Kind)
    requires i < |s|
    requires MatchAt(k1, s, i).Some? && MatchAt(k2, s, i).Some?
    ensures k1 == k2
  {
  }

  /** JavaScript's `remaining.match(re)` for one pattern: its leftmost match
      at or after `from`. */
  function FirstMatch(k: Kind, s: string, from: nat): (r: Option<Hit>)
    requires from <= |s|
    ensures r.Some? ==> from <= r.value.start < |s| && MatchAt(k, s, r.value.start) == r
    ensures r.None? ==> forall i :: from <= i < |s| ==> MatchAt(k, s, i).None?
    ensures r.Some? ==> forall i :: from <= i < r.value.start ==> MatchAt(k, s, i).None?
    decreases |s| - from
  {
    if from == |s| then None
    else
      var m := MatchAt(k, s, from);
      if m.Some? then m
      else
        FirstMatch(k, s, from + 1)
  }

  /** The first of two candidate matches; on a tie the earlier-listed one
      stays first, as JavaScript's stable sort keeps it. */
  function Earlier(a: Option<Hit>, b: Option<Hit>): Option<Hit> {
    if a.None? then b
    else if b.None? then a
    else if b.value.start < a.value.start then b
    else a
  }

  /** The match `h` consumes at least three characters of `s`, renders to a
      formatted (non-literal) span, and is exactly that span's source text. */
  ghost predicate Consumes(s: string, h: Hit) {
    && h.len >= 3 && h.start + h.len <= |s|
    && SpanSource(h.span) == s[h.start..h.start + h.len]
    && !h.span.Text?
  }

  /** `h` is the leftmost match in `s` among the patterns in `ks`: `None` when
      none of them matches anywhere, else a match of one of them that starts
      before every match of any of them. */
  ghost predicate Leftmost(s: string, h: Option<Hit>, ks: set<Kind>) {
    && (h.None? ==> forall k, i :: k in ks && 0 <= i < |s| ==> MatchAt(k, s, i).None?)
    && (h.Some? ==> h.value.start < |s| && exists k :: k in ks && MatchAt(k, s, h.value.start) == h)
    && (h.Some? ==> forall k, i :: k in ks && 0 <= i < h.value.start ==> MatchAt(k, s, i).None?)
  }

  lemma FirstMatchLeftmost(k: Kind, s: string)
    ensures Leftmost(s, FirstMatch(k, s, 0), {k})
  {
  }

  lemma EarlierLeftmost(s: string, a: Option<Hit>, ka: set<Kind>, b: Option<Hit>, kb: set<Kind>)
    requires Leftmost(s, a, ka) && Leftmost(s, b, kb)
    ensures Leftmost(s, Earlier(a, b), ka + kb)
  {
  }

  const AllKinds: set<Kind> := {BoldKind, ItalicKind, CodeKind, LinkKind}

  lemma EveryKind(k: Kind)
    ensures k in AllKinds
  {
  }

  /** No pattern matches anywhere in `s`. */
  ghost predicate NoMatch(s: string) {
    forall k, i :: k in AllKinds && 0 <= i < |s| ==> MatchAt(k, s, i).None?
  }

  /** The leftmost match of each pattern, combined in the source's order. */
  function Combined(s: string): Option<Hit> {
    var b := FirstMatch(BoldKind, s, 0);
    var it := FirstMatch(ItalicKind, s, 0);
    var c := FirstMatch(CodeKind, s, 0);
    var l := FirstMatch(LinkKind, s, 0);
    Earlier(Earlier(Earlier(b, it), c), l)
  }

  lemma CombinedLeftmost(s: string)
    ensures Leftmost(s, Combined(s), AllKinds)
  {
    var b := FirstMatch(BoldKind, s, 0);
    var it := FirstMatch(ItalicKind, s, 0);
    var c := FirstMatch(CodeKind, s, 0);
    var l := FirstMatch(LinkKind, s, 0);
    FirstMatchLeftmost(BoldKind, s);
    FirstMatchLeftmost(ItalicKind, s);
    FirstMatchLeftmost(CodeKind, s);
    FirstMatchLeftmost(LinkKind, s);
    EarlierLeftmost(s, b, {BoldKind}, it, {ItalicKind});
    EarlierLeftmost(s, Earlier(b, it), {BoldKind, ItalicKind}, c, {CodeKind});
    EarlierLeftmost(s, Earlier(Earlier(b, it), c), {BoldKind, ItalicKind, CodeKind}, l, {LinkKind});
    assert {BoldKind, ItalicKind, CodeKind} + {LinkKind} == AllKinds;
  }

  lemma LeftmostFacts(s: string, r: Option<Hit>)
    requires Leftmost(s, r, AllKinds)
    ensures r.None? <==> NoMatch(s)
    ensures r.Some? ==> Consumes(s, r.value)
  {
    if r.Some? {
      var k :| k in AllKinds && MatchAt(k, s, r.value.start) == r;
      assert WellFormedHit(s, r.value.start, r.value, k);
    }
  }

  /** The match one step of the loop acts on: the leftmost match among all
      four patterns. */
  function NextHit(s: string): (r: Option<Hit>)
    ensures Leftmost(s, r, AllKinds)
    ensures r.None? <==> NoMatch(s)
    ensures r.Some? ==> Consumes(s, r.value)
  {
    CombinedLeftmost(s);
    LeftmostFacts(s, Combined(s));
    Combined(s)
  }

  /** No literal piece is empty and no two literal pieces are adjacent. */
  ghost predicate LiteralsSeparated(r: seq<Span>) {
    && (forall k :: 0 <= k < |r| && r[k].Text? ==> r[k].text != "")
    && (forall k :: 0 <= k < |r| - 1 ==> !(r[k].Text? && r[k + 1].Text?))
  }

  /** The text before the match `h`, as a literal piece when it is non-empty. */
  function Before(s: string, h: Hit): (r: seq<Span>)
    requires h.start <= |s|
    ensures Source(r) == s[..h.start]
    ensures LiteralsSeparated(r) && |r| <= 1
  {
    if h.start > 0 then ConcatMapOne(Text(s[..h.start]), SpanSource); [Text(s[..h.start])] else []
  }

  /** One step of the loop: the text before the match, the match's span,
      then whatever the rest of the text renders to. */
  function Assemble(s: string, h: Hit, tail: seq<Span>): (r: seq<Span>)
    requires Consumes(s, h)
    requires Source(tail) == s[h.start + h.len..]
    requires LiteralsSeparated(tail)
    ensures Source(r) == s
    ensures LiteralsSeparated(r)
  {
    StepTiles(s, h, tail);
    Before(s, h) + [h.span] + tail
  }

  lemma StepTiles(s: string, h: Hit, tail: seq<Span>)
    requires Consumes(s, h)
    requires Source(tail) == s[h.start + h.len..]
    requires LiteralsSeparated(tail)
    ensures Source(Before(s, h) + [h.span] + tail) == s
    ensures LiteralsSeparated(Before(s, h) + [h.span] + tail)
  {
    StepSource(s, h, tail);
    StepSeparated(Before(s, h), h.span, tail);
  }

  lemma StepSource(s: string, h: Hit, tail: seq<Span>)
    requires Consumes(s, h)
    requires Source(tail) == s[h.start + h.len..]
    ensures Source(Before(s, h) + [h.span] + tail) == s
  {
    var b := Before(s, h);
    SourceConcat(b + [h.span], tail);
    SourceConcat(b, [h.span]);
    ConcatMapOne(h.span, SpanSource);
    ThreeParts(s, h.start, h.start + h.len);
  }

  lemma ThreeParts(s: string, a: nat, e: nat)
    requires a <= e <= |s|
    ensures s == s[..a] + s[a..e] + s[e..]
  {
    assert s[a..] == s[a..e] + s[e..];
    assert s == s[..a] + s[a..];
  }

  lemma StepSeparated(b: seq<Span>, sp: Span, tail: seq<Span>)
    requires LiteralsSeparated(b) && |b| <= 1 && !sp.Text?
    requires LiteralsSeparated(tail)
    ensures LiteralsSeparated(b + [sp] + tail)
  {
    var r := b + [sp] + tail;
    forall k | 0 <= k < |r| - 1
      ensures !(r[k].Text? && r[k + 1].Text?)
    {
      if k >= |b| + 1 {
        assert r[k] == tail[k - |b| - 1] && r[k + 1] == tail[k - |b|];
      }
    }
  }

  /** `renderInlineFormatting`: the spans the text renders to. Concatenating
      the source text of the spans gives back the input exactly; no literal
      piece is empty and no two literal pieces are adjacent. */
  function Tokens(s: string): (r: seq<Span>)
    ensures Source(r) == s
    ensures LiteralsSeparated(r)
    decreases |s|
  {
    if |s| == 0 then []
    else
      match NextHit(s)
      case None => ConcatMapOne(Text(s), SpanSource); [Text(s)]
      case Some(h) => Assemble(s, h, Tokens(s[h.start + h.len..]))
  }

  /** Text in which no pattern matches anywhere comes back as one literal. */
  lemma NoMatchIsLiteral(s: string)
    requires s != "" && NoMatch(s)
    ensures Tokens(s) == [Text(s)]
  {
    assert NextHit(s).None?;
  }

  /** The step is determined by its match: if pattern `k` matches at `i` and
      nothing matches before `i`, the step acts on exactly that match. */
  lemma NextHitAt(s: string, k: Kind, i: nat)
    requires i < |s| && MatchAt(k, s, i).Some?
    requires forall k', j :: k' in AllKinds && 0 <= j < i ==> MatchAt(k', s, j).None?
    ensures NextHit(s) == MatchAt(k, s, i)
  {
    var r := NextHit(s);
    EveryKind(k);
    assert r.Some?;
    var k' :| k' in AllKinds && MatchAt(k', s, r.value.start) == r;
    assert r.value.start == i;
    NoTies(s, i, k, k');
  }

  /** A character no pattern can start with. */
  predicate Plain(c: char) {
    c != '*' && c != '_' && c != '`' && c != '['
  }

  lemma PlainNoMatch(s: string, n: nat)
    requires n <= |s|
    requires forall j :: 0 <= j < n ==> Plain(s[j])
    ensures forall k, j :: k in AllKinds && 0 <= j < n ==> MatchAt(k, s, j).None?
  {
  }

  /** Text made only of plain characters renders as a single literal. */
  lemma {:induction false} PlainIsLiteral(s: string)
    requires s != ""
    requires forall j :: 0 <= j < |s| ==> Plain(s[j])
    ensures Tokens(s) == [Text(s)]
  {
    PlainNoMatch(s, |s|);
    NoMatchIsLiteral(s);
  }

  /** The closing `**` of a bold span is the one `BoldClose` finds. */
  lemma BoldCloseFinds(s: string, p: nat, j: nat)
    requires p <= |s| && BoldCloseAfter(s, p, j)
    ensures BoldClose(s, p) == Some(j)
  {
  }

  lemma BoldAndItalicBold()
    ensures BoldAt("Some **bold** and *italic* text.", 5) == Some(Hit(5, 8, Bold("bold")))
  {
    var s := "Some **bold** and *italic* text.";
    assert s[7] == 'b' && s[8] == 'o' && s[9] == 'l' && s[10] == 'd';
    assert s[7..11] == "bold";
    BoldOf(s, 5, "bold");
  }

  /** `**t**` at `i`, with `t` free of `*` and line terminators, is bold `t`. */
  lemma BoldOf(s: string, i: nat, t: string)
    requires t != [] && i + |t| + 4 <= |s|
    requires s[i] == '*' && s[i + 1] == '*' && s[i + 2..i + 2 + |t|] == t
    requires s[i + 2 + |t|] == '*' && s[i + 3 + |t|] == '*'
    requires forall k :: 0 <= k < |t| ==> t[k] != '*' && !IsLineTerminator(t[k])
    ensures BoldAt(s, i) == Some(Hit(i, |t| + 4, Bold(t)))
  {
    var j := i + 2 + |t|;
    assert forall k :: i + 2 <= k < j ==> s[k] == t[k - i - 2];
    assert BoldCloseAfter(s, i + 2, j);
    BoldCloseFinds(s, i + 2, j);
  }

  lemma BoldAndItalicFirstStep()
    ensures NextHit("Some **bold** and *italic* text.") == Some(Hit(5, 8, Bold("bold")))
  {
    var s := "Some **bold** and *italic* text.";
    BoldAndItalicBold();
    PlainNoMatch(s, 5);
    NextHitAt(s, BoldKind, 5);
  }

  lemma BoldAndItalicSecondStep()
    ensures NextHit(" and *italic* text.") == Some(Hit(5, 8, Italic("italic", '*')))
  {
    var rest := " and *italic* text.";
    BoldAndItalicItalic();
    PlainNoMatch(rest, 5);
    NextHitAt(rest, ItalicKind, 5);
  }

  /** One step of the loop, unfolded: the piece before the leftmost match,
      the match, then the tokens of the rest. */
  lemma TokensStep(s: string, h: Hit)
    requires NextHit(s) == Some(h)
    ensures Consumes(s, h)
    ensures Tokens(s) == Before(s, h) + [h.span] + Tokens(s[h.start + h.len..])
  {
    assert Consumes(s, h);
    assert |s| > 0;
    assert Tokens(s) == Assemble(s, h, Tokens(s[h.start + h.len..]));
  }

  /** A step whose match does not start the text: a literal, the match,
      then the tokens of the rest. */
  lemma StepAfterLiteral(s: string, h: Hit, t: seq<Span>)
    requires NextHit(s) == Some(h) && h.start > 0
    requires h.start + h.len <= |s| && Tokens(s[h.start + h.len..]) == t
    ensures Tokens(s) == [Text(s[..h.start]), h.span] + t
  {
    TokensStep(s, h);
    assert Before(s, h) == [Text(s[..h.start])];
    PairPrefix(Text(s[..h.start]), h.span, t);
  }

  lemma PairPrefix(a: Span, b: Span, t: seq<Span>)
    ensures [a] + [b] + t == [a, b] + t
  {
  }

  /** The whole sentence: literal, bold, literal, italic, literal. The text
      is a parameter fixed by the precondition rather than written into the
      conclusion, because the verifier evaluates `Tokens` of a literal string
      eagerly and that unfolding is far costlier than the step-wise proof. */
  lemma BoldAndItalicTokens(s: string)
    requires s == "Some **bold** and *italic* text."
    ensures Tokens(s) ==
      [Text("Some "), Bold("bold"), Text(" and "), Italic("italic", '*'), Text(" text.")]
  {
    var t := [Text(" and "), Italic("italic", '*'), Text(" text.")];
    SentenceSlices();
    BoldAndItalicRest(s[13..]);
    BoldAndItalicFirstStep();
    StepAfterLiteral(s, Hit(5, 8, Bold("bold")), t);
    assert s[..5] == "Some ";
    PairThenThree(Text("Some "), Bold("bold"), Text(" and "), Italic("italic", '*'), Text(" text."));
  }

  lemma PairThenThree(a: Span, b: Span, c: Span, d: Span, e: Span)
    ensures [a, b] + [c, d, e] == [a, b, c, d, e]
  {
  }

  /** The rest of the sentence after the bold span; the text is a parameter
      for the same reason as in `BoldAndItalicTokens`. */
  lemma BoldAndItalicRest(rest: string)
    requires rest == " and *italic* text."
    ensures Tokens(rest) == [Text(" and "), Italic("italic", '*'), Text(" text.")]
  {
    SentenceSlices();
    TextLiteral(rest[13..]);
    BoldAndItalicSecondStep();
    StepAfterLiteral(rest, Hit(5, 8, Italic("italic", '*')), [Text(" text.")]);
  }

  /** The final literal piece, again with the text as a parameter. */
  lemma TextLiteral(t: string)
    requires t == " text."
    ensures Tokens(t) == [Text(" text.")]
  {
    assert |t| == 6 && t[0] == ' ' && t[1] == 't' && t[2] == 'e' && t[3] == 'x' && t[4] == 't' && t[5] == '.';
    PlainIsLiteral(t);
  }

  lemma SentenceSlices()
    ensures "Some **bold** and *italic* text."[13..] == " and *italic* text."
    ensures "Some **bold** and *italic* text."[..5] == "Some "
    ensures " and *italic* text."[13..] == " text."
    ensures " and *italic* text."[..5] == " and "
  {
  }

  lemma BoldAndItalicItalic()
    ensures ItalicAt(" and *italic* text.", 5) == Some(Hit(5, 8, Italic("italic", '*')))
  {
    var rest := " and *italic* text.";
    assert IndexOf(rest, '*', 6) == 12;
    assert rest[6..12] == "italic";
  }

  /** A pathological input: bold takes the first `**` and lazily closes at
      the first `**` after one content character, so the first step renders
      `*x` in bold and leaves a stray `*` behind it. */
  lemma TripleStarFirstStep()
    ensures NextHit("***x***") == Some(Hit(0, 6, Bold("*x")))
  {
    var s := "***x***";
    assert s[3] == 'x';
    assert BoldClose(s, 3) == Some(4);
    assert BoldClose(s, 2) == Some(4);
    assert s[2..4] == "*x";
    assert BoldAt(s, 0) == Some(Hit(0, 6, Bold("*x")));
    NextHitAt(s, BoldKind, 0);
  }
}

=== FILE: js_text.dfy ===
/**
 * The handful of JavaScript string primitives the site relies on, written out
 * at the character level: `String.prototype.trim`, the regular-expression
 * class `\s`, `split('\n')`, `join`, `includes`, `replace(/\s/g, '')` and an
 * ASCII-only `toLowerCase`.
 */
module JsText {
  import opened Common

  /** ECMAScript WhiteSpace and LineTerminator code points: the set that both
      `trim()` strips and the regular-expression class `\s` matches. */
  predicate IsJsSpace(c: char) {
    || c == ' ' || c == '\t' || c == '\n' || c == '\r'
    || c == '\U{000B}' || c == '\U{000C}' || c == '\U{00A0}' || c == '\U{FEFF}'
    || c == '\U{1680}' || ('\U{2000}' <= c <= '\U{200A}')
    || c == '\U{2028}' || c == '\U{2029}' || c == '\U{202F}' || c == '\U{205F}'
    || c == '\U{3000}'
  }

  /** The characters the regular-expression `.` refuses to match. */
  predicate IsLineTerminator(c: char) {
    c == '\n' || c == '\r' || c == '\U{2028}' || c == '\U{2029}'
  }

  predicate StartsWith(s: string, prefix: string) {
    |prefix| <= |s| && s[..|prefix|] == prefix
  }

  lemma StartsWithSplit(s: string, prefix: string)
    requires StartsWith(s, prefix)
    ensures s == prefix + s[|prefix|..]
  {
    assert s == s[..|prefix|] + s[|prefix|..];
  }

  /** No whitespace at either end. */
  predicate IsTrimmed(s: string) {
    |s| == 0 || (!IsJsSpace(s[0]) && !IsJsSpace(s[|s| - 1]))
  }

  /** `s` with its leading whitespace removed. */
  function TrimStart(s: string): (r: string)
    ensures |r| <= |s| && r == s[|s| - |r|..]
    ensures forall k :: 0 <= k < |s| - |r| ==> IsJsSpace(s[k])
    ensures |r| == 0 || !IsJsSpace(r[0])
  {
    if |s| > 0 && IsJsSpace(s[0]) then TrimStart(s[1..]) else s
  }

  /** `s` with its trailing whitespace removed. */
  function TrimEnd(s: string): (r: string)
    ensures |r| <= |s| && r == s[..|r|]
    ensures forall k :: |r| <= k < |s| ==> IsJsSpace(s[k])
    ensures |r| == 0 || !IsJsSpace(r[|r| - 1])
  {
    if |s| > 0 && IsJsSpace(s[|s| - 1]) then TrimEnd(s[..|s| - 1]) else s
  }

  /** `r` is the infix of `s` that starts at `a`, and everything of `s`
      outside it is whitespace. */
  ghost predicate StripsTo(s: string, a: nat, r: string) {
    && a + |r| <= |s| && r == s[a..a + |r|]
    && (forall k :: 0 <= k < a ==> IsJsSpace(s[k]))
    && (forall k :: a + |r| <= k < |s| ==> IsJsSpace(s[k]))
  }

  /** `String.prototype.trim`: `s` with whitespace stripped from both ends. */
  function Trim(s: string): (r: string)
    ensures IsTrimmed(r) && |r| <= |s|
    ensures IsTrimmed(s) ==> r == s
  {
    var t := TrimStart(s);
    assert IsTrimmed(s) && |s| > 0 ==> |t| == |s| && !IsJsSpace(t[|t| - 1]);
    TrimEnd(t)
  }

  /** The trimmed text is an infix of the original, and everything outside
      it is whitespace. */
  lemma TrimStrips(s: string)
    ensures exists a: nat :: StripsTo(s, a, Trim(s))
  {
    var t := TrimStart(s);
    assert Trim(s) == TrimEnd(t);
    StripsBoth(s, t, TrimEnd(t));
    assert StripsTo(s, |s| - |t|, Trim(s));
  }

  /** Stripping a prefix and then a suffix of whitespace strips an infix. */
  lemma StripsBoth(s: string, t: string, r: string)
    requires |t| <= |s| && t == s[|s| - |t|..]
    requires forall k :: 0 <= k < |s| - |t| ==> IsJsSpace(s[k])
    requires |r| <= |t| && r == t[..|r|]
    requires forall k :: |r| <= k < |t| ==> IsJsSpace(t[k])
    ensures StripsTo(s, |s| - |t|, r)
  {
    var a := |s| - |t|;
    assert r == s[a..a + |r|];
    forall k | a + |r| <= k < |s| ensures IsJsSpace(s[k]) {
      assert t[k - a] == s[k];
    }
  }

  /** True when `s` is nothing but whitespace (JavaScript's `!s.trim()`). */
  lemma TrimEmptyIffBlank(s: string)
    ensures Trim(s) == "" <==> forall k :: 0 <= k < |s| ==> IsJsSpace(s[k])
  {
    TrimStrips(s);
    var a: nat :| StripsTo(s, a, Trim(s));
    assert |Trim(s)| > 0 ==> Trim(s)[0] == s[a];
  }

  lemma {:induction false} TrimStartPadded(pre: string, x: string)
    requires forall k :: 0 <= k < |pre| ==> IsJsSpace(pre[k])
    requires |x| == 0 || !IsJsSpace(x[0])
    ensures TrimStart(pre + x) == x
  {
    if |pre| > 0 {
      TrimStartPadded(pre[1..], x);
      assert (pre + x)[1..] == pre[1..] + x;
    } else {
      assert pre + x == x;
    }
  }

  lemma {:induction false} TrimEndPadded(x: string, post: string)
    requires forall k :: 0 <= k < |post| ==> IsJsSpace(post[k])
    requires |x| == 0 || !IsJsSpace(x[|x| - 1])
    ensures TrimEnd(x + post) == x
  {
    if |post| > 0 {
      var p' := post[..|post| - 1];
      TrimEndPadded(x, p');
      assert (x + post)[..|x + post| - 1] == x + p';
    } else {
      assert x + post == x;
    }
  }

  /** Trimming removes exactly the whitespace around a trimmed core. */
  lemma TrimPadded(pre: string, core: string, post: string)
    requires forall k :: 0 <= k < |pre| ==> IsJsSpace(pre[k])
    requires forall k :: 0 <= k < |post| ==> IsJsSpace(post[k])
    requires core != "" && IsTrimmed(core)
    ensures Trim(pre + core + post) == core
  {
    var s := pre + core + post;
    assert s == pre + (core + post);
    TrimStartPadded(pre, core + post);
    assert TrimStart(s) == core + post;
    TrimEndPadded(core, post);
    assert TrimEnd(core + post) == core;
  }

  /** `s.split(sep)` for a one-character separator: the maximal pieces of `s`
      that do not contain `sep`, in order; always at least one piece. */
  function Split(s: string, sep: char): (r: seq<string>)
    ensures |r| >= 1
    ensures forall i :: 0 <= i < |r| ==> sep !in r[i]
  {
    if |s| == 0 then [""]
    else if s[0] == sep then [""] + Split(s[1..], sep)
    else
      var rest := Split(s[1..], sep);
      [[s[0]] + rest[0]] + rest[1..]
  }

  /** `pieces.join(sep)`. */
  function Join(pieces: seq<string>, sep: string): string {
    if |pieces| == 0 then ""
    else if |pieces| == 1 then pieces[0]
    else pieces[0] + sep + Join(pieces[1..], sep)
  }

  /** Splitting and then joining with the same separator gives the string back. */
  lemma {:induction false} JoinSplit(s: string, sep: char)
    ensures Join(Split(s, sep), [sep]) == s
  {
    if |s| == 0 {
    } else if s[0] == sep {
      JoinSplit(s[1..], sep);
      assert s == [sep] + s[1..];
    } else {
      var rest := Split(s[1..], sep);
      JoinSplit(s[1..], sep);
      if |rest| == 1 {
        assert s == [s[0]] + s[1..];
      } else {
        assert Join(rest, [sep]) == rest[0] + [sep] + Join(rest[1..], [sep]);
        assert s == [s[0]] + s[1..];
      }
    }
  }

  lemma {:induction false} SplitNoSep(x: string, sep: char)
    requires sep !in x
    ensures Split(x, sep) == [x]
  {
    if |x| > 0 {
      SplitNoSep(x[1..], sep);
      assert [x[0]] + x[1..] == x;
    }
  }

  lemma {:induction false} SplitAtSep(x: string, y: string, sep: char)
    requires sep !in x
    ensures Split(x + [sep] + y, sep) == [x] + Split(y, sep)
  {
    if |x| == 0 {
      assert x + [sep] + y == [sep] + y;
      assert ([sep] + y)[1..] == y;
    } else {
      SplitAtSep(x[1..], y, sep);
      assert (x + [sep] + y)[1..] == x[1..] + [sep] + y;
      assert [x[0]] + x[1..] == x;
    }
  }

  /** Joining separator-free pieces and splitting again gives the pieces back. */
  lemma {:induction false} SplitJoin(pieces: seq<string>, sep: char)
    requires |pieces| >= 1
    requires forall i :: 0 <= i < |pieces| ==> sep !in pieces[i]
    ensures Split(Join(pieces, [sep]), sep) == pieces
  {
    if |pieces| == 1 {
      SplitNoSep(pieces[0], sep);
    } else {
      SplitJoin(pieces[1..], sep);
      SplitAtSep(pieces[0], Join(pieces[1..], [sep]), sep);
      assert [pieces[0]] + pieces[1..] == pieces;
    }
  }

  /** First index at or after `from` holding `c`, or `|s|` when there is none. */
  function IndexOf(s: string, c: char, from: nat): (r: nat)
    requires from <= |s|
    ensures from <= r <= |s|
    ensures r < |s| ==> s[r] == c
    ensures forall k :: from <= k < r ==> s[k] != c
    decreases |s| - from
  {
    if from == |s| || s[from] == c then from else IndexOf(s, c, from + 1)
  }

  /** `q` occurs in `s` starting at index `i`. */
  predicate OccursAt(s: string, q: string, i: nat) {
    i + |q| <= |s| && s[i..i + |q|] == q
  }

  /** `xs.map(f).join('')`: the text `f` gives for each element, in order. */
  function ConcatMap<T>(xs: seq<T>, f: T -> string): string {
    if |xs| == 0 then "" else f(xs[0]) + ConcatMap(xs[1..], f)
  }

  lemma ConcatMapOne<T>(x: T, f: T -> string)
    ensures ConcatMap([x], f) == f(x)
  {
    assert [x][1..] == [];
    assert f(x) + "" == f(x);
  }

  lemma {:induction false} ConcatMapAppend<T>(a: seq<T>, b: seq<T>, f: T -> string)
    ensures ConcatMap(a + b, f) == ConcatMap(a, f) + ConcatMap(b, f)
  {
    if |a| > 0 {
      ConcatMapAppend(a[1..], b, f);
      assert (a + b)[1..] == a[1..] + b;
      assert (a + b)[0] == a[0];
    } else {
      assert a + b == b;
    }
  }

  /** `s.includes(q)`. */
  function Includes(s: string, q: string): (r: bool)
    ensures r <==> exists i :: 0 <= i <= |s| && OccursAt(s, q, i)
  {
    IncludesFrom(s, q, 0)
  }

  function IncludesFrom(s: string, q: string, from: nat): (r: bool)
    requires from <= |s|
    ensures r <==> exists i :: from <= i <= |s| && OccursAt(s, q, i)
    decreases |s| - from
  {
    if OccursAt(s, q, from) then true
    else if from == |s| then false
    else IncludesFrom(s, q, from + 1)
  }

  function NotSpace(c: char): bool {
    !IsJsSpace(c)
  }

  /** `s.replace(/\s/g, '')`: the non-whitespace characters of `s`, in order. */
  function RemoveWhitespace(s: string): (r: string)
    ensures forall k :: 0 <= k < |r| ==> !IsJsSpace(r[k])
    ensures (forall k :: 0 <= k < |s| ==> !IsJsSpace(s[k])) ==> r == s
    ensures |r| <= |s|
  {
    NothingToRemove(s);
    Filter(s, NotSpace)
  }

  lemma NothingToRemove(s: string)
    ensures (forall k :: 0 <= k < |s| ==> !IsJsSpace(s[k])) ==> Filter(s, NotSpace) == s
  {
    if forall k :: 0 <= k < |s| ==> !IsJsSpace(s[k]) {
      FilterKeepsAll(s, NotSpace);
    }
  }

  /** Removing whitespace distributes over concatenation. */
  lemma RemoveWhitespaceConcat(a: string, b: string)
    ensures RemoveWhitespace(a + b) == RemoveWhitespace(a) + RemoveWhitespace(b)
  {
    FilterConcat(a, b, NotSpace);
  }

  /** `toLowerCase` restricted to the ASCII letters. */
  function LowerChar(c: char): char {
    if 'A' <= c <= 'Z' then (c as int + 32) as char else c
  }

  function Lower(s: string): (r: string)
    ensures |r| == |s|
    ensures forall k :: 0 <= k < |s| ==> r[k] == LowerChar(s[k])
  {
    if |s| == 0 then "" else [LowerChar(s[0])] + Lower(s[1..])
  }
}

=== FILE: portfolio.dfy ===
/**
 * The portfolio page: which list of projects is shown (demo projects until a
 * non-empty fetch arrives), the service filter, and each card's technology
 * badges and link.
 */
module Portfolio {
  import opened Common

  datatype Project = Project(
    id: string, title: string, serviceType: Option<string>,
    projectUrl: Option<string>, technologies: Option<seq<string>>)

  /** The id of the filter button that shows everything. */
  const All: string := "all"

  function OfService(f: string): Project -> bool {
    (p: Project) => p.serviceType == Some(f)
  }

  /** `filteredProjects`. */
  function Visible(projects: seq<Project>, f: string): (r: seq<Project>)
    ensures f == All ==> r == projects
    ensures f != All ==> forall p :: p in r <==> p in projects && p.serviceType == Some(f)
    ensures |r| <= |projects|
  {
    if f == All then projects else Filter(projects, OfService(f))
  }

  /** Filtering keeps the original order: it commutes with concatenation. */
  lemma VisibleKeepsOrder(a: seq<Project>, b: seq<Project>, f: string)
    ensures Visible(a + b, f) == Visible(a, f) + Visible(b, f)
  {
    if f != All {
      FilterConcat(a, b, OfService(f));
    }
  }

  /** Choosing the same filter again shows the same projects. */
  lemma VisibleIdempotent(projects: seq<Project>, f: string)
    ensures Visible(Visible(projects, f), f) == Visible(projects, f)
  {
    if f != All {
      FilterKeepsAll(Filter(projects, OfService(f)), OfService(f));
    }
  }

  /** The list after the fetch: replaced only by a non-empty result. */
  function AfterFetch(current: seq<Project>, data: Option<seq<Project>>): (r: seq<Project>)
    ensures r != current ==> data.Some? && |data.value| > 0 && r == data.value
    ensures data.Some? && |data.value| > 0 ==> r == data.value
  {
    if data.Some? && |data.value| > 0 then data.value else current
  }

  /** A failed or empty fetch leaves a non-empty list non-empty. */
  lemma NeverEmptied(current: seq<Project>, data: Option<seq<Project>>)
    requires |current| > 0
    ensures |AfterFetch(current, data)| > 0
  {
  }

  /** The badges shown: at most the first three technologies. */
  function Badges(tech: Option<seq<string>>): (r: seq<string>)
    ensures tech.None? ==> r == []
    ensures tech.Some? ==>
      && |r| == (if |tech.value| < 3 then |tech.value| else 3)
      && r == tech.value[..|r|]
  {
    if tech.None? then []
    else if |tech.value| < 3 then tech.value
    else tech.value[..3]
  }

  /** The "+n" badge, present only beyond three technologies. */
  function MoreBadge(tech: Option<seq<string>>): (r: Option<nat>)
    ensures r.Some? <==> tech.Some? && |tech.value| > 3
  {
    if tech.Some? && |tech.value| > 3 then Some(|tech.value| - 3) else None
  }

  /** The shown badges and the "+n" count account for every technology. */
  lemma BadgesAccountForAll(tech: Option<seq<string>>)
    ensures |Badges(tech)| + MoreBadge(tech).GetOr(0) == if tech.Some? then |tech.value| else 0
  {
  }

  /** The "View Project" link: a non-empty url other than the placeholder '#'. */
  predicate ShowsLink(url: Option<string>) {
    url.Some? && url.value != "" && url.value != "#"
  }

  /** A missing url, an empty one and the placeholder '#' show no link. */
  lemma PlaceholderHidesLink(url: Option<string>)
    requires url.None? || url.value == "" || url.value == "#"
    ensures !ShowsLink(url)
  {
  }

  /** Any other url is linked. */
  lemma RealUrlShowsLink(u: string)
    requires u != "" && u != "#"
    ensures ShowsLink(Some(u))
  {
  }
}

=== FILE: seo.dfy ===
/**
 * The head manager: the page title, the meta and canonical-link tags written
 * by `SEOHead`, and the article structured-data script. The document head is
 * a sequence of elements; `querySelector` and `getElementById` find the first
 * element that matches, so an element's key stands for the selector it answers.
 */
module Seo {
  import opened Common

  const SiteName: string := "Stachbit"
  const BaseUrl: string := "https://stachbit.in"
  const DefaultImage: string := "https://stachbit.in/og-default.png"

  /** The meta tags `SEOHead` writes. */
  datatype Tag =
    | Description | Keywords
    | OgTitle | OgDescription | OgImage | OgUrl | OgType | OgSiteName
    | TwitterCard | TwitterTitle | TwitterDescription | TwitterImage
    | ArticleAuthor | ArticlePublished | ArticleModified

  /** The selector of a tag: `meta[name=…]` when the first component is true,
      `meta[property=…]` otherwise. */
  function Selector(t: Tag): (bool, string) {
    match t
    case Description => (true, "description")
    case Keywords => (true, "keywords")
    case OgTitle => (false, "og:title")
    case OgDescription => (false, "og:description")
    case OgImage => (false, "og:image")
    case OgUrl => (false, "og:url")
    case OgType => (false, "og:type")
    case OgSiteName => (false, "og:site_name")
    case TwitterCard => (true, "twitter:card")
    case TwitterTitle => (true, "twitter:title")
    case TwitterDescription => (true, "twitter:description")
    case TwitterImage => (true, "twitter:image")
    case ArticleAuthor => (false, "article:author")
    case ArticlePublished => (false, "article:published_time")
    case ArticleModified => (false, "article:modified_time")
  }

  /** What an element answers to: one of the meta selectors, the canonical
      link, the structured-data script id, or something else entirely. */
  datatype Key = Meta(tag: Tag) | Canonical | StructuredData | Other(id: nat)

  /** The article description carried by the structured-data script. */
  datatype Article = Article(headline: string, description: string, image: string,
    url: string, author: string, datePublished: string, dateModified: string)

  datatype Content = Text(s: string) | Json(article: Article)

  datatype Element = Element(key: Key, content: Content)

  datatype Document = Document(title: string, head: seq<Element>)

  /** Index of the first element with the key. */
  function Find(head: seq<Element>, k: Key): (r: Option<nat>)
    ensures r.Some? ==> r.value < |head| && head[r.value].key == k
    ensures r.Some? ==> forall i :: 0 <= i < r.value ==> head[i].key != k
    ensures r.None? ==> forall i :: 0 <= i < |head| ==> head[i].key != k
  {
    if |head| == 0 then None
    else if head[0].key == k then Some(0)
    else match Find(head[1..], k)
      case None => None
      case Some(i) => Some(i + 1)
  }

  /** What a reader of the first match sees. */
  function Lookup(head: seq<Element>, k: Key): Option<Content> {
    match Find(head, k)
    case None => None
    case Some(i) => Some(head[i].content)
  }

  /** `updateMeta` / `updateLink`: overwrite the first match, or append a new
      element when there is none. */
  function Upsert(head: seq<Element>, k: Key, v: string): (r: seq<Element>)
    ensures |r| == |head| || (|r| == |head| + 1 && r[|head|] == Element(k, Text(v)))
    ensures |r| == |head| + 1 <==> Find(head, k).None?
    ensures forall i :: 0 <= i < |head| && Find(head, k) != Some(i) ==> r[i] == head[i]
  {
    match Find(head, k)
    case None => head + [Element(k, Text(v))]
    case Some(i) => head[i := Element(k, Text(v))]
  }

  /** The written key now reads the new content. */
  lemma UpsertReads(head: seq<Element>, k: Key, v: string)
    ensures Lookup(Upsert(head, k, v), k) == Some(Text(v))
  {
    var r := Upsert(head, k, v);
    match Find(head, k)
    case None =>
      assert Find(r, k) == Some(|head|) by { FindAt(r, k, |head|); }
    case Some(i) =>
      assert Find(r, k) == Some(i) by { FindAt(r, k, i); }
  }

  /** Every other key reads as before. */
  lemma UpsertFrame(head: seq<Element>, k: Key, v: string, other: Key)
    requires other != k
    ensures Lookup(Upsert(head, k, v), other) == Lookup(head, other)
  {
    var r := Upsert(head, k, v);
    match Find(head, other)
    case None =>
      assert Find(r, other).None?;
    case Some(i) =>
      FindAt(r, other, i);
  }

  lemma {:induction false} FindAt(head: seq<Element>, k: Key, i: nat)
    requires i < |head| && head[i].key == k
    requires forall j :: 0 <= j < i ==> head[j].key != k
    ensures Find(head, k) == Some(i)
  {
    if i > 0 {
      FindAt(head[1..], k, i - 1);
    }
  }

  /** Writing what is already there changes nothing. */
  lemma UpsertAgain(head: seq<Element>, k: Key, v: string)
    requires Lookup(head, k) == Some(Text(v))
    ensures Upsert(head, k, v) == head
  {
  }

  /** Applying an upsert twice is applying it once. */
  lemma UpsertIdempotent(head: seq<Element>, k: Key, v: string)
    ensures Upsert(Upsert(head, k, v), k, v) == Upsert(head, k, v)
  {
    UpsertReads(head, k, v);
    UpsertAgain(Upsert(head, k, v), k, v);
  }

  // A whole batch of writes.

  datatype Write = Write(key: Key, value: string)

  function ApplyAll(head: seq<Element>, ws: seq<Write>): seq<Element>
    decreases |ws|
  {
    if |ws| == 0 then head else ApplyAll(Upsert(head, ws[0].key, ws[0].value), ws[1..])
  }

  predicate DistinctKeys(ws: seq<Write>) {
    forall i, j :: 0 <= i < j < |ws| ==> ws[i].key != ws[j].key
  }

  lemma {:induction false} ApplyAllFrame(head: seq<Element>, ws: seq<Write>, k: Key)
    requires forall i :: 0 <= i < |ws| ==> ws[i].key != k
    ensures Lookup(ApplyAll(head, ws), k) == Lookup(head, k)
    decreases |ws|
  {
    if |ws| > 0 {
      UpsertFrame(head, ws[0].key, ws[0].value, k);
      ApplyAllFrame(Upsert(head, ws[0].key, ws[0].value), ws[1..], k);
    }
  }

  /** After a batch of writes to distinct keys, each key reads its value. */
  lemma {:induction false} ApplyAllReads(head: seq<Element>, ws: seq<Write>, i: nat)
    requires DistinctKeys(ws) && i < |ws|
    ensures Lookup(ApplyAll(head, ws), ws[i].key) == Some(Text(ws[i].value))
    decreases |ws|
  {
    var h := Upsert(head, ws[0].key, ws[0].value);
    if i == 0 {
      UpsertReads(head, ws[0].key, ws[0].value);
      ApplyAllFrame(h, ws[1..], ws[0].key);
    } else {
      ApplyAllReads(h, ws[1..], i - 1);
    }
  }

  lemma {:induction false} ApplyAllAgain(head: seq<Element>, ws: seq<Write>)
    requires forall i :: 0 <= i < |ws| ==> Lookup(head, ws[i].key) == Some(Text(ws[i].value))
    ensures ApplyAll(head, ws) == head
    decreases |ws|
  {
    if |ws| > 0 {
      UpsertAgain(head, ws[0].key, ws[0].value);
      ApplyAllAgain(head, ws[1..]);
    }
  }

  /** Re-applying a batch of writes to distinct keys changes nothing. */
  lemma ApplyAllIdempotent(head: seq<Element>, ws: seq<Write>)
    requires DistinctKeys(ws)
    ensures ApplyAll(ApplyAll(head, ws), ws) == ApplyAll(head, ws)
  {
    forall i | 0 <= i < |ws| ensures Lookup(ApplyAll(head, ws), ws[i].key) == Some(Text(ws[i].value)) {
      ApplyAllReads(head, ws, i);
    }
    ApplyAllAgain(ApplyAll(head, ws), ws);
  }

  // The component.

  /** An optional string prop, with JavaScript truthiness. */
  predicate Given(s: Option<string>) {
    s.Some? && s.value != ""
  }

  datatype Props = Props(title: string, description: string, keywords: Option<string>,
    image: Option<string>, url: Option<string>, kind: Option<string>, author: Option<string>,
    publishedTime: Option<string>, modifiedTime: Option<string>)

  /** The `og:type` value: the `type` prop, or "website" when the prop is absent.
      Like a JavaScript default parameter, an explicit empty string is kept. */
  function KindOf(p: Props): (k: string)
    ensures p.kind.None? ==> k == "website"
    ensures p.kind.Some? ==> k == p.kind.value
  {
    if p.kind.Some? then p.kind.value else "website"
  }

  /** The document title: "title | Stachbit", or just the site name. */
  function PageTitle(title: string): (r: string)
    ensures title == "" ==> r == SiteName
    ensures title != "" ==> r == title + " | " + SiteName
  {
    if title != "" then title + " | " + SiteName else SiteName
  }

  function FullUrl(url: Option<string>): (r: string)
    ensures Given(url) ==> r == BaseUrl + url.value
    ensures !Given(url) ==> r == BaseUrl
  {
    if Given(url) then BaseUrl + url.value else BaseUrl
  }

  function OgImageOf(image: Option<string>): (r: string)
    ensures Given(image) ==> r == image.value
    ensures !Given(image) ==> r == DefaultImage
  {
    if Given(image) then image.value else DefaultImage
  }

  /** A write that happens only when its value is given. */
  function Optional(t: Tag, v: Option<string>): (r: seq<Write>)
    ensures |r| <= 1
    ensures Given(v) ==> r == [Write(Meta(t), v.value)]
    ensures !Given(v) ==> r == []
  {
    if Given(v) then [Write(Meta(t), v.value)] else []
  }

  /** The Open Graph and Twitter Card writes. */
  function CardWrites(p: Props): (ws: seq<Write>)
    ensures |ws| == 10
  {
    var image := OgImageOf(p.image);
    [Write(Meta(OgTitle), p.title), Write(Meta(OgDescription), p.description),
     Write(Meta(OgImage), image), Write(Meta(OgUrl), FullUrl(p.url)),
     Write(Meta(OgType), KindOf(p)), Write(Meta(OgSiteName), SiteName),
     Write(Meta(TwitterCard), "summary_large_image"), Write(Meta(TwitterTitle), p.title),
     Write(Meta(TwitterDescription), p.description), Write(Meta(TwitterImage), image)]
  }

  /** The article writes: only on articles, and each only when given. */
  function ArticleWrites(p: Props): (ws: seq<Write>)
    ensures KindOf(p) != "article" ==> ws == []
  {
    if KindOf(p) == "article" then
      Optional(ArticleAuthor, p.author) + Optional(ArticlePublished, p.publishedTime)
      + Optional(ArticleModified, p.modifiedTime)
    else []
  }

  /** The writes of the effect, in order. */
  function Writes(p: Props): (ws: seq<Write>)
    ensures |ws| > 0 && ws[|ws| - 1] == Write(Canonical, FullUrl(p.url))
  {
    [Write(Meta(Description), p.description)] + Optional(Keywords, p.keywords)
    + CardWrites(p) + ArticleWrites(p) + [Write(Canonical, FullUrl(p.url))]
  }

  /** Position of a key in the order the effect writes them. */
  function Rank(k: Key): nat {
    match k
    case Meta(t) => (match t
      case Description => 0 case Keywords => 1
      case OgTitle => 2 case OgDescription => 3 case OgImage => 4 case OgUrl => 5
      case OgType => 6 case OgSiteName => 7
      case TwitterCard => 8 case TwitterTitle => 9 case TwitterDescription => 10 case TwitterImage => 11
      case ArticleAuthor => 12 case ArticlePublished => 13 case ArticleModified => 14)
    case Canonical => 15
    case StructuredData => 16
    case Other(id) => 17 + id
  }

  predicate Ranked(ws: seq<Write>) {
    forall i, j :: 0 <= i < j < |ws| ==> Rank(ws[i].key) < Rank(ws[j].key)
  }

  /** All ranks of `ws` lie in `[lo, hi)`. */
  predicate Within(ws: seq<Write>, lo: nat, hi: nat) {
    forall i :: 0 <= i < |ws| ==> lo <= Rank(ws[i].key) < hi
  }

  lemma RankedAppend(a: seq<Write>, b: seq<Write>, lo: nat, mid: nat, hi: nat)
    requires lo <= mid <= hi
    requires Ranked(a) && Ranked(b) && Within(a, lo, mid) && Within(b, mid, hi)
    ensures Ranked(a + b) && Within(a + b, lo, hi)
  {
    var ab := a + b;
    forall i, j | 0 <= i < j < |ab| ensures Rank(ab[i].key) < Rank(ab[j].key) {
      if j < |a| {
        assert ab[i] == a[i] && ab[j] == a[j];
      } else if i >= |a| {
        assert ab[i] == b[i - |a|] && ab[j] == b[j - |a|];
      } else {
        assert ab[i] == a[i] && ab[j] == b[j - |a|];
      }
    }
    forall i | 0 <= i < |ab| ensures lo <= Rank(ab[i].key) < hi {
      if i < |a| { assert ab[i] == a[i]; } else { assert ab[i] == b[i - |a|]; }
    }
  }

  lemma OptionalRanked(t: Tag, v: Option<string>)
    ensures Ranked(Optional(t, v)) && Within(Optional(t, v), Rank(Meta(t)), Rank(Meta(t)) + 1)
  {
  }

  lemma CardRanked(p: Props)
    ensures Ranked(CardWrites(p)) && Within(CardWrites(p), 2, 12)
  {
    var ws := CardWrites(p);
    assert forall i :: 0 <= i < 10 ==> Rank(ws[i].key) == i + 2;
  }

  lemma ArticleRanked(p: Props)
    ensures Ranked(ArticleWrites(p)) && Within(ArticleWrites(p), 12, 15)
  {
    if KindOf(p) == "article" {
      OptionalRanked(ArticleAuthor, p.author);
      OptionalRanked(ArticlePublished, p.publishedTime);
      OptionalRanked(ArticleModified, p.modifiedTime);
      RankedAppend(Optional(ArticleAuthor, p.author), Optional(ArticlePublished, p.publishedTime), 12, 13, 14);
      RankedAppend(Optional(ArticleAuthor, p.author) + Optional(ArticlePublished, p.publishedTime),
                   Optional(ArticleModified, p.modifiedTime), 12, 14, 15);
    }
  }

  /** No key is written twice by one run of the effect. */
  lemma WritesDistinct(p: Props)
    ensures DistinctKeys(Writes(p))
  {
    var p1 := [Write(Meta(Description), p.description)];
    var p2 := Optional(Keywords, p.keywords);
    var p3 := CardWrites(p);
    var p4 := ArticleWrites(p);
    var p5 := [Write(Canonical, FullUrl(p.url))];
    OptionalRanked(Keywords, p.keywords);
    CardRanked(p);
    ArticleRanked(p);
    RankedAppend(p1, p2, 0, 1, 2);
    RankedAppend(p1 + p2, p3, 0, 2, 12);
    RankedAppend(p1 + p2 + p3, p4, 0, 12, 15);
    RankedAppend(p1 + p2 + p3 + p4, p5, 0, 15, 16);
    assert Writes(p) == p1 + p2 + p3 + p4 + p5;
  }

  /** The effect of mounting (or re-rendering with new props). */
  function Mount(d: Document, p: Props): (r: Document)
    ensures r.title == PageTitle(p.title)
  {
    Document(PageTitle(p.title), ApplyAll(d.head, Writes(p)))
  }

  /** The cleanup only resets the title; the tags stay in the head. */
  function Unmount(d: Document): (r: Document)
    ensures r.title == SiteName && r.head == d.head
  {
    d.(title := SiteName)
  }

  /** Rendering twice with the same props is rendering once. */
  lemma MountIdempotent(d: Document, p: Props)
    ensures Mount(Mount(d, p), p) == Mount(d, p)
  {
    WritesDistinct(p);
    ApplyAllIdempotent(d.head, Writes(p));
  }

  /** After mounting, each written tag reads its value. */
  lemma MountReads(d: Document, p: Props, w: Write)
    requires w in Writes(p)
    ensures Lookup(Mount(d, p).head, w.key) == Some(Text(w.value))
  {
    WritesDistinct(p);
    var i :| 0 <= i < |Writes(p)| && Writes(p)[i] == w;
    ApplyAllReads(d.head, Writes(p), i);
  }

  /** The canonical link is the full url. */
  lemma CanonicalIsFullUrl(d: Document, p: Props)
    ensures Lookup(Mount(d, p).head, Canonical) == Some(Text(FullUrl(p.url)))
  {
    MountReads(d, p, Write(Canonical, FullUrl(p.url)));
  }

  /** `og:type` carries the `type` prop, and "website" when it is absent. */
  lemma OgTypeDefaultsToWebsite(d: Document, p: Props)
    ensures p.kind.None? ==> Lookup(Mount(d, p).head, Meta(OgType)) == Some(Text("website"))
    ensures p.kind.Some? ==> Lookup(Mount(d, p).head, Meta(OgType)) == Some(Text(p.kind.value))
  {
    var w := Write(Meta(OgType), KindOf(p));
    var pre := [Write(Meta(Description), p.description)] + Optional(Keywords, p.keywords);
    assert Writes(p)[|pre| + 4] == CardWrites(p)[4] == w;
    MountReads(d, p, w);
  }

  /** The keywords tag is written only when keywords are given. */
  lemma KeywordsOnlyWhenGiven(d: Document, p: Props)
    ensures Given(p.keywords) ==> Lookup(Mount(d, p).head, Meta(Keywords)) == Some(Text(p.keywords.value))
    ensures !Given(p.keywords) ==> Lookup(Mount(d, p).head, Meta(Keywords)) == Lookup(d.head, Meta(Keywords))
  {
    var ws := Writes(p);
    if Given(p.keywords) {
      assert ws[1] == Write(Meta(Keywords), p.keywords.value);
      MountReads(d, p, ws[1]);
    } else {
      WritesAvoid(p, Meta(Keywords));
      ApplyAllFrame(d.head, ws, Meta(Keywords));
    }
  }

  /** The writes skip the keywords tag when no keywords are given, and the
      article tags on pages that are not articles: their ranks fall outside
      the ranks of every write that happens. */
  lemma WritesAvoid(p: Props, k: Key)
    requires || (k == Meta(Keywords) && !Given(p.keywords))
             || (12 <= Rank(k) < 15 && KindOf(p) != "article")
    ensures forall i :: 0 <= i < |Writes(p)| ==> Writes(p)[i].key != k
  {
    var head := [Write(Meta(Description), p.description)] + Optional(Keywords, p.keywords);
    var mid := CardWrites(p) + ArticleWrites(p);
    var ws := Writes(p);
    assert ws == head + mid + [Write(Canonical, FullUrl(p.url))];
    CardRanked(p);
    ArticleRanked(p);
    RankedAppend(CardWrites(p), ArticleWrites(p), 2, 12, 15);
    forall i | 0 <= i < |ws| ensures ws[i].key != k {
      if i < |head| {
        assert ws[i] == head[i];
      } else if i < |head| + |mid| {
        assert ws[i] == mid[i - |head|];
      }
    }
  }

  /** Article tags are left alone on pages that are not articles. */
  lemma ArticleTagsOnlyForArticles(d: Document, p: Props, t: Tag)
    requires KindOf(p) != "article"
    requires t == ArticleAuthor || t == ArticlePublished || t == ArticleModified
    ensures Lookup(Mount(d, p).head, Meta(t)) == Lookup(d.head, Meta(t))
  {
    WritesAvoid(p, Meta(t));
    ApplyAllFrame(d.head, Writes(p), Meta(t));
  }

  // Structured data.

  /** The structured-data payload of `ArticleStructuredData`. */
  function ArticleOf(title: string, description: string, image: Option<string>, url: string,
                     author: string, publishedTime: string, modifiedTime: Option<string>): (a: Article)
    ensures a.dateModified == if Given(modifiedTime) then modifiedTime.value else publishedTime
    ensures a.url == BaseUrl + url && a.image == OgImageOf(image)
  {
    Article(title, description, OgImageOf(image), BaseUrl + url, author, publishedTime,
            if Given(modifiedTime) then modifiedTime.value else publishedTime)
  }

  function Count(head: seq<Element>, k: Key): (n: nat)
    ensures n == 0 <==> Find(head, k).None?
  {
    if |head| == 0 then 0 else (if head[0].key == k then 1 else 0) + Count(head[1..], k)
  }

  /** `getElementById(id)?.remove()`: drop the first match, if any. */
  function RemoveFirst(head: seq<Element>, k: Key): (r: seq<Element>)
    ensures Find(head, k).None? ==> r == head
    ensures Find(head, k).Some? ==> Count(r, k) + 1 == Count(head, k)
    ensures forall e :: e in r ==> e in head
  {
    if |head| == 0 then []
    else if head[0].key == k then head[1..]
    else [head[0]] + RemoveFirst(head[1..], k)
  }

  lemma {:induction false} CountAppend(head: seq<Element>, e: Element, k: Key)
    ensures Count(head + [e], k) == Count(head, k) + (if e.key == k then 1 else 0)
  {
    if |head| > 0 {
      CountAppend(head[1..], e, k);
      assert (head + [e])[1..] == head[1..] + [e];
    } else {
      assert (head + [e])[1..] == [];
    }
  }

  /** The effect: remove an existing script, then append the new one. */
  function MountArticle(head: seq<Element>, a: Article): (r: seq<Element>)
    ensures |r| > 0 && r[|r| - 1] == Element(StructuredData, Json(a))
  {
    RemoveFirst(head, StructuredData) + [Element(StructuredData, Json(a))]
  }

  /** The cleanup removes the script again. */
  function UnmountArticle(head: seq<Element>): seq<Element> {
    RemoveFirst(head, StructuredData)
  }

  /** With at most one script before, there is exactly one after mounting,
      and none after the cleanup. */
  lemma ExactlyOneScript(head: seq<Element>, a: Article)
    requires Count(head, StructuredData) <= 1
    ensures Count(MountArticle(head, a), StructuredData) == 1
    ensures Count(UnmountArticle(MountArticle(head, a)), StructuredData) == 0
  {
    var rest := RemoveFirst(head, StructuredData);
    CountAppend(rest, Element(StructuredData, Json(a)), StructuredData);
  }
}

=== FILE: settings.dfy ===
/**
 * The pure parts of the data-access helpers: turning key/value rows into
 * settings records with defaults, de-duplicating blog categories, and the
 * row window of a paged blog query. The queries themselves are inputs.
 */
module Settings {
  import opened Common

  /** One fetched key/value row; a SQL null value is `None`. */
  datatype Row = Row(key: string, value: Option<string>)

  /** What a query hands back: an error flag and, possibly, rows. */
  datatype Response<T> = Response(failed: bool, data: Option<seq<T>>)

  /** `value || ''`. */
  function Text(v: Option<string>): string {
    v.GetOr("")
  }

  /** The one key a plain `{}` record cannot hold as its own entry: assigning
      a string to `__proto__` goes to the prototype setter, which ignores
      anything that is not an object. */
  const ProtoKey: string := "__proto__"

  /** Whether `record[key] = text` makes an entry in a plain `{}` record. */
  predicate Storable(key: string) {
    key != ProtoKey
  }

  /** The rows folded into a record, in order, so a later row for the same key
      overwrites an earlier one; a `__proto__` row leaves no entry. */
  function Collect(rows: seq<Row>): (m: map<string, string>)
    ensures forall k :: k in m <==> Storable(k) && exists i :: 0 <= i < |rows| && rows[i].key == k
  {
    if |rows| == 0 then map[]
    else
      var last := rows[|rows| - 1];
      var m0 := Collect(rows[..|rows| - 1]);
      assert forall i :: 0 <= i < |rows| - 1 ==> rows[..|rows| - 1][i] == rows[i];
      Put(m0, last)
  }

  /** `record[row.key] = row.value || ''` on a plain `{}` record. */
  function Put(m: map<string, string>, row: Row): map<string, string> {
    if Storable(row.key) then m[row.key := Text(row.value)] else m
  }

  /** A `__proto__` row changes nothing, wherever it stands. */
  lemma {:induction false} ProtoRowIgnored(rows: seq<Row>, v: Option<string>, tail: seq<Row>)
    ensures Collect(rows + [Row(ProtoKey, v)] + tail) == Collect(rows + tail)
    decreases |tail|
  {
    var xs := rows + [Row(ProtoKey, v)] + tail;
    var ys := rows + tail;
    if |tail| == 0 {
      assert xs[..|xs| - 1] == rows && ys == rows;
      CollectSnoc(xs);
    } else {
      var n := |tail| - 1;
      var last := tail[n];
      assert xs[..|xs| - 1] == rows + [Row(ProtoKey, v)] + tail[..n];
      assert ys[..|ys| - 1] == rows + tail[..n];
      assert xs[|xs| - 1] == last && ys[|ys| - 1] == last;
      var cx := Collect(xs[..|xs| - 1]);
      var cy := Collect(ys[..|ys| - 1]);
      assert cx == cy by {
        ProtoRowIgnored(rows, v, tail[..n]);
      }
      CollectSnoc(xs);
      CollectSnoc(ys);
    }
  }

  /** One unfolding of the fold: the record of all but the last row, with the
      last row written into it. */
  lemma CollectSnoc(xs: seq<Row>)
    requires |xs| > 0
    ensures Collect(xs) == Put(Collect(xs[..|xs| - 1]), xs[|xs| - 1])
  {
  }

  /** Row `i` is the last one carrying its key. */
  predicate LastFor(rows: seq<Row>, i: nat) {
    i < |rows| && forall j :: i < j < |rows| ==> rows[j].key != rows[i].key
  }

  /** Last write wins: each key maps to the value of the last row carrying it. */
  lemma {:induction false} CollectLast(rows: seq<Row>, i: nat)
    requires LastFor(rows, i)
    ensures Storable(rows[i].key) ==>
      rows[i].key in Collect(rows) && Collect(rows)[rows[i].key] == Text(rows[i].value)
  {
    var n := |rows| - 1;
    if i < n {
      assert LastFor(rows[..n], i) by {
        forall j | i < j < n ensures rows[..n][j].key != rows[..n][i].key {
          assert rows[..n][j] == rows[j];
        }
      }
      CollectLast(rows[..n], i);
      assert rows[..n][i] == rows[i];
    }
  }

  /** `record.key || fallback`: the stored text when present and non-empty. */
  function Pick(m: map<string, string>, key: string, fallback: string): (r: string)
    ensures r == fallback || (key in m && r == m[key] && r != "")
  {
    if key in m && m[key] != "" then m[key] else fallback
  }

  datatype ContactSettings = ContactSettings(
    email: string, phone: string, location: string, address: string,
    responseTime: string, whatsapp: string, businessHours: string, supportEmail: string)

  const DefaultContact: ContactSettings := ContactSettings(
    "hello@stachbit.in", "+91 98765 43210", "India", "",
    "Within 24 hours", "+919876543210", "Mon-Fri: 9AM - 6PM IST", "support@stachbit.in")

  /** The eight contact settings, each stored under its own row key. */
  datatype ContactKey = EmailKey | PhoneKey | LocationKey | AddressKey
    | ResponseTimeKey | WhatsappKey | BusinessHoursKey | SupportEmailKey

  function KeyName(k: ContactKey): string {
    match k
    case EmailKey => "contact_email"
    case PhoneKey => "contact_phone"
    case LocationKey => "contact_location"
    case AddressKey => "contact_address"
    case ResponseTimeKey => "response_time"
    case WhatsappKey => "whatsapp_number"
    case BusinessHoursKey => "business_hours"
    case SupportEmailKey => "support_email"
  }

  /** The field of a contact record that a key feeds. */
  function Field(c: ContactSettings, k: ContactKey): string {
    match k
    case EmailKey => c.email
    case PhoneKey => c.phone
    case LocationKey => c.location
    case AddressKey => c.address
    case ResponseTimeKey => c.responseTime
    case WhatsappKey => c.whatsapp
    case BusinessHoursKey => c.businessHours
    case SupportEmailKey => c.supportEmail
  }

  /** A contact record is determined by its eight fields. */
  lemma FieldsDetermine(c: ContactSettings, d: ContactSettings)
    requires forall k :: Field(c, k) == Field(d, k)
    ensures c == d
  {
    assert Field(c, EmailKey) == Field(d, EmailKey);
    assert Field(c, PhoneKey) == Field(d, PhoneKey);
    assert Field(c, LocationKey) == Field(d, LocationKey);
    assert Field(c, AddressKey) == Field(d, AddressKey);
    assert Field(c, ResponseTimeKey) == Field(d, ResponseTimeKey);
    assert Field(c, WhatsappKey) == Field(d, WhatsappKey);
    assert Field(c, BusinessHoursKey) == Field(d, BusinessHoursKey);
    assert Field(c, SupportEmailKey) == Field(d, SupportEmailKey);
  }

  function ContactFrom(m: map<string, string>): (c: ContactSettings)
    ensures forall k :: Field(c, k) == Pick(m, KeyName(k), Field(DefaultContact, k))
  {
    ContactSettings(
      Pick(m, KeyName(EmailKey), DefaultContact.email),
      Pick(m, KeyName(PhoneKey), DefaultContact.phone),
      Pick(m, KeyName(LocationKey), DefaultContact.location),
      Pick(m, KeyName(AddressKey), DefaultContact.address),
      Pick(m, KeyName(ResponseTimeKey), DefaultContact.responseTime),
      Pick(m, KeyName(WhatsappKey), DefaultContact.whatsapp),
      Pick(m, KeyName(BusinessHoursKey), DefaultContact.businessHours),
      Pick(m, KeyName(SupportEmailKey), DefaultContact.supportEmail))
  }

  /** `getContactSettings`: the defaults on error or missing data, otherwise
      each field from its row when non-empty. */
  function GetContactSettings(resp: Response<Row>): (c: ContactSettings)
    ensures resp.failed || resp.data.None? ==> c == DefaultContact
  {
    if resp.failed || resp.data.None? then DefaultContact
    else ContactFrom(Collect(resp.data.value))
  }

  /** Rows that mention none of the contact keys give exactly the defaults of
      the error path. */
  lemma IrrelevantRowsGiveDefaults(rows: seq<Row>)
    requires forall i, k :: 0 <= i < |rows| ==> rows[i].key != KeyName(k)
    ensures GetContactSettings(Response(false, Some(rows))) == DefaultContact
  {
    var m := Collect(rows);
    assert forall k :: KeyName(k) !in m;
    FieldsDetermine(ContactFrom(m), DefaultContact);
  }

  /** A contact field is the last row's value for its key when that value is
      non-empty, and the default otherwise (a null value counts as empty). */
  lemma ContactFieldFromLastRow(rows: seq<Row>, i: nat, k: ContactKey)
    requires LastFor(rows, i) && rows[i].key == KeyName(k)
    ensures var c := GetContactSettings(Response(false, Some(rows)));
      var v := Text(rows[i].value);
      Field(c, k) == if v != "" then v else Field(DefaultContact, k)
  {
    CollectLast(rows, i);
  }

  /** A key with no row at all keeps its default. */
  lemma ContactFieldWithoutRow(rows: seq<Row>, k: ContactKey)
    requires forall i :: 0 <= i < |rows| ==> rows[i].key != KeyName(k)
    ensures Field(GetContactSettings(Response(false, Some(rows))), k) == Field(DefaultContact, k)
  {
  }

  /** A row whose key is not a contact key changes nothing. */
  lemma UnknownKeyIgnored(rows: seq<Row>, extra: Row)
    requires forall k :: extra.key != KeyName(k)
    ensures GetContactSettings(Response(false, Some(rows + [extra])))
         == GetContactSettings(Response(false, Some(rows)))
  {
    var xs := rows + [extra];
    assert xs[..|xs| - 1] == rows;
    var m := Collect(rows);
    var m' := Collect(xs);
    assert m' == if Storable(extra.key) then m[extra.key := Text(extra.value)] else m;
    forall k
      ensures && (KeyName(k) in m' <==> KeyName(k) in m)
              && (KeyName(k) in m ==> m'[KeyName(k)] == m[KeyName(k)])
    {
      assert KeyName(k) != extra.key;
    }
    FieldsDetermine(ContactFrom(m), ContactFrom(m'));
  }

  datatype SocialLinks = SocialLinks(
    twitter: string, facebook: string, instagram: string,
    linkedin: string, youtube: string, github: string)

  const NoLinks: SocialLinks := SocialLinks("", "", "", "", "", "")

  /** The six platforms, each stored under its own row key. */
  datatype Platform = Twitter | Facebook | Instagram | LinkedIn | YouTube | GitHub

  function PlatformName(p: Platform): string {
    match p
    case Twitter => "twitter"
    case Facebook => "facebook"
    case Instagram => "instagram"
    case LinkedIn => "linkedin"
    case YouTube => "youtube"
    case GitHub => "github"
  }

  /** The link of a record that a platform feeds. */
  function Link(s: SocialLinks, p: Platform): string {
    match p
    case Twitter => s.twitter
    case Facebook => s.facebook
    case Instagram => s.instagram
    case LinkedIn => s.linkedin
    case YouTube => s.youtube
    case GitHub => s.github
  }

  /** `getSocialLinks`: the same merge with empty defaults; the error path
      gives all-empty links. */
  function GetSocialLinks(resp: Response<Row>): (s: SocialLinks)
    ensures resp.failed || resp.data.None? ==> s == NoLinks
    ensures !resp.failed && resp.data.Some? ==>
      var m := Collect(resp.data.value);
      forall p :: Link(s, p) == if PlatformName(p) in m then m[PlatformName(p)] else ""
  {
    if resp.failed || resp.data.None? then NoLinks
    else LinksFrom(Collect(resp.data.value))
  }

  function LinksFrom(m: map<string, string>): (s: SocialLinks)
    ensures forall p :: Link(s, p) == if PlatformName(p) in m then m[PlatformName(p)] else ""
  {
    SocialLinks(
      Pick(m, PlatformName(Twitter), ""), Pick(m, PlatformName(Facebook), ""),
      Pick(m, PlatformName(Instagram), ""), Pick(m, PlatformName(LinkedIn), ""),
      Pick(m, PlatformName(YouTube), ""), Pick(m, PlatformName(GitHub), ""))
  }

  /** Every link is the last row's url for its platform (a null url counts
      as empty). */
  lemma SocialFromLastRow(rows: seq<Row>, i: nat, p: Platform)
    requires LastFor(rows, i) && rows[i].key == PlatformName(p)
    ensures Link(GetSocialLinks(Response(false, Some(rows))), p) == Text(rows[i].value)
  {
    CollectLast(rows, i);
  }

  /** A platform with no row has an empty link. */
  lemma SocialWithoutRow(rows: seq<Row>, p: Platform)
    requires forall i :: 0 <= i < |rows| ==> rows[i].key != PlatformName(p)
    ensures Link(GetSocialLinks(Response(false, Some(rows))), p) == ""
  {
  }

  /** `getSiteSettings`: no record on error; otherwise every public key with
      its last value (or ''). */
  function GetSiteSettings(resp: Response<Row>): (r: Option<map<string, string>>)
    ensures r.None? <==> resp.failed
    ensures r.Some? ==> forall k :: k in r.value <==>
      resp.data.Some? && Storable(k) && exists i :: 0 <= i < |resp.data.value| && resp.data.value[i].key == k
    ensures r.Some? && resp.data.Some? ==> forall i: nat :: LastFor(resp.data.value, i) && Storable(resp.data.value[i].key) ==>
      resp.data.value[i].key in r.value && r.value[resp.data.value[i].key] == Text(resp.data.value[i].value)
  {
    if resp.failed then None
    else if resp.data.None? then Some(map[])
    else CollectAllLast(resp.data.value); Some(Collect(resp.data.value))
  }

  /** Every key's entry is the value of the last row carrying it. */
  lemma CollectAllLast(rows: seq<Row>)
    ensures forall i: nat :: LastFor(rows, i) && Storable(rows[i].key) ==>
      rows[i].key in Collect(rows) && Collect(rows)[rows[i].key] == Text(rows[i].value)
  {
    forall i: nat | LastFor(rows, i) && Storable(rows[i].key)
      ensures rows[i].key in Collect(rows) && Collect(rows)[rows[i].key] == Text(rows[i].value)
    {
      CollectLast(rows, i);
    }
  }

  // Blog categories.

  predicate NoDuplicates(xs: seq<string>) {
    forall i, j :: 0 <= i < j < |xs| ==> xs[i] != xs[j]
  }

  /** `.filter(Boolean)` on the category column: drops nulls and ''. */
  function Present(cats: seq<Option<string>>): (r: seq<string>)
    ensures forall x :: x in r <==> x != "" && Some(x) in cats
  {
    if |cats| == 0 then []
    else (if cats[0].Some? && cats[0].value != "" then [cats[0].value] else []) + Present(cats[1..])
  }

  /** Filtering keeps the order: the kept values of a concatenation are the
      kept values of each part, one after the other. */
  lemma {:induction false} PresentConcat(a: seq<Option<string>>, b: seq<Option<string>>)
    ensures Present(a + b) == Present(a) + Present(b)
  {
    if |a| > 0 {
      assert (a + b)[1..] == a[1..] + b;
      PresentConcat(a[1..], b);
    } else {
      assert a + b == b;
    }
  }

  /** Filtering keeps the order of first appearances: a value first kept
      before another also first appears before it among the raw categories. */
  lemma {:induction false} PresentFirstOrder(cats: seq<Option<string>>, x: string, y: string)
    requires x in Present(cats) && y in Present(cats)
    requires FirstIndex(Present(cats), x) < FirstIndex(Present(cats), y)
    ensures Some(x) in cats && Some(y) in cats
    ensures FirstIndex(cats, Some(x)) < FirstIndex(cats, Some(y))
  {
    var p := Present(cats);
    var rest := cats[1..];
    assert x != y;
    if cats[0] == Some(x) {
      assert FirstIndex(cats, Some(x)) == 0;
    } else if cats[0] == Some(y) {
      assert false;
    } else {
      var h := if cats[0].Some? && cats[0].value != "" then [cats[0].value] else [];
      assert p == h + Present(rest);
      if h == [] {
        assert p == Present(rest);
      } else {
        assert p[0] != x && p[0] != y;
        assert p[1..] == Present(rest);
      }
      PresentFirstOrder(rest, x, y);
    }
  }

  /** `[...new Set(xs)]`: each value once, at its first occurrence. */
  function Unique(xs: seq<string>): (r: seq<string>)
    ensures NoDuplicates(r)
    ensures forall x :: x in r <==> x in xs
  {
    if |xs| == 0 then []
    else
      var u := Unique(xs[..|xs| - 1]);
      assert forall x :: x in xs[..|xs| - 1] ==> x in xs;
      assert forall x :: x in xs ==> x in xs[..|xs| - 1] || x == xs[|xs| - 1];
      if xs[|xs| - 1] in u then u else u + [xs[|xs| - 1]]
  }

  /** Index of the first occurrence of `x`. */
  function FirstIndex<T(==)>(xs: seq<T>, x: T): (r: nat)
    requires x in xs
    ensures r < |xs| && xs[r] == x && x !in xs[..r]
  {
    if xs[0] == x then 0 else 1 + FirstIndex(xs[1..], x)
  }

  /** The categories come out in order of their first appearance. */
  lemma {:induction false} UniqueFirstOrder(xs: seq<string>, i: nat, j: nat)
    requires i < j < |Unique(xs)|
    ensures FirstIndex(xs, Unique(xs)[i]) < FirstIndex(xs, Unique(xs)[j])
  {
    var n := |xs| - 1;
    var init := xs[..n];
    var u := Unique(init);
    var a := Unique(xs)[i];
    var b := Unique(xs)[j];
    assert forall x :: x in init ==> FirstIndex(xs, x) == FirstIndex(init, x) by {
      forall x | x in init ensures FirstIndex(xs, x) == FirstIndex(init, x) {
        FirstIndexPrefix(xs, n, x);
      }
    }
    if j < |u| {
      UniqueFirstOrder(init, i, j);
    } else {
      assert b == xs[n] && b !in u && b !in init;
      assert a in init;
      FirstIndexPrefix(xs, n, a);
      assert FirstIndex(xs, b) == n by {
        FirstIndexLast(xs, b);
      }
    }
  }

  lemma FirstIndexPrefix(xs: seq<string>, n: nat, x: string)
    requires n <= |xs| && x in xs[..n]
    ensures FirstIndex(xs, x) == FirstIndex(xs[..n], x)
  {
    var k := FirstIndex(xs[..n], x);
    FirstIndexAt(xs, x, k);
  }

  lemma FirstIndexLast(xs: seq<string>, x: string)
    requires |xs| > 0 && x == xs[|xs| - 1] && x !in xs[..|xs| - 1]
    ensures FirstIndex(xs, x) == |xs| - 1
  {
    FirstIndexAt(xs, x, |xs| - 1);
  }

  /** The first occurrence is the index holding `x` with none before it. */
  lemma {:induction false} FirstIndexAt(xs: seq<string>, x: string, k: nat)
    requires k < |xs| && xs[k] == x && forall j :: 0 <= j < k ==> xs[j] != x
    ensures FirstIndex(xs, x) == k
  {
    if k > 0 {
      assert xs[0] != x;
      FirstIndexAt(xs[1..], x, k - 1);
    }
  }

  /** `getBlogCategories`: no list on error, otherwise the distinct non-empty
      categories in order of first appearance. */
  function GetBlogCategories(resp: Response<Option<string>>): (r: Option<seq<string>>)
    ensures r.None? <==> resp.failed
    ensures r.Some? ==> NoDuplicates(r.value)
    ensures r.Some? ==> forall x :: x in r.value <==>
      x != "" && resp.data.Some? && Some(x) in resp.data.value
  {
    if resp.failed then None
    else if resp.data.None? then Some([])
    else Some(Unique(Present(resp.data.value)))
  }

  /** The categories come out in order of their first appearance among the
      rows: of two listed categories, the earlier is the one met first. */
  lemma CategoriesFirstOrder(resp: Response<Option<string>>, i: nat, j: nat)
    requires !resp.failed && resp.data.Some? && i < j < |GetBlogCategories(resp).value|
    ensures var r := GetBlogCategories(resp).value;
      Some(r[i]) in resp.data.value && Some(r[j]) in resp.data.value &&
      FirstIndex(resp.data.value, Some(r[i])) < FirstIndex(resp.data.value, Some(r[j]))
  {
    var p := Present(resp.data.value);
    UniqueFirstOrder(p, i, j);
    PresentFirstOrder(resp.data.value, Unique(p)[i], Unique(p)[j]);
  }

  // Paging of the blog query.

  /** JavaScript truthiness of an optional number: present and non-zero. */
  predicate Truthy(n: Option<int>) {
    n.Some? && n.value != 0
  }

  /** The inclusive row range `.range(offset, offset + (limit || 10) - 1)`,
      applied only when the offset is truthy. */
  function RowWindow(limit: Option<int>, offset: Option<int>): (r: Option<(int, int)>)
    ensures r.Some? <==> Truthy(offset)
    ensures r.Some? ==>
      && r.value.0 == offset.value
      && r.value.1 - r.value.0 + 1 == (if Truthy(limit) then limit.value else 10)
  {
    if !Truthy(offset) then None
    else
      var size := if Truthy(limit) then limit.value else 10;
      Some((offset.value, offset.value + size - 1))
  }

  /** Consecutive pages of the same size meet without gap or overlap. */
  lemma WindowsAdjoin(limit: Option<int>, offset: int)
    requires offset != 0
    requires var size := if Truthy(limit) then limit.value else 10; offset + size != 0
    ensures var size := if Truthy(limit) then limit.value else 10;
      RowWindow(limit, Some(offset)).value.1 + 1 == RowWindow(limit, Some(offset + size)).value.0
  {
  }

  /** The paging modifiers `getBlogPosts` puts on its query: `.limit(limit)`
      when the limit is truthy, and the row range when the offset is truthy. */
  datatype Paging = Paging(limit: Option<int>, range: Option<(int, int)>)

  function PagingOf(limit: Option<int>, offset: Option<int>): (q: Paging)
    ensures q.limit.Some? <==> Truthy(limit)
    ensures q.limit.Some? ==> q.limit.value == limit.value
    ensures q.range == RowWindow(limit, offset)
  {
    Paging(if Truthy(limit) then limit else None, RowWindow(limit, offset))
  }

  /** The row offset and the row count a query asks for. A range sets both and
      replaces the count of an earlier `.limit`; without a range the offset is 0
      and only `.limit` bounds the count. */
  function Requested(q: Paging): (int, Option<int>) {
    if q.range.Some? then (q.range.value.0, Some(q.range.value.1 - q.range.value.0 + 1))
    else (0, q.limit)
  }

  function Clip(n: int, hi: nat): (r: nat)
    ensures r <= hi
  {
    if n < 0 then 0 else if n > hi then hi else n
  }

  /** The rows a paged query returns out of the ordered matches `rows`: the
      requested count of rows from the requested offset on, cut short at the
      end. A negative offset or count is `None`: that answer is not modelled. */
  function Page<T>(rows: seq<T>, q: Paging): (r: Option<seq<T>>)
    ensures r.None? <==> Requested(q).0 < 0 || (Requested(q).1.Some? && Requested(q).1.value < 0)
    ensures r.Some? ==> forall i :: 0 <= i < |r.value| ==>
      Requested(q).0 + i < |rows| && r.value[i] == rows[Requested(q).0 + i]
    ensures r.Some? && Requested(q).1.Some? ==> |r.value| <= Requested(q).1.value
    ensures r.Some? && Requested(q).1.None? ==> Requested(q).0 + |r.value| == |rows|
  {
    var (o, n) := Requested(q);
    if o < 0 || (n.Some? && n.value < 0) then None
    else
      var a := Clip(o, |rows|);
      var b := if n.Some? then Clip(o + n.value, |rows|) else |rows|;
      Some(rows[a..b])
  }

  /** A truthy limit caps the rows returned whether or not an offset is given:
      the range then asks for exactly `limit` rows. */
  lemma LimitCaps<T>(rows: seq<T>, limit: Option<int>, offset: Option<int>)
    requires Truthy(limit)
    ensures var r := Page(rows, PagingOf(limit, offset));
      r.Some? ==> |r.value| <= limit.value
  {
  }

  /** Without a limit and an offset every matching row comes back. */
  lemma UnpagedIsAll<T>(rows: seq<T>, limit: Option<int>, offset: Option<int>)
    requires !Truthy(limit) && !Truthy(offset)
    ensures Page(rows, PagingOf(limit, offset)) == Some(rows)
  {
    assert rows[0..|rows|] == rows;
  }

  /** A page that ends inside the matches is full. */
  lemma PageFull<T>(rows: seq<T>, limit: Option<int>, offset: Option<int>)
    requires Truthy(limit) && 0 < limit.value
    requires offset.Some? && 0 <= offset.value && offset.value + limit.value <= |rows|
    ensures Page(rows, PagingOf(limit, offset)) == Some(rows[offset.value..offset.value + limit.value])
  {
  }

  /** Asking for the page at `offset` and then the one right after it reads
      the matches without gap or overlap. */
  lemma PagesAdjoin<T>(rows: seq<T>, limit: Option<int>, offset: int)
    requires 0 < offset
    requires var size := if Truthy(limit) then limit.value else 10; 0 <= size
    ensures var size := if Truthy(limit) then limit.value else 10;
      Page(rows, PagingOf(limit, Some(offset))).value + Page(rows, PagingOf(limit, Some(offset + size))).value
        == rows[Clip(offset, |rows|)..Clip(offset + 2 * size, |rows|)]
  {
  }
}
